=== FILE: README.md ===
# Job board: a Dafny model of its handlers and components

This project models the decision logic of a small job board. The job board
stores job postings in a document database. Three server back ends expose
them: a Spring controller and service, an Express app deployed as a Cloud
Function, and two Vercel functions (plus a standalone Express server). A
React front end lists, searches, recommends, posts and applies to jobs.

The model is functional. One `Jobs.Job` datatype with optional fields stands
for the Java bean, the JSON bodies and the documents the front end reads.
The document store is a `map<String, Job>`. The order in which a full scan
returns documents is a separate sequence of ids. Things the code receives
from outside are parameters:

- a generated document id;
- whether a remote call succeeded;
- the clock;
- the recommendation score.

Modules follow the source files:

- `Jobs`, `Http`, `Paging`, `Text`, `Seqs`, `Options` and `Express` are the
  shared vocabulary:
  - the document and the store;
  - responses;
  - window and `slice` arithmetic;
  - ASCII string functions (`toLowerCase`, `includes`, `trim`, `split`,
    `parseInt`);
  - `filter` and `arrayUnion`;
  - JavaScript `||` defaults;
  - first-match routing.
- `JobBean`, `JobService` and `JobController` model the Spring back end.
- `JsCrud` holds the JavaScript handler bodies. `FunctionsApi`, `VercelApi`
  and `NodeBackend` model the three JavaScript apps that dispatch to them.
- `SignUp`, `Recommendations`, `SeekerHome`, `ApplicationModal`, `JobForm`,
  `JobList`, `PageControls` and `EmployerHome` model the front-end pages and
  components.

Behaviour of the code worth knowing before reading the contracts:

- The Spring keyword filter is the closed range
  `[keyword, keyword + U+F8FF]`: `JobService.java` calls
  `whereLessThanOrEqualTo("title", keyword + '\uf8ff')`, so a title equal to
  the keyword followed by U+F8FF matches (`JobService.KeywordRangeExactly`).
- `from <= to <= total` holds only for non-negative page and size, and only
  when the products do not overflow `int`. See the findings.
- The Cloud Function, Vercel and Express back ends merge on PUT rather than
  replace (`JsCrud.Put`). Only the Spring service replaces
  (`JobService.UpdateJob`).
- The Spring service reads and writes through the `Job` bean
  (`Jobs.ToBean`): a document stored without `active` by a JavaScript back
  end reads as inactive there, and `status` and `featured` never appear in
  its answers. Its array and date fields are copied as read; their
  conversions are left out.
- The application dialog writes the submission time as `appliedAt`
  (ApplicationModal.tsx:154). The employer's dashboard orders and counts by
  `appliedDate` (EmployerHome.tsx:102, 123). An application the dialog
  creates has no `appliedDate`, so `EmployerHome.AppliedSince` never holds
  for it.
- `applicants` is treated as a set by the servers' `arrayUnion`. The
  dashboard's local update appends duplicates
  (`SeekerHome.LocalApplyVersusStore`).

## Model

| member | source | states |
|---|---|---|
| Options.OrElse | frontend/src/components/JobSeekerHome.tsx:102-111 | `x \|\| default` on text gives the stored text when it is present and non-empty, and the default otherwise |
| Seqs.Filter | functions/index.js:111 | `filter` keeps exactly the elements satisfying the predicate, each from the input |
| Seqs.FilterIsSubseq | functions/index.js:109-129 | a filter result is an order-preserving subsequence of its input |
| Seqs.FilterIdempotent | frontend/src/components/JobSeekerHome.tsx:312-332 | filtering again with the same predicate changes nothing |
| Seqs.ArrayUnion | functions/index.js:166-168 | `arrayUnion` leaves the element present once if it was absent, keeps existing entries and their order, and adds at most one |
| Seqs.ArrayUnionIdempotent | functions/index.js:165-168 | a second `arrayUnion` of the same element is a no-op |
| Seqs.RemoveAll | frontend/src/components/JobSeekerHome.tsx:436 | filtering out an id removes every copy, keeps every other entry, and keeps their order |
| Text.Trim | frontend/src/components/ApplicationModal.tsx:112 | the result is the input with only whitespace removed before and after it, has no whitespace at either end, and is empty exactly for blank input |
| Text.TrimCut | frontend/src/components/ApplicationModal.tsx:112 | dropping leading and then trailing whitespace leaves the input with only whitespace removed around it |
| Text.TrimInfix | frontend/src/components/ApplicationModal.tsx:112 | what `trim` yields is an infix of its input |
| Text.TrimTrimmed | frontend/src/components/JobRecommendations.tsx:161-162 | a string with no whitespace at either end is its own trim |
| Text.Split | frontend/src/components/ApplicationModal.tsx:112 | `split(c)` yields at least one piece and no piece contains `c` |
| Text.JoinSplit | frontend/src/components/ApplicationModal.tsx:112 | joining the pieces of a split with the separator restores the string |
| Text.SplitJoin | frontend/src/components/ApplicationModal.tsx:112 | splitting a join of separator-free pieces recovers the pieces |
| Text.SplitHead | frontend/src/components/ApplicationModal.tsx:151 | the first piece of a split is the prefix before the first separator, or the whole string when there is none |
| Text.SplitHeadIsPrefixBefore | frontend/src/components/ApplicationModal.tsx:151 | the first piece of a split is the one prefix that holds no separator and is followed by a separator or by nothing |
| Text.ParseList | frontend/src/components/ApplicationModal.tsx:112 | `split(',').map(trim).filter(Boolean)` is, piece by piece in order, nothing for a blank piece and the trim of any other; so its items are non-empty, comma-free and trimmed |
| Text.TrimThenDropEmpty | frontend/src/components/ApplicationModal.tsx:112 | trimming every piece and dropping the empty ones is dropping the blank pieces and trimming the others |
| Text.ParseListJoin | frontend/src/components/JobForm.tsx:43 | a list of non-empty, trimmed, comma-free items joined with commas parses back to the same list |
| Text.JoinWithPadded | frontend/src/components/ApplicationModal.tsx:372 | joining with a comma and a pad is joining with a bare comma the pieces after the first, each prefixed by the pad |
| Text.ParseListJoinWith | frontend/src/components/ApplicationModal.tsx:372 | a list of non-empty, trimmed, comma-free items rendered with `join(', ')` parses back to the same list; the empty list renders as the empty string and parses back to no items |
| Text.ParseInt | functions/index.js:41-42 | `parseInt(s, 10)` is NaN exactly when no digit follows the optional whitespace and sign |
| Text.ParseIntDecimal | functions/index.js:41-42 | `parseInt` reads back the decimal rendering of every natural number |
| Text.ParseIntNaN | functions/index.js:41-42 | `parseInt` of an empty string, or of one starting with anything but whitespace, a sign or a digit, is NaN |
| Text.ParseIntNegative | functions/index.js:41-42 | `parseInt` of `-` before a decimal rendering is the negated number |
| Jobs.WithId | functions/index.js:69 | `{ id: doc.id, ...data }` always has an id: the document id, unless the data carries its own; no other field changes |
| Jobs.MergeLaws | functions/index.js:79 | a merge write keeps the fields the body lacks, takes those it has, is idempotent, and a body with every field replaces the document |
| Jobs.MergeAt | functions/index.js:79 | `set(body, { merge: true })` merges into an existing document, creates it from the body otherwise, and touches no other document |
| Jobs.ToBean | backend/src/main/java/com/jobseeker/model/Job.java:9-30 | reading a document or body into the bean: `active` is always present and is true only for an explicit true, `status` and `featured` are dropped, and every other field is copied as read (the array and date conversions are left out) |
| Jobs.ToBeanLaws | backend/src/main/java/com/jobseeker/model/Job.java:9-30 | reading a bean again changes nothing, a job is a bean iff it is its own reading, `status` and `featured` never matter, and a missing `active` reads as false |
| Jobs.Documents | backend/src/main/java/com/jobseeker/service/JobService.java:22-30 | the full scan yields, as beans, every stored document the order names, and nothing that is not stored |
| Jobs.Identified | functions/index.js:44-45 | the JavaScript scan yields each listed document with its id, and every result carries an id |
| Jobs.ScanSize | functions/index.js:44-45 | a scan over an order that lists each stored id once returns as many documents as the store holds |
| Paging.ClampedWindow | backend/src/main/java/com/jobseeker/controller/JobController.java:38-39 | for non-negative page and size, `0 <= from <= to <= total`, the window holds at most `size` items, is empty past the end, and is exactly `[page*size, page*size+size)` when that fits |
| Paging.ClampedPagesTile | backend/src/main/java/com/jobseeker/controller/JobController.java:38-39 | consecutive pages of one size meet: page `p` ends where page `p + 1` starts |
| Paging.RelativeIndex | functions/index.js:49 | a `slice` index counts back from the end when negative and is clamped to `[0, length]` |
| Paging.Slice | functions/index.js:49 | `slice(start, end)` for `0 <= start <= end` is the clamped range and has at most `end - start` items |
| Paging.PageSlice | functions/index.js:48-49 | the page slice has at most `size` items and is empty when `page*size` is past the end |
| Paging.PageSliceIsWindow | functions/index.js:48-49 | for non-negative page and size the JavaScript slice is exactly the Java clamped window |
| Paging.PageSlicesTile | functions/index.js:48-49 | pages `0 .. n-1` of one size, concatenated, are the list's prefix of length `n*size`, so paging never skips or repeats a job |
| Paging.NegativeSizeDropsTail | functions/index.js:42-49 | a negative size, read as written, makes page 0 return everything but the last `-size` jobs |
| Paging.PageCount | frontend/src/components/JobList.tsx:96 | `ceil(total/size)` covers the total, leaves no empty last page, and is 0 exactly for no jobs |
| JobBean.ValidMeans | backend/src/main/java/com/jobseeker/model/Job.java:11-26 | a job is valid iff title, company, location and description each hold a character above U+0020, which Java's `trim` keeps, and the expiry date is present; so each of the four then holds a non-whitespace character, a whitespace-only one of the four or a missing expiry is invalid, and a missing posted date does not matter |
| JobBean.BlankWider | backend/src/main/java/com/jobseeker/model/Job.java:5-18 | every whitespace-only string is blank for `@NotBlank`, and so is U+0001, which is not whitespace |
| JobBean.BlankExamples | backend/src/main/java/com/jobseeker/model/Job.java:11-12 | spaces, the empty string, null and control characters are blank; a string with a letter is not |
| JobBean.UnconstrainedFields | backend/src/main/java/com/jobseeker/model/Job.java:19-29 | id, requirements, type, salary, experience level, skills, dates other than expiry, active, company id and applicants never affect validity |
| JobService.GetJobById | backend/src/main/java/com/jobseeker/service/JobService.java:32-39 | null exactly when no document exists at the id, otherwise the stored document read into the bean |
| JobService.CreateJob | backend/src/main/java/com/jobseeker/service/JobService.java:42-46 | the body read into the bean gets the generated id and no other change, is stored under it as it is, and other documents are untouched |
| JobService.UpdateJob | backend/src/main/java/com/jobseeker/service/JobService.java:49-51 | the document at the id becomes exactly the body read into the bean (so a missing `active` is stored as false and `status`/`featured` are dropped), which is returned without taking the path id; other documents are untouched |
| JobService.DeleteJob | backend/src/main/java/com/jobseeker/service/JobService.java:54-56 | removes the key if present and changes nothing else |
| JobService.ReadAfterWrite | backend/src/main/java/com/jobseeker/service/JobService.java:32-56 | a read after create, update or delete sees that write as a bean; deleting an absent id is a no-op; a create under a fresh id grows the store by one; a job saved without `active` reads back inactive |
| JobService.UpdateReplaces | backend/src/main/java/com/jobseeker/service/JobService.java:49-51 | a field the new body lacks is absent afterwards: nothing is merged |
| JobService.RangeMatchHasPrefix | backend/src/main/java/com/jobseeker/service/JobService.java:63-64 | every title in `[keyword, keyword + U+F8FF]` begins with the keyword |
| JobService.KeywordRangeExactly | backend/src/main/java/com/jobseeker/service/JobService.java:63-64 | a title is in range iff it is the keyword, or the keyword followed by a character below U+F8FF, or the keyword followed by U+F8FF alone |
| JobService.SearchJobs | backend/src/main/java/com/jobseeker/service/JobService.java:58-81 | the result is the order-preserving subsequence of stored documents matching every supplied filter, and it contains all of them; with no filter it is every document |
| JobService.SearchResultsMeaning | backend/src/main/java/com/jobseeker/service/JobService.java:62-73 | each result's title starts with the keyword, and its location and type equal the given ones exactly |
| JobController.IsAuthorized | backend/src/main/java/com/jobseeker/controller/JobController.java:28-30 | false without a header, otherwise true exactly when the header equals the key |
| JobController.Wrap32 | backend/src/main/java/com/jobseeker/controller/JobController.java:38-39 | Java `int` arithmetic: in-range values are kept and others wrap modulo 2^32 |
| JobController.WindowAsWritten | backend/src/main/java/com/jobseeker/controller/JobController.java:38-39 | the 32-bit window never exceeds the total, but it may start below 0 |
| JobController.WindowAgrees | backend/src/main/java/com/jobseeker/controller/JobController.java:38-39 | when `page * size + size` fits in `int` for non-negative arguments, the 32-bit window is the unbounded clamped window |
| JobController.PageResponse | backend/src/main/java/com/jobseeker/controller/JobController.java:40-44 | `subList` answers 200 with the window and the full count exactly when `0 <= from <= to <= size`, and 500 otherwise |
| JobController.ListAsWritten | backend/src/main/java/com/jobseeker/controller/JobController.java:32-45 | with the 32-bit window, any 200 reports the unpaginated total |
| JobController.OverflowCounterexample | backend/src/main/java/com/jobseeker/controller/JobController.java:38-40 | over one job, page = size = 46341 fails and page = size = 65536 returns the job; the unbounded window gives an empty page for both |
| JobController.List | backend/src/main/java/com/jobseeker/controller/JobController.java:32-45 | for non-negative page and size: 200, exactly the jobs in the clamped window, at most `size` of them, empty past the end, and the unpaginated total |
| JobController.ListPagesTile | backend/src/main/java/com/jobseeker/controller/JobController.java:38-39 | two consecutive pages concatenated are the contiguous run of jobs they cover |
| JobController.Search | backend/src/main/java/com/jobseeker/controller/JobController.java:81-97 | for non-negative page and size computed without wrap-around: 200, exactly the clamped window of the service's filtered list, at most `size` jobs, and the filtered count as total |
| JobController.SearchAsWritten | backend/src/main/java/com/jobseeker/controller/JobController.java:81-97 | the search with the 32-bit window of lines 90-91: any 200 reports the filtered count |
| JobController.AsWrittenAgrees | backend/src/main/java/com/jobseeker/controller/JobController.java:32-97 | where nothing overflows, the listing and the search as written answer exactly as the corrected ones |
| JobController.SearchOverflowCounterexample | backend/src/main/java/com/jobseeker/controller/JobController.java:90-92 | over one job and no filters, page = size = 46341 makes the search as written fail, where the corrected search answers an empty page |
| JobController.Get | backend/src/main/java/com/jobseeker/controller/JobController.java:47-54 | 404 with no body exactly when the id is absent, otherwise 200 with the stored job read into the bean |
| JobController.Create | backend/src/main/java/com/jobseeker/controller/JobController.java:56-62 | unauthorized: 401 and the store unchanged; authorized: 200 with the body read into the bean and stamped with its new id, which is stored |
| JobController.Update | backend/src/main/java/com/jobseeker/controller/JobController.java:64-70 | unauthorized: 401 and the store unchanged; authorized: the document becomes exactly the body read into the bean |
| JobController.Delete | backend/src/main/java/com/jobseeker/controller/JobController.java:72-79 | unauthorized: 401 and the store unchanged; authorized: 200 whether or not the id existed, and the id is gone |
| JsCrud.QueryInt | functions/index.js:41-42 | `parseInt(p, 10) \|\| d`: the default for a missing, non-numeric or zero parameter, the parsed number otherwise |
| JsCrud.QueryIntExamples | functions/index.js:41-42 | `abc` is page 0, and an empty or zero size is 10 |
| JsCrud.QueryIntDecimal | functions/index.js:41-42 | the decimal rendering of any positive number is read as that number, whatever the default |
| JsCrud.LocationStage | functions/index.js:110-113 | the guarded location stage is the one filter "empty query or location contains it, ignoring case" |
| JsCrud.TypeStage | functions/index.js:115-118 | the guarded type stage is the one filter "empty query or type equal" |
| JsCrud.KeywordStage | functions/index.js:121-129 | the guarded keyword stage is the one filter "empty query or title, description or company contains it, ignoring case" |
| JsCrud.StagesCompose | functions/index.js:109-129 | the three stages in a row are one filter by their conjunction |
| JsCrud.FilterJobs | functions/index.js:109-129 | the search keeps exactly the jobs passing every non-empty filter, in order; empty filters keep the list |
| JsCrud.FilterJobsIdempotent | functions/index.js:109-129 | filtering the filtered list again changes nothing |
| JsCrud.FilterJobsMembership | functions/index.js:110-127 | a listed job survives the filters iff it matches all non-empty ones |
| JsCrud.Paginate | functions/index.js:132-142 | 200 with the parsed page and size, the list's full length as total, and the jobs of JavaScript's `slice(page * size, page * size + size)`; for non-negative arguments at most `size` jobs, exactly the clamped window |
| JsCrud.PageWindow | functions/index.js:134-135 | for non-negative page and size the slice is the clamped window |
| JsCrud.ListSize | functions/index.js:44-53 | over a scan order listing each stored id once, the total is the store's size |
| JsCrud.List | functions/index.js:38-60 | 200 with the parsed page and size, the `slice` page of the stored jobs in scan order (the clamped window for non-negative arguments), and the count of all of them as total |
| JsCrud.Search | functions/index.js:97-147 | 200 with the `slice` page of the jobs meeting every filter (the clamped window for non-negative arguments); total is the filtered count, independent of the page; at most `size` jobs |
| JsCrud.SliceMatches | functions/index.js:134-135 | any slice of matching jobs holds only matching jobs |
| JsCrud.Create | functions/index.js:27-35 | 201 with the body under the generated id (the body's own id wins); the body is stored as given |
| JsCrud.Get | functions/index.js:63-73 | 404 exactly when the document is absent, otherwise the document with its id |
| JsCrud.Put | functions/index.js:76-84 | merges the body into the document, creating it if absent, and echoes `{ id, ...body }`; a field the body lacks keeps its stored value |
| JsCrud.Delete | functions/index.js:87-94 | "Job deleted" whether or not the id existed; the id is gone and every other document unchanged |
| JsCrud.Apply | functions/index.js:150-174 | 400 without a user id, 404 for a missing job, both leaving the store unchanged; otherwise the old applicants are kept in order as a prefix, the user is in the list, exactly once if new, at most one entry is added, the list is unchanged if the user was there, and nothing else changes |
| JsCrud.ApplyIdempotent | functions/index.js:165-168 | applying twice is applying once |
| Express.FirstMatch | functions/index.js:27-150 | the handling route matches and no earlier route does; no route handles a request iff none matches |
| Express.CoversMatches | functions/index.js:63-97 | a request a specific route matches is matched by any route covering it |
| Express.ShadowedRoute | functions/index.js:63-97 | a route registered after one covering it never handles a request |
| Express.PathVerbsMeaning | backend-nodejs/index.js:24-77 | the methods of the routes whose path matches are exactly those for which some route handles the request, and there are none iff no route's path matches |
| Express.AllowedVerbs | backend-nodejs/index.js:24-77 | the methods of Express's automatic OPTIONS answer: a method other than HEAD is listed iff some route of that method handles the path, HEAD iff a HEAD or GET route does, and the list is empty iff no route's path matches |
| Express.Dispatch | backend-nodejs/index.js:24-77 | the router hands a request to the first matching route; an OPTIONS request no route handles gets the allowed methods when some route's path matches; otherwise it is unrouted (Express's 404) |
| FunctionsApi.HandleWith | functions/index.js:20-174 | `cors()` answers every OPTIONS request with 204, no body and the store unchanged, before any route; any other request no route matches is 404 with the store unchanged, and otherwise the handler of the first matching route runs |
| FunctionsApi.SearchShadowed | functions/index.js:63-97 | in the registered order the search route never handles a request, and `GET /jobs/search` answers "Job not found" unless a document is named `search` |
| FunctionsApi.EveryRouteReachable | functions/index.js:27-150 | with the search route registered first, every route is the first match for a path of its own shape |
| FunctionsApi.Handle | functions/index.js:20-174 | over the corrected table (search registered first): GET never changes the store, OPTIONS on any path is the 204 preflight answer, and any other request for a path outside `/jobs` is 404 |
| FunctionsApi.HandleCases | functions/index.js:27-150 | over the corrected table: which route takes each request shape; GET lands on list, search or get only |
| FunctionsApi.Run | functions/index.js:27-174 | the list, search and get callbacks only read: the store they return is the one they were given |
| FunctionsApi.RoutingIsRouted | functions/index.js:27-150 | first-match routing over the corrected table (search registered first) is the plain case analysis `Routed` on method and path shape, in both directions |
| FunctionsApi.HandleDispatch | functions/index.js:27-174 | over the corrected table, each request shape runs its handler: search, get, list, create, merge-put, delete, apply |
| NodeBackend.ListAll | backend-nodejs/index.js:35-43 | 200 with every stored document and its id, unpaginated, as many as the store holds |
| NodeBackend.Run | backend-nodejs/index.js:24-77 | the list and get callbacks only read: the store they return is the one they were given |
| NodeBackend.Handle | backend-nodejs/index.js:20-77 | GET and OPTIONS never change the store; a method other than GET, POST, PUT, DELETE and OPTIONS is 404; OPTIONS is 200 listing the allowed methods iff some route's path matches, and 404 otherwise |
| NodeBackend.OptionsAnswers | backend-nodejs/index.js:24-77 | OPTIONS on `/jobs` is 200 allowing GET, HEAD and POST, on `/jobs/<id>` 200 allowing GET, HEAD, PUT and DELETE, elsewhere 404, never changing the store |
| NodeBackend.AllowedOnPath | backend-nodejs/index.js:24-77 | `/jobs` allows GET, HEAD and POST, `/jobs/<id>` allows GET, HEAD, PUT and DELETE, and any other path allows nothing |
| NodeBackend.RouteVerbs | backend-nodejs/index.js:24-77 | only GET, POST, PUT and DELETE reach a handler, and GET reaches list or get |
| NodeBackend.HandleDispatch | backend-nodejs/index.js:24-77 | each request shape runs its handler (create, list, get, merge-put, delete), `GET /jobs/search` is a lookup of the id `search`, and a POST to any other path is 404 |
| VercelApi.NotAllowed | api/jobs.js:101-103 | the answer is 405 |
| VercelApi.HandleJobs | api/jobs.js:24-108 | OPTIONS is an empty 200; GET with an id is get-by-id, without one the filtered, paginated list; POST creates; PUT merges and DELETE deletes by the query id, or fail with 500 without one; other methods are 405; only writes change the store |
| VercelApi.HandleSearch | api/jobs/search.js:24-82 | never changes the store; OPTIONS is 200, any other non-GET method 405, GET the filtered, paginated list |
| VercelApi.ListingIsSearch | api/jobs.js:39-76 | a GET without an id in one function answers what the search function answers, and every returned job matches the filters |
| SignUp.EmailMeaning | frontend/src/pages/SignUp.tsx:48 | the e-mail pattern holds iff there is exactly one `@`, not first, with a `.` in the domain that has text on both sides, and no whitespace |
| SignUp.TwoAts | frontend/src/pages/SignUp.tsx:48 | an address with two `@` is rejected |
| SignUp.EmailExamples | frontend/src/pages/SignUp.tsx:48 | `a@b.c` is accepted; `a@bc`, `a@@b.c` and `a b@c.d` are not |
| SignUp.FirstFailure | frontend/src/pages/SignUp.tsx:45-56 | no message iff every rule holds, otherwise the message of the first failing rule |
| SignUp.Validate | frontend/src/pages/SignUp.tsx:45-56 | null iff the form is valid; a short or mismatched password always yields an error; a role other than jobseeker or employer needs neither location nor company |
| SignUp.ValidateFirstFailure | frontend/src/pages/SignUp.tsx:45-56 | `validate` answers with the first failing rule in source order |
| SignUp.InitialFormInvalid | frontend/src/pages/SignUp.tsx:6-22 | the untouched form fails first on the full name |
| SignUp.NextStep | frontend/src/pages/SignUp.tsx:130-141 | step 2 with the error cleared iff role, name, e-mail and both passwords are filled in and equal; otherwise the step stays and the error is set |
| SignUp.StepOneCoversValidate | frontend/src/pages/SignUp.tsx:130-141 | passing step one rules out the missing-name, missing-e-mail and mismatch errors |
| SignUp.Strength | frontend/src/pages/SignUp.tsx:143-151 | the score is 0..5, 0 for the empty password, and 5 iff length >= 8 with a lower-case letter, an upper-case letter, a digit and another character |
| SignUp.StrengthMonotone | frontend/src/pages/SignUp.tsx:143-151 | appending characters never lowers the score |
| SignUp.StrengthExamples | frontend/src/pages/SignUp.tsx:143-151 | `Passw0rd!` scores 5 and `abc` scores 1 |
| SignUp.StoredRole | frontend/src/pages/SignUp.tsx:72-77 | the role is admin iff the e-mail is the admin address, the name is `admin`, or admin was selected; otherwise it is the selected role |
| SignUp.Submit | frontend/src/pages/SignUp.tsx:58-77 | refused iff the form is invalid, with `validate`'s message; a valid form registers with the stored role exactly when the account service reports no error, and otherwise shows that error |
| SignUp.EnabledSubmitValid | frontend/src/pages/SignUp.tsx:597 | an enabled submit button means a valid form that is not refused |
| Recommendations.Level | frontend/src/components/JobRecommendations.tsx:137-145 | `entry`, `mid`, `senior` and `executive` are levels 1 to 4, and each of the levels 2 to 4 belongs to its one name only; any other name is level 1 |
| Recommendations.ExperienceMatch | frontend/src/components/JobRecommendations.tsx:136-158 | the match is 1 iff levels are equal, 0.8 iff the user is one level above, 0.3 iff below, 0.5 iff two or more above |
| Recommendations.ExperienceByLevel | frontend/src/components/JobRecommendations.tsx:136-158 | the match depends on the two names only through their levels, on either side, and names of different levels are told apart |
| Recommendations.ExperienceCaseSensitive | frontend/src/components/JobRecommendations.tsx:137-145 | `MID` against `SENIOR` is a perfect match, because both are unknown names at level 1 |
| Recommendations.LocationMatch | frontend/src/components/JobRecommendations.tsx:160-176 | 1 iff the cities agree, 0.9 iff they differ and the job says remote, 0.7 only for equal non-empty states, otherwise 0.2 |
| Recommendations.CaselessParts | frontend/src/components/JobRecommendations.tsx:161-170 | city and state are read from the lower-cased location, so case never matters |
| Recommendations.LocationMatchCaseless | frontend/src/components/JobRecommendations.tsx:160-176 | the match ignores case and a location matches itself fully |
| Recommendations.SameStateMatch | frontend/src/components/JobRecommendations.tsx:168-171 | different cities, no remote job and equal non-empty states give 0.7 |
| Recommendations.SameStateExample | frontend/src/components/JobRecommendations.tsx:168-171 | `a,tx` against `b,tx` gives 0.7 |
| Recommendations.RemoteExample | frontend/src/components/JobRecommendations.tsx:167 | a remote job in another city gives 0.9 |
| Recommendations.Insert | frontend/src/components/JobRecommendations.tsx:133 | inserting into a list sorted best first keeps it sorted and adds exactly that job |
| Recommendations.SortByScore | frontend/src/components/JobRecommendations.tsx:133 | the sort is best first and a permutation of its input |
| Recommendations.Calculate | frontend/src/components/JobRecommendations.tsx:89-134 | without a profile, the first ten jobs in order; with one, a best-first permutation of the jobs neither saved nor applied to |
| Recommendations.Displayed | frontend/src/components/JobRecommendations.tsx:77 | the leading part of the full recommendation list: ten cards, or every recommendation when there are fewer, each an offered job, never saved or applied to, best first |
| Recommendations.CalculateCount | frontend/src/components/JobRecommendations.tsx:89-134 | with a profile, the recommendations number exactly the jobs neither saved nor applied to |
| Recommendations.Reason | frontend/src/components/JobRecommendations.tsx:178-213 | no profile, or no applicable reason, gives "Recommended for you" |
| Recommendations.ReasonFirstApplicable | frontend/src/components/JobRecommendations.tsx:178-213 | the reason is the first that applies, in order: skills, exact level, remote, nearby |
| Recommendations.SkillReasonNamesWantedSkills | frontend/src/components/JobRecommendations.tsx:183-192 | a skills reason names at most two skills, each from the job and wanted by the seeker |
| SeekerHome.Normalise | frontend/src/components/JobSeekerHome.tsx:98-114 | a loaded job has every field the dashboard reads; stored non-empty text is kept; active unless stored exactly false; featured only when stored true |
| SeekerHome.NormaliseIdempotent | frontend/src/components/JobSeekerHome.tsx:98-114 | normalising a normalised job changes nothing, whatever the clock |
| SeekerHome.NormaliseFallback | frontend/src/components/JobSeekerHome.tsx:121-128 | the fallback loader keeps every stored field and defaults only active, applicants and status |
| SeekerHome.FieldTextMentions | frontend/src/components/JobSeekerHome.tsx:314-320 | reading a missing field as empty agrees with the servers' `field && ...` test for a non-empty keyword |
| SeekerHome.HitsAgree | frontend/src/components/JobSeekerHome.tsx:312-326 | the dashboard's keyword and location tests agree with the Cloud Function's |
| SeekerHome.KeywordStageIsOk | frontend/src/components/JobSeekerHome.tsx:312-320 | the dashboard's keyword stage is the server's keyword filter |
| SeekerHome.LocationStageIsOk | frontend/src/components/JobSeekerHome.tsx:322-327 | the dashboard's location stage is the server's location filter |
| SeekerHome.TypeStageIsOk | frontend/src/components/JobSeekerHome.tsx:329-331 | the dashboard's type stage is the server's type filter |
| SeekerHome.SearchJobs | frontend/src/components/JobSeekerHome.tsx:309-336 | keyword, then location, then type selects exactly what the server's location, type, keyword order selects: an order-preserving subsequence, the whole list for empty filters |
| SeekerHome.SearchIsFilter | frontend/src/components/JobSeekerHome.tsx:309-336 | the filters in the component's order equal the server's filter |
| SeekerHome.Search | frontend/src/components/JobSeekerHome.tsx:309-336 | the filtered list replaces the jobs, the All tab shows, and nothing else changes |
| SeekerHome.SearchLaws | frontend/src/components/JobSeekerHome.tsx:309-336 | repeating a search changes nothing, and a later search only narrows the list |
| SeekerHome.AddApplicant | frontend/src/components/JobSeekerHome.tsx:351-355 | jobs with the id gain exactly one more copy of the uid and nothing else; other jobs are unchanged |
| SeekerHome.LocalApplyVersusStore | frontend/src/components/JobSeekerHome.tsx:351-355 | the local append equals `arrayUnion` on a first application and differs on a repeated one |
| SeekerHome.Apply | frontend/src/components/JobSeekerHome.tsx:339-379 | without a user, or after a failed call, nothing changes; otherwise the applicant is added in the jobs, featured and recent lists only |
| SeekerHome.AppliedCount | frontend/src/components/JobSeekerHome.tsx:266-268 | the number of jobs applied to never exceeds the number of jobs |
| SeekerHome.AppliedCountIsFilter | frontend/src/components/JobSeekerHome.tsx:266-268 | counting job by job equals the length of `jobs.filter(job => job.applicants.includes(uid))` |
| SeekerHome.LoadStats | frontend/src/components/JobSeekerHome.tsx:263-276 | total is the job count; applied is 0 without a user and otherwise the number of loaded jobs listing the user; saved counts saved ids; views are 0 |
| SeekerHome.NoneApplied | frontend/src/components/JobSeekerHome.tsx:266-268 | with no job listing the user, the applied count is 0 |
| SeekerHome.AddApplicantCount | frontend/src/components/JobSeekerHome.tsx:351-355 | adding an applicant never lowers anyone's count and raises theirs by the matching jobs not yet applied to |
| SeekerHome.ApplyRaisesStats | frontend/src/components/JobSeekerHome.tsx:339-373 | a successful first application to a listed job raises the applied tile |
| SeekerHome.DisplayJobs | frontend/src/components/JobSeekerHome.tsx:381-392 | saved shows the saved list; recent shows the recent list, else the first eight jobs; featured shows the featured list, else exactly the flagged jobs in order; otherwise every job |
| SeekerHome.DisplayFromState | frontend/src/components/JobSeekerHome.tsx:381-392 | every job a tab shows comes from one of the dashboard's lists |
| SeekerHome.FindById | frontend/src/components/JobSeekerHome.tsx:398-400 | `find` returns the first job with the id, and nothing iff no job has it |
| SeekerHome.JobToSave | frontend/src/components/JobSeekerHome.tsx:396-424 | the job to save has the id and comes from the job list, else the featured list, else the recent list, else the normalised stored document; none is found iff no list has it and the document does not exist |
| SeekerHome.SaveChange | frontend/src/components/JobSeekerHome.tsx:394-438 | saving appends the id and adds the job only if no saved job has that id; unsaving removes every copy of the id and every job with it, keeping the rest in order; nothing else changes |
| SeekerHome.SaveKeepsDistinct | frontend/src/components/JobSeekerHome.tsx:428-437 | saving and unsaving never put two jobs with one id in the saved list |
| SeekerHome.FilterKeepsDistinct | frontend/src/components/JobSeekerHome.tsx:437 | removing jobs keeps the saved ids distinct |
| ApplicationModal.SkillsInput | frontend/src/components/ApplicationModal.tsx:111-117 | the skills are, in order, the trims of the non-blank comma-separated pieces; each is non-empty, comma-free and trimmed |
| ApplicationModal.SkillsRoundTrip | frontend/src/components/ApplicationModal.tsx:110-116 | skills rendered as `skills.join(', ')`, as the field shows them at line 372, read back as the same list, the empty list included; a non-empty list joined with bare commas reads back too |
| ApplicationModal.DocxRedundant | frontend/src/components/ApplicationModal.tsx:123 | the `docx` test never decides: the type check is "mentions pdf or doc" |
| ApplicationModal.CvUpload | frontend/src/components/ApplicationModal.tsx:119-135 | no file changes nothing; a wrong type or a file over 5 MiB sets its error and keeps the previous CV; an acceptable file becomes the CV and clears the error |
| ApplicationModal.UploadsKeepCvAcceptable | frontend/src/components/ApplicationModal.tsx:119-135 | over any run of choices the dialog only ever holds an acceptable CV |
| ApplicationModal.SizeBoundary | frontend/src/components/ApplicationModal.tsx:128 | exactly 5 MiB is accepted and one byte more is refused |
| ApplicationModal.UserName | frontend/src/components/ApplicationModal.tsx:151 | the display name if non-empty; otherwise the e-mail text before its first `@` if that is non-empty; otherwise `User`; never empty |
| ApplicationModal.UserNameFromEmail | frontend/src/components/ApplicationModal.tsx:151 | for `local@domain` with no display name the name is `local` |
| ApplicationModal.AddApplicantTo | frontend/src/components/ApplicationModal.tsx:178-180 | the old applicants are kept in order as a prefix, the uid is present, exactly once if it was new, at most one entry is added, and other fields and documents are unchanged |
| ApplicationModal.Submit | frontend/src/components/ApplicationModal.tsx:137-225 | no user does nothing; CV mode without a file sets the error and writes nothing; otherwise one pending application for the user and job is appended, with a CV iff in CV mode; it then succeeds with the applicant added, or, when the job document is missing, shows the generic error and leaves the success flag as it was |
| ApplicationModal.SubmitTwice | frontend/src/components/ApplicationModal.tsx:176-207 | submitting twice writes two application records, but the second leaves the job's applicant list as the first left it |
| JobForm.PostBody | frontend/src/components/JobForm.tsx:41-44 | the posted skills are, in order, the trims of the non-blank comma-separated pieces of the field; each is non-empty, comma-free and has no whitespace at either end |
| JobForm.PostBodyForwards | frontend/src/components/JobForm.tsx:41-44 | every field but the skills text is forwarded unchanged, and no id, applicants or active flag is added |
| JobForm.PostedSkills | frontend/src/components/JobForm.tsx:43 | skills typed as a tidy comma-separated list are posted as that list, and an empty field posts no skills |
| JobForm.Submit | frontend/src/components/JobForm.tsx:29-52 | a body is posted iff the five required fields are non-empty; an incomplete form shows the missing-fields error; success iff posted and the server accepted; a refused post shows the failure message |
| JobForm.InitialFormRefused | frontend/src/components/JobForm.tsx:5-16 | the untouched form cannot be posted |
| JobForm.FormVersusBean | frontend/src/components/JobForm.tsx:35-39 | a complete form whose required fields each hold a character above U+0020 posts a body that passes the bean's validation constraints, a body that passes them came from non-empty fields, and a one-space title passes the form but fails the bean |
| JobList.TotalPages | frontend/src/components/JobList.tsx:96 | `ceil(total/10)`: covers the total, no empty last page, 0 iff there are no jobs |
| JobList.FetchCall | frontend/src/components/JobList.tsx:22-31 | search iff filters are set, with their three values; either way the requested page and ten jobs |
| JobList.Receive | frontend/src/components/JobList.tsx:34-35 | missing jobs become `[]` and a missing total 0; page and filters stay |
| JobList.Search | frontend/src/components/JobList.tsx:59-80 | only keyword, location and type are kept, the page returns to 0, and page 0 is fetched with them |
| JobList.SearchIgnoresExtras | frontend/src/components/JobList.tsx:73-80 | forms agreeing on the three kept filters search alike |
| JobList.SearchStartsOnFirstPage | frontend/src/components/JobList.tsx:73-80 | after a search the page is in range and Previous is disabled |
| JobList.Buttons | frontend/src/components/JobList.tsx:156-168 | Previous is enabled iff the page is not 0; Next iff a later page exists, and then jobs remain past the current page |
| JobList.IsApplied | frontend/src/components/JobList.tsx:147 | false without a user, otherwise true iff the job's applicants contain their uid |
| JobList.AppliedAfterApply | frontend/src/components/JobList.tsx:147 | after the dashboard records an application the badge shows |
| PageControls.Click | frontend/src/components/Pagination.tsx:12-25 | an enabled Previous asks for `page - 1` and Next for `page + 1`; a disabled button keeps the page; a page in range stays in range |
| PageControls.ClicksStayInRange | frontend/src/components/Pagination.tsx:12-25 | from a page in range, any run of clicks stays within `[0, max(totalPages - 1, 0)]` |
| PageControls.NextReachesEveryPage | frontend/src/components/Pagination.tsx:20-25 | from the first page, `k` Next clicks reach page `k` for every existing page |
| PageControls.NextThenPrefix | frontend/src/components/Pagination.tsx:22-23 | before the last page, one more Next click moves one page further |
| PageControls.EmptyList | frontend/src/components/JobList.tsx:156-168 | with no jobs there are no pages; Next is disabled on exactly the pages from -1 up, the only page in range is the first, and there Previous is disabled too |
| EmployerHome.LoadJob | frontend/src/components/EmployerHome.tsx:84-90 | active only when stored as true; the status defaults to approved and the applicants to `[]`; every other field is kept |
| EmployerHome.ActiveDefaultsDisagree | frontend/src/components/EmployerHome.tsx:88 | a missing active flag is true on the seeker's dashboard and false on the employer's; an explicit flag reads alike |
| EmployerHome.LoadApplication | frontend/src/components/EmployerHome.tsx:106-110 | the id is a stored `id` field if the document has one, otherwise the document id; the status is the stored one if non-empty, otherwise pending; the stored `appliedDate` is kept |
| EmployerHome.LoadApplicationLaws | frontend/src/components/EmployerHome.tsx:106-110 | the id is chosen as the job loaders choose it with `{ id, ...data }`, and loading a listed application again gives it back unchanged |
| EmployerHome.CalculateStats | frontend/src/components/EmployerHome.tsx:117-135 | totals are the list lengths; active jobs are the ones flagged true and new applications the ones since today, each at most its total |
| EmployerHome.NewTodayMonotone | frontend/src/components/EmployerHome.tsx:122-124 | an earlier "today" never lowers the new-applications count |
| EmployerHome.LoadedActiveCount | frontend/src/components/EmployerHome.tsx:84-128 | loaded jobs not stored as active count as inactive |
| EmployerHome.RoundFraction | frontend/src/components/EmployerHome.tsx:248 | `Math.round(num/den)` is within one half of the fraction, halves rounding up |
| EmployerHome.ResponseRate | frontend/src/components/EmployerHome.tsx:247-248 | 0 with no applications, otherwise the rounded percentage of non-pending applications |
| EmployerHome.ResponseRateBounds | frontend/src/components/EmployerHome.tsx:247-248 | the rate is at most 100, 0 when all are pending, 100 when none is |
| EmployerHome.ResponseRateMonotone | frontend/src/components/EmployerHome.tsx:247-248 | reviewing one more application never lowers the rate |
| EmployerHome.RoundMonotone | frontend/src/components/EmployerHome.tsx:248 | rounding preserves order |

## Left out

- Firestore, Firebase Auth and HTTP client I/O are left out. The store is a map, a scan is a given order of ids, and remote success is a parameter. This covers `services/jobService.ts`, `services/greenhouseService.ts`, `firebaseConfig.ts` and the Greenhouse components.
- Firestore's ordering of query results is left out: results come in store order. Strings compare by code point (`Text.LexLe`), which is the order of their UTF-8 bytes.
- The dashboards' `where`/`orderBy`/`limit` queries and the employer's `companyId` query are left out. The loaded documents are the input.
- Spring's `@Valid` runs before the handler and answers 400. That is framework behaviour; `JobBean.IsValid` is the predicate it checks, and `JobController.Create`/`Update` do not call it.
- The JavaScript handlers' `catch` blocks (500 on a store failure) are left out, except the Vercel PUT/DELETE without an id, which is assumed to fail in the client library.
- `addSampleJobs` and the seeding routes in `functions/index.js` are left out as test data.
- The weighted recommendation score (floating-point ratios and `Date.now()` recency) is a parameter `score`. The experience and location matches are modelled as exact reals.
- Recommendations.SortByScore: the contract states sortedness and permutation, not the stability of `Array.prototype.sort`.
- EmployerHome.ResponseRate rounds the exact fraction. The source rounds a floating-point product, which can differ at exact halves.
- EmployerHome.CalculateStats takes "today" and the parsed application dates as integers. Date parsing and `setHours` are left out.
- EmployerHome.LoadApplication: the `applications` query (`where`, `orderBy('appliedDate', 'desc')`, `limit(5)`) is left out; the loader takes one document's fields. Firestore leaves documents without `appliedDate` out of that ordered query, and that is not modelled.
- Async ordering, `Promise.all`, timers and stale React state are left out. The employer's stats, computed from the state before the loads finish, are an example.
- `toLowerCase`, `trim` and `\s` are ASCII only. Unicode case mapping and whitespace are left out.
- Jobs.MergeAt: an explicit JSON `null` in a PUT body is written as `null` by `set(body, { merge: true })`. An optional field cannot tell `null` from absent, so the model keeps the stored value there.
- JsCrud.Put: inherits the `null` gap of `Jobs.MergeAt`; the echoed body is exact.
- Jobs.ToBean: `skills` and `applicants` are `String[]` and `postedDate` and `expiryDate` are `LocalDateTime` in Job.java:23-29, while the model copies these fields as stored strings and lists. The document mapper's and Jackson's conversions into those types are left out, and so are their failures: a stored list read into a Java array, a stored string read as a date, or a date-only `expiryDate` read by the ISO date-time parser.
- JobForm.FormVersusBean: states the bean's validation constraints only. Whether the posted `expiryDate`, a date-only value from the date input, converts to `LocalDateTime` is left out with the conversions of `Jobs.ToBean`.
- Recommendations.Level: a name that is a property every JavaScript object inherits (`constructor`, `toString`, `__proto__` and the like) looks up a function or object, not a number. Comparisons with such values follow JavaScript's coercions (so `ExperienceMatch("constructor", "entry")` is 0.5 there). The model reads every such name as level 1.
- SignUp.Validate: JavaScript's `length` counts UTF-16 code units, the model counts code points. A password of four characters outside the Basic Multilingual Plane has length 8 in JavaScript and passes there, but is too short here.
- SignUp.Strength: the length-at-least-8 point uses the same code-point count as `SignUp.Validate`.
- Express routing details beyond method and exact segments are left out: case-insensitive paths, a trailing slash, and HEAD answered by the GET route. The automatic OPTIONS answer is modelled by its set of methods (`Allow`); the order and separator of the header's text are left out, as is every CORS header `cors()` sets. `Express.FirstMatch` compares segments exactly, and a HEAD request finds no route.
- `parseInt` beyond the integer range (rounding of huge numbers to floating point) is left out.
- SeekerHome.FieldText and SeekerHome.Applicants read a missing field as `""` or `[]`. The source would throw a TypeError there, which normalised jobs never trigger.
- The JavaScript `type` field is named `jobType`, because `type` is a Dafny keyword.
- SignUp.Submit takes the account service's error as a parameter. The mapping of Firebase error codes to friendly messages is left out.
- Profile and saved-job loading, the cover letter, the CV storage URL and the server timestamp are left out as I/O.
- Presentation-only components and pages are left out: cards, headers, tabs, landing pages and the advanced search form's own state.

## Findings

| source | as written | input that shows it | evidently intended | confidence | as-written member | corrected member |
|---|---|---|---|---|---|---|
| backend/src/main/java/com/jobseeker/controller/JobController.java:38-39 | `page * size` and `fromIndex + size` are computed in 32-bit `int` and wrap | `page = size = 46341` over one job: the product wraps negative, `subList` throws and the answer is 500; `page = size = 65536` wraps to 0 and returns the first job | a page past the end is empty, with the total still reported | high (not executed) | JobController.OverflowCounterexample | JobController.ListPagesTile |
| backend/src/main/java/com/jobseeker/controller/JobController.java:90-91 | the search endpoint computes the same window in 32-bit `int` and wraps like the listing | `page = size = 46341` over one job and no filters: `subList` throws and the answer is 500 | a page past the end is empty, with the filtered total still reported | high (not executed) | JobController.SearchOverflowCounterexample | JobController.Search |
| functions/index.js:63-97 | `GET /jobs/:id` is registered before `GET /jobs/search`, so Express routes every search to get-by-id | `GET /jobs/search?keyword=x` with no document named `search` answers 404 "Job not found" | the search handler answers search requests | high (not executed) | FunctionsApi.SearchShadowed | FunctionsApi.EveryRouteReachable |

=== FILE: application_modal.dfy ===
/** The application dialog (frontend/src/components/ApplicationModal.tsx):
    the skills field, the CV upload checks, and what a submission writes.
    The two Firestore writes are modelled on a list of application records
    and on the job store; the upload's storage URL, the server timestamp
    and the closing timer are left out. */
module ApplicationModal {
  import opened Options
  import opened Seqs
  import opened Text
  import opened Jobs

  /** `handleSkillsChange`: the comma-separated skills field becomes the
      trimmed, non-empty pieces. */
  function SkillsInput(text: String): (skills: seq<String>)
    ensures forall i | 0 <= i < |skills| :: |skills[i]| > 0 && ',' !in skills[i]
    ensures forall i | 0 <= i < |skills| :: !IsSpace(skills[i][0]) && !IsSpace(skills[i][|skills[i]| - 1])
    ensures skills == TrimmedPieces(Split(text, ','))
  {
    ParseList(text)
  }

  /** The field shows the skills as `skills.join(', ')`; what it shows reads
      back as the same list, the dialog's initial empty list included. The
      comma-only join reads back too. */
  lemma SkillsRoundTrip(skills: seq<String>)
    requires forall i | 0 <= i < |skills| :: |skills[i]| > 0 && ',' !in skills[i]
    requires forall i | 0 <= i < |skills| :: !IsSpace(skills[i][0]) && !IsSpace(skills[i][|skills[i]| - 1])
    ensures SkillsInput(JoinWith(skills, ", ")) == skills
    ensures |skills| >= 1 ==> SkillsInput(Join(skills, ',')) == skills
  {
    ParseListJoinWith(skills);
    if |skills| >= 1 {
      ParseListJoin(skills);
    }
  }

  /* ---------------------------------------------------------------- */
  /* CV upload                                                         */
  /* ---------------------------------------------------------------- */

  datatype File = File(name: String, mimeType: String, size: nat)

  /** 5 MiB. */
  const MaxCvBytes: nat := 5 * 1024 * 1024

  const WrongTypeError: String := "Please upload a PDF or Word document"
  const TooLargeError: String := "File size must be less than 5MB"

  /** The type test as written: the MIME type mentions `pdf`, `doc` or
      `docx`. */
  predicate TypeAccepted(mimeType: String) {
    Contains(mimeType, "pdf") || Contains(mimeType, "doc") || Contains(mimeType, "docx")
  }

  /** A file the dialog keeps. */
  predicate AcceptableCv(f: File) {
    TypeAccepted(f.mimeType) && f.size <= MaxCvBytes
  }

  /** The `docx` test never decides anything: every type containing `docx`
      contains `doc`. */
  lemma DocxRedundant(mimeType: String)
    ensures TypeAccepted(mimeType) <==> Contains(mimeType, "pdf") || Contains(mimeType, "doc")
  {
    if Contains(mimeType, "docx") {
      var i :| 0 <= i <= |mimeType| && OccursAt(mimeType, "docx", i);
      assert mimeType[i..i + 3] == "doc" by {
        assert mimeType[i..i + 3] == mimeType[i..i + 4][..3];
      }
      assert OccursAt(mimeType, "doc", i);
    }
  }

  datatype Upload = Upload(cvFile: Option<File>, error: Option<String>)

  /** `handleCvUpload`: no file chosen changes nothing; a file of the wrong
      type or over 5 MiB sets the matching error and keeps the previous CV;
      an acceptable file replaces the CV and clears the error. */
  function CvUpload(u: Upload, chosen: Option<File>): (r: Upload)
    ensures chosen.None? ==> r == u
    ensures chosen.Some? && AcceptableCv(chosen.value) ==> r == Upload(chosen, None)
    ensures chosen.Some? && !TypeAccepted(chosen.value.mimeType) ==> r == u.(error := Some(WrongTypeError))
    ensures chosen.Some? && TypeAccepted(chosen.value.mimeType) && chosen.value.size > MaxCvBytes ==>
              r == u.(error := Some(TooLargeError))
    ensures chosen.Some? ==> (r.cvFile == chosen <==> AcceptableCv(chosen.value) || u.cvFile == chosen)
  {
    match chosen
    case None => u
    case Some(f) =>
      if !TypeAccepted(f.mimeType) then u.(error := Some(WrongTypeError))
      else if f.size > MaxCvBytes then u.(error := Some(TooLargeError))
      else Upload(chosen, None)
  }

  /** The dialog only ever holds an acceptable CV. */
  lemma {:induction false} UploadsKeepCvAcceptable(u: Upload, choices: seq<Option<File>>)
    requires u.cvFile.None? || AcceptableCv(u.cvFile.value)
    ensures var r := Uploads(u, choices); r.cvFile.None? || AcceptableCv(r.cvFile.value)
    decreases |choices|
  {
    if |choices| > 0 {
      UploadsKeepCvAcceptable(CvUpload(u, choices[0]), choices[1..]);
    }
  }

  /** A run of file choices, oldest first. */
  function Uploads(u: Upload, choices: seq<Option<File>>): Upload
    decreases |choices|
  {
    if |choices| == 0 then u else Uploads(CvUpload(u, choices[0]), choices[1..])
  }

  /** The size bound is inclusive: exactly 5 MiB is kept, one byte more is
      refused. */
  lemma SizeBoundary(u: Upload)
    ensures CvUpload(u, Some(File("cv.pdf", "application/pdf", 5242880))).cvFile.Some?
    ensures CvUpload(u, Some(File("cv.pdf", "application/pdf", 5242881))).error == Some(TooLargeError)
  {
    var t := "application/pdf";
    assert OccursAt(t, "pdf", 12);
  }

  /* ---------------------------------------------------------------- */
  /* Submitting                                                        */
  /* ---------------------------------------------------------------- */

  /** The signed-in user as Firebase Auth describes them. */
  datatype User = User(uid: String, displayName: Option<String>, email: Option<String>)

  /** `user.displayName || user.email?.split('@')[0] || 'User'`: the display
      name when it is non-empty, else the text of the email before its first
      `@` when that is non-empty, else "User". */
  function UserName(user: User): (name: String)
    ensures |name| > 0
    ensures Truthy(user.displayName) ==> name == user.displayName.value
    ensures !Truthy(user.displayName) && user.email.None? ==> name == "User"
    ensures !Truthy(user.displayName) && user.email.Some? ==>
              forall p | PrefixBefore(user.email.value, '@', p) :: name == if |p| > 0 then p else "User"
  {
    if Truthy(user.displayName) then user.displayName.value
    else if user.email.Some? then
      var e := user.email.value;
      assert forall p | PrefixBefore(e, '@', p) :: p == Split(e, '@')[0] by {
        forall p | PrefixBefore(e, '@', p) ensures p == Split(e, '@')[0] {
          SplitHeadIsPrefixBefore(e, '@', p);
        }
      }
      OrElse(Some(Split(e, '@')[0]), "User")
    else "User"
  }

  /** For an address `local@domain` the name is the local part. */
  lemma UserNameFromEmail(uid: String, local: String, domain: String)
    requires |local| > 0 && '@' !in local
    ensures UserName(User(uid, None, Some(local + "@" + domain))) == local
  {
    SplitWithSeparator(local, '@', domain);
  }

  /** The two ways of applying. */
  datatype Method = WithProfile | WithCv

  /** The job the dialog is open for. */
  datatype JobRef = JobRef(id: String, title: String, company: String, companyId: String)

  /** The application document; `cv` is set only for CV applications. */
  datatype Application = Application(
    jobId: String, jobTitle: String, companyId: String, companyName: String,
    userId: String, userName: String, userEmail: Option<String>,
    applicationMethod: Method, status: String, cv: Option<File>)

  const NoCvError: String := "Please upload your CV"
  const SubmitFailedError: String := "Failed to submit application. Please try again."

  /** The state a submission touches: the applications collection, the job
      store, and the dialog's error and success flags. */
  datatype Submission = Submission(applications: seq<Application>, store: Store,
                                   error: Option<String>, success: bool)

  function NewApplication(job: JobRef, user: User, m: Method, cv: Option<File>): Application {
    Application(job.id, job.title, job.companyId, job.company, user.uid, UserName(user),
                user.email, m, "pending", if m == WithCv then cv else None)
  }

  /** `{ applicants: arrayUnion(uid) }` on the job document. */
  function AddApplicantTo(store: Store, id: String, uid: String): (r: Store)
    requires id in store
    ensures r.Keys == store.Keys
    ensures forall k | k in store && k != id :: r[k] == store[k]
    ensures r[id].applicants.Some? && uid in r[id].applicants.value
    ensures store[id].applicants.GetOr([]) <= r[id].applicants.value
    ensures |r[id].applicants.value| <= |store[id].applicants.GetOr([])| + 1
    ensures multiset(r[id].applicants.value)[uid]
            == if uid in store[id].applicants.GetOr([]) then multiset(store[id].applicants.GetOr([]))[uid] else 1
    ensures r[id].(applicants := store[id].applicants) == store[id]
  {
    store[id := store[id].(applicants := Some(ArrayUnion(store[id].applicants.GetOr([]), uid)))]
  }

  /** `handleSubmit`. Without a user nothing happens. A CV application with
      no file sets an error and writes nothing. Otherwise a `pending`
      application is added; the job document then gains the applicant, or,
      when it does not exist, the update fails after the application was
      already written and the generic error is shown; the failure leaves the
      success flag as it was. */
  function Submit(s: Submission, user: Option<User>, job: JobRef, m: Method, cv: Option<File>): (r: Submission)
    ensures user.None? ==> r == s
    ensures user.Some? && m == WithCv && cv.None? ==> r == s.(error := Some(NoCvError))
    ensures user.Some? && (m == WithProfile || cv.Some?) ==>
              && |r.applications| == |s.applications| + 1
              && r.applications[..|s.applications|] == s.applications
              && r.applications[|s.applications|].status == "pending"
              && r.applications[|s.applications|].userId == user.value.uid
              && r.applications[|s.applications|].jobId == job.id
              && (m == WithCv <==> r.applications[|s.applications|].cv.Some?)
    ensures user.Some? && (m == WithProfile || cv.Some?) && job.id in s.store ==>
              && r.success && r.error.None?
              && r.store == AddApplicantTo(s.store, job.id, user.value.uid)
    ensures user.Some? && (m == WithProfile || cv.Some?) && job.id !in s.store ==>
              r.success == s.success && r.error == Some(SubmitFailedError) && r.store == s.store
  {
    if user.None? then s
    else if m == WithCv && cv.None? then s.(error := Some(NoCvError))
    else
      var app := NewApplication(job, user.value, m, cv);
      var apps := s.applications + [app];
      if job.id in s.store then
        Submission(apps, AddApplicantTo(s.store, job.id, user.value.uid), None, true)
      else
        Submission(apps, s.store, Some(SubmitFailedError), s.success)
  }

  /** Submitting twice for the same job records two applications but lists
      the applicant once on the job. */
  lemma SubmitTwice(s: Submission, user: User, job: JobRef, m: Method, cv: Option<File>)
    requires job.id in s.store && (m == WithProfile || cv.Some?)
    ensures var once := Submit(s, Some(user), job, m, cv);
            var twice := Submit(once, Some(user), job, m, cv);
            && |twice.applications| == |s.applications| + 2
            && twice.store == once.store
            && multiset(twice.store[job.id].applicants.value)[user.uid]
               == multiset(once.store[job.id].applicants.value)[user.uid]
  {
    var once := Submit(s, Some(user), job, m, cv);
    ArrayUnionIdempotent(s.store[job.id].applicants.GetOr([]), user.uid);
    assert once.store[job.id].applicants.GetOr([]) == ArrayUnion(s.store[job.id].applicants.GetOr([]), user.uid);
  }
}

=== FILE: employer_home.dfy ===
/** The employer's dashboard (frontend/src/components/EmployerHome.tsx): how
    its job and application documents are read, the four counters, and the
    response-rate tile. "Today" is a parameter, and an application's date is
    the instant it denotes, or none when it does not parse. */
module EmployerHome {
  import opened Options
  import opened Seqs
  import opened Text
  import opened Jobs
  import SeekerHome

  /** `{ id, ...data, status: data.status || 'approved', active: data.active || false,
      applicants: data.applicants || [] }`. */
  function LoadJob(docId: String, data: Job): (r: Job)
    ensures r.active == Some(data.active == Some(true))
    ensures Truthy(r.status) && r.applicants.Some?
    ensures Truthy(data.status) ==> r.status == data.status
    ensures data.applicants.Some? ==> r.applicants == data.applicants
    ensures r.(id := data.id, status := data.status, active := data.active, applicants := data.applicants) == data
  {
    WithId(docId, data).(status := Some(OrElse(data.status, "approved")),
                         active := Some(data.active == Some(true)),
                         applicants := Some(data.applicants.GetOr([])))
  }

  /** The two dashboards read a missing `active` flag oppositely: the job
      seeker's treats the job as live, the employer's as inactive. An
      explicit flag reads the same on both. */
  lemma ActiveDefaultsDisagree(docId: String, data: Job, now: String)
    requires |now| > 0
    ensures data.active.None? ==> SeekerHome.Normalise(docId, data, now).active == Some(true)
                                  && LoadJob(docId, data).active == Some(false)
    ensures data.active.Some? ==> SeekerHome.Normalise(docId, data, now).active == LoadJob(docId, data).active
  {
    if data.active.Some? {
      var b := data.active.value;
      assert data.active == Some(b);
      assert SeekerHome.Normalise(docId, data, now).active == Some(b);
      assert LoadJob(docId, data).active == Some(b);
    }
  }

  /** An application as the dashboard lists it; `appliedDate` is the
      instant the stored `appliedDate` denotes, if any. */
  datatype Application = Application(id: String, status: String, appliedDate: Option<int>)

  /** `{ id: doc.id, ...doc.data(), status: doc.data().status || 'pending' }`:
      an `id` field stored in the document overrides the document id, the
      status defaults to pending, and the stored `appliedDate` is kept. */
  function LoadApplication(docId: String, storedId: Option<String>, status: Option<String>,
                           appliedDate: Option<int>): (a: Application)
    ensures a.id == storedId.GetOr(docId)
    ensures Truthy(status) ==> a.status == status.value
    ensures !Truthy(status) ==> a.status == "pending"
    ensures |a.status| > 0 && a.appliedDate == appliedDate
  {
    Application(storedId.GetOr(docId), OrElse(status, "pending"), appliedDate)
  }

  /** The id is chosen as the job loaders choose it (`Jobs.WithId`), and
      loading a listed application again, with its fields stored, gives it
      back unchanged. */
  lemma LoadApplicationLaws(docId: String, storedId: Option<String>, status: Option<String>,
                            appliedDate: Option<int>, otherId: String)
    ensures Some(LoadApplication(docId, storedId, status, appliedDate).id)
            == WithId(docId, NoFields.(id := storedId)).id
    ensures var a := LoadApplication(docId, storedId, status, appliedDate);
            LoadApplication(otherId, Some(a.id), Some(a.status), a.appliedDate) == a
  {
  }

  predicate IsActive(j: Job) { j.active == Some(true) }

  /** `new Date(app.appliedDate) >= today`; a missing or unparseable date
      compares false. */
  predicate AppliedSince(a: Application, today: int) {
    a.appliedDate.Some? && a.appliedDate.value >= today
  }

  predicate Reviewed(a: Application) { a.status != "pending" }

  datatype Stats = Stats(totalJobs: nat, activeJobs: nat, totalApplications: nat, newApplicationsToday: nat)

  /** `calculateStats`. */
  function CalculateStats(jobs: seq<Job>, apps: seq<Application>, today: int): (s: Stats)
    ensures s.totalJobs == |jobs| && s.activeJobs <= s.totalJobs
    ensures s.totalApplications == |apps| && s.newApplicationsToday <= s.totalApplications
    ensures s.activeJobs == |Filter(jobs, IsActive)|
    ensures s.newApplicationsToday == |Filter(apps, a => AppliedSince(a, today))|
  {
    Stats(|jobs|, Count(jobs, IsActive), |apps|, Count(apps, a => AppliedSince(a, today)))
  }

  /** Moving "today" earlier never lowers the count of new applications. */
  lemma NewTodayMonotone(apps: seq<Application>, earlier: int, today: int)
    requires earlier <= today
    ensures CalculateStats([], apps, today).newApplicationsToday
            <= CalculateStats([], apps, earlier).newApplicationsToday
  {
    CountMonotone(apps, a => AppliedSince(a, today), a => AppliedSince(a, earlier));
  }

  /** Jobs loaded by the dashboard are active only when stored as active. */
  lemma LoadedActiveCount(ids: seq<String>, data: seq<Job>)
    requires |ids| == |data|
    requires forall i | 0 <= i < |data| :: data[i].active != Some(true)
    ensures CalculateStats(seq(|data|, i requires 0 <= i < |data| => LoadJob(ids[i], data[i])), [], 0).activeJobs == 0
  {
    var jobs := seq(|data|, i requires 0 <= i < |data| => LoadJob(ids[i], data[i]));
    assert forall i | 0 <= i < |jobs| :: !IsActive(jobs[i]);
    NoneCounted(jobs, IsActive);
  }

  /** `Math.round(x)` of the exact fraction `num / den`: the nearest
      integer, halves rounding up. */
  function RoundFraction(num: nat, den: nat): (r: nat)
    requires den > 0
    ensures 2 * num - den < 2 * r * den <= 2 * num + den
  {
    (2 * num + den) / (2 * den)
  }

  /** The response-rate tile: with no applications 0, otherwise the
      percentage of applications that are no longer pending, rounded. */
  function ResponseRate(apps: seq<Application>, totalApplications: nat): (rate: nat)
    ensures totalApplications == 0 ==> rate == 0
    ensures totalApplications > 0 ==>
              var n := Count(apps, Reviewed);
              200 * n - totalApplications < 2 * rate * totalApplications <= 200 * n + totalApplications
  {
    if totalApplications > 0 then RoundFraction(100 * Count(apps, Reviewed), totalApplications) else 0
  }

  /** With the counters in step with the list, the rate is a percentage:
      0 when every application is pending, 100 when none is. */
  lemma ResponseRateBounds(apps: seq<Application>)
    ensures ResponseRate(apps, |apps|) <= 100
    ensures (forall i | 0 <= i < |apps| :: !Reviewed(apps[i])) ==> ResponseRate(apps, |apps|) == 0
    ensures |apps| > 0 && (forall i | 0 <= i < |apps| :: Reviewed(apps[i])) ==> ResponseRate(apps, |apps|) == 100
  {
    var t := |apps|;
    var n := Count(apps, Reviewed);
    if t > 0 {
      var rate := ResponseRate(apps, t);
      assert n <= t;
      assert 2 * rate * t <= 200 * t + t;
      RateBelow(rate, t);
      if forall i | 0 <= i < |apps| :: !Reviewed(apps[i]) {
        NoneCounted(apps, Reviewed);
        assert 2 * rate * t <= t;
        RateZero(rate, t);
      }
      if forall i | 0 <= i < |apps| :: Reviewed(apps[i]) {
        FilterKeepsAll(apps, Reviewed);
        assert n == t;
        assert 200 * t - t < 2 * rate * t;
        RateHundred(rate, t);
      }
    }
  }

  lemma RateBelow(rate: nat, t: nat)
    requires t > 0 && 2 * rate * t <= 201 * t
    ensures rate <= 100
  {
    MulCancel(2 * rate, 202, t);
  }

  lemma RateZero(rate: nat, t: nat)
    requires t > 0 && 2 * rate * t <= t
    ensures rate == 0
  {
    MulCancel(2 * rate, 2, t);
  }

  lemma RateHundred(rate: nat, t: nat)
    requires t > 0 && 199 * t < 2 * rate * t && rate <= 100
    ensures rate == 100
  {
    MulCancel(199, 2 * rate, t);
  }

  lemma {:induction false} NoneCounted<T>(xs: seq<T>, p: T -> bool)
    requires forall i | 0 <= i < |xs| :: !p(xs[i])
    ensures Count(xs, p) == 0
  {
    if |xs| > 0 {
      assert forall i | 0 <= i < |xs[1..]| :: xs[1..][i] == xs[i + 1];
      NoneCounted(xs[1..], p);
    }
  }

  /** Reviewing one more application never lowers the rate. */
  lemma ResponseRateMonotone(apps: seq<Application>, i: nat, status: String)
    requires i < |apps| && status != "pending"
    ensures ResponseRate(apps, |apps|) <= ResponseRate(apps[i := apps[i].(status := status)], |apps|)
  {
    var after := apps[i := apps[i].(status := status)];
    assert forall k | 0 <= k < |apps| :: Reviewed(apps[k]) ==> Reviewed(after[k]);
    CountMonotoneAcross(apps, after);
    RoundMonotone(100 * Count(apps, Reviewed), 100 * Count(after, Reviewed), |apps|);
  }

  lemma {:induction false} CountMonotoneAcross(xs: seq<Application>, ys: seq<Application>)
    requires |xs| == |ys|
    requires forall k | 0 <= k < |xs| :: Reviewed(xs[k]) ==> Reviewed(ys[k])
    ensures Count(xs, Reviewed) <= Count(ys, Reviewed)
  {
    if |xs| > 0 {
      CountMonotoneAcross(xs[1..], ys[1..]);
    }
  }

  lemma RoundMonotone(a: nat, b: nat, den: nat)
    requires den > 0 && a <= b
    ensures RoundFraction(a, den) <= RoundFraction(b, den)
  {
    DivMonotone(2 * a + den, 2 * b + den, 2 * den);
  }

  lemma DivMonotone(x: nat, y: nat, d: nat)
    requires d > 0 && x <= y
    ensures x / d <= y / d
  {
    var qx, qy := x / d, y / d;
    DivBounds(x, d);
    DivBounds(y, d);
    MulSucc(qy, d);
    MulCancel(qx, qy + 1, d);
  }

  lemma DivBounds(x: nat, d: nat)
    requires d > 0
    ensures (x / d) * d <= x < (x / d) * d + d
  {
  }

  lemma MulSucc(q: nat, d: nat)
    ensures (q + 1) * d == q * d + d
  {
  }

  /** Cancelling a positive factor from a strict inequality. */
  lemma MulCancel(a: nat, b: nat, d: nat)
    requires d > 0 && a * d < b * d
    ensures a < b
  {
    if a >= b {
      MulMonotone(b, a, d);
    }
  }

  lemma MulMonotone(a: nat, b: nat, d: nat)
    requires a <= b
    ensures a * d <= b * d
  {
  }
}

=== FILE: express.dfy ===
/** Express routing: routes are tried in registration order and the first
    whose method and path pattern match the request handles it. A `:param`
    segment matches any non-empty path segment. Paths are given already
    split at `/`. */
module Express {
  import opened Options
  import opened Text

  datatype Segment = Lit(text: String) | Param

  datatype Route<H> = Route(verb: String, pattern: seq<Segment>, handler: H)

  predicate SegmentMatches(seg: Segment, s: String) {
    match seg
    case Lit(t) => s == t
    case Param => |s| > 0
  }

  predicate PathMatches(pattern: seq<Segment>, path: seq<String>) {
    |pattern| == |path| && forall k | 0 <= k < |path| :: SegmentMatches(pattern[k], path[k])
  }

  predicate RouteMatches<H>(route: Route<H>, verb: String, path: seq<String>) {
    route.verb == verb && PathMatches(route.pattern, path)
  }

  /** The index of the route that handles the request: the first that
      matches, or none (Express's own 404). */
  function FirstMatch<H>(routes: seq<Route<H>>, verb: String, path: seq<String>): (r: Option<nat>)
    ensures r.Some? ==> r.value < |routes| && RouteMatches(routes[r.value], verb, path)
    ensures r.Some? ==> forall j | 0 <= j < r.value :: !RouteMatches(routes[j], verb, path)
    ensures r.None? <==> forall j | 0 <= j < |routes| :: !RouteMatches(routes[j], verb, path)
  {
    if |routes| == 0 then None
    else if RouteMatches(routes[0], verb, path) then Some(0)
    else
      match FirstMatch(routes[1..], verb, path)
      case None => None
      case Some(k) => Some(k + 1)
  }

  /** The methods of the routes whose pattern matches the path. */
  function PathVerbs<H>(routes: seq<Route<H>>, path: seq<String>): set<String> {
    if |routes| == 0 then {}
    else (if PathMatches(routes[0].pattern, path) then {routes[0].verb} else {}) + PathVerbs(routes[1..], path)
  }

  /** Those are exactly the methods for which some route handles a request
      to the path, and there are none iff no route's pattern matches it. */
  lemma {:induction false} PathVerbsMeaning<H>(routes: seq<Route<H>>, path: seq<String>)
    ensures forall v :: v in PathVerbs(routes, path) <==> FirstMatch(routes, v, path).Some?
    ensures PathVerbs(routes, path) == {} <==> forall j | 0 <= j < |routes| :: !PathMatches(routes[j].pattern, path)
  {
    if |routes| > 0 {
      PathVerbsMeaning(routes[1..], path);
      assert forall j | 1 <= j < |routes| :: routes[j] == routes[1..][j - 1];
    }
  }

  /** The methods Express's automatic answer to an OPTIONS request lists in
      its `Allow` header: those of the routes whose pattern matches the
      path, with HEAD wherever GET is, since a GET route also answers HEAD.
      Empty iff no route's pattern matches the path. */
  function AllowedVerbs<H>(routes: seq<Route<H>>, path: seq<String>): (r: set<String>)
    ensures forall v | v != "HEAD" :: v in r <==> FirstMatch(routes, v, path).Some?
    ensures "HEAD" in r <==> FirstMatch(routes, "HEAD", path).Some? || FirstMatch(routes, "GET", path).Some?
    ensures r == {} <==> forall j | 0 <= j < |routes| :: !PathMatches(routes[j].pattern, path)
  {
    PathVerbsMeaning(routes, path);
    var vs := PathVerbs(routes, path);
    if "GET" in vs then vs + {"HEAD"} else vs
  }

  /** What the router does with a request: the route at `index` handles
      it; or, for an OPTIONS request no route handles, Express answers with
      the methods the path allows; or it falls through to Express's 404. */
  datatype Outcome = Handled(index: nat) | AllowList(verbs: set<String>) | Unrouted

  function Dispatch<H>(routes: seq<Route<H>>, verb: String, path: seq<String>): (r: Outcome)
    ensures r.Handled? <==> FirstMatch(routes, verb, path).Some?
    ensures r.Handled? ==> FirstMatch(routes, verb, path) == Some(r.index) && r.index < |routes|
    ensures r.AllowList? ==> verb == "OPTIONS" && r.verbs != {} && r.verbs == AllowedVerbs(routes, path)
    ensures r.Unrouted? <==>
              (forall j | 0 <= j < |routes| :: !RouteMatches(routes[j], verb, path))
              && (verb != "OPTIONS" || forall j | 0 <= j < |routes| :: !PathMatches(routes[j].pattern, path))
  {
    match FirstMatch(routes, verb, path)
    case Some(i) => Handled(i)
    case None =>
      if verb == "OPTIONS" && AllowedVerbs(routes, path) != {} then AllowList(AllowedVerbs(routes, path))
      else Unrouted
  }

  /** The route at `i` matches and none before it does, so it handles the
      request. */
  lemma FirstMatchIs<H>(routes: seq<Route<H>>, i: nat, verb: String, path: seq<String>)
    requires i < |routes| && RouteMatches(routes[i], verb, path)
    requires forall j | 0 <= j < i :: !RouteMatches(routes[j], verb, path)
    ensures FirstMatch(routes, verb, path) == Some(i)
  {
    assert FirstMatch(routes, verb, path).Some?;
  }

  /** The path shapes of the job routes: `/a`, `/a/b`, `/a/:id` and
      `/a/:id/b`. */
  lemma PatternShapes(a: String, b: String, path: seq<String>)
    ensures PathMatches([Lit(a)], path) <==> path == [a]
    ensures PathMatches([Lit(a), Lit(b)], path) <==> path == [a, b]
    ensures PathMatches([Lit(a), Param], path) <==> |path| == 2 && path[0] == a && |path[1]| > 0
    ensures PathMatches([Lit(a), Param, Lit(b)], path) <==>
              |path| == 3 && path[0] == a && |path[1]| > 0 && path[2] == b
  {
    if |path| == 1 {
      assert SegmentMatches(Lit(a), path[0]) <==> path[0] == a;
      assert path == [path[0]];
    }
    if |path| == 2 {
      assert path == [path[0], path[1]];
    }
    if |path| == 3 {
      assert PathMatches([Lit(a), Param, Lit(b)], path) <==>
               SegmentMatches(Lit(a), path[0]) && SegmentMatches(Param, path[1]) && SegmentMatches(Lit(b), path[2]);
    }
  }

  /** Every request the `specific` route matches, the `general` one matches
      too: same method and length, each literal of `general` repeated in
      `specific`, and each parameter of `general` facing a parameter or a
      non-empty literal. */
  predicate Covers<H>(general: Route<H>, specific: Route<H>) {
    && general.verb == specific.verb
    && |general.pattern| == |specific.pattern|
    && forall k | 0 <= k < |general.pattern| ::
         match general.pattern[k]
         case Lit(t) => specific.pattern[k] == Lit(t)
         case Param => specific.pattern[k].Param? || |specific.pattern[k].text| > 0
  }

  lemma CoversMatches<H>(general: Route<H>, specific: Route<H>, verb: String, path: seq<String>)
    requires Covers(general, specific) && RouteMatches(specific, verb, path)
    ensures RouteMatches(general, verb, path)
  {
    forall k | 0 <= k < |path| ensures SegmentMatches(general.pattern[k], path[k]) {
      assert SegmentMatches(specific.pattern[k], path[k]);
    }
  }

  /** A route registered after one that covers it never handles anything. */
  lemma ShadowedRoute<H>(routes: seq<Route<H>>, j: nat, i: nat, verb: String, path: seq<String>)
    requires j < i < |routes| && Covers(routes[j], routes[i])
    ensures FirstMatch(routes, verb, path) != Some(i)
  {
    if RouteMatches(routes[i], verb, path) {
      CoversMatches(routes[j], routes[i], verb, path);
    }
  }

  /** A path that a pattern matches: its literals, and `x` for parameters. */
  function SamplePath(pattern: seq<Segment>): (path: seq<String>)
    ensures PathMatches(pattern, path)
  {
    if |pattern| == 0 then []
    else [if pattern[0].Lit? then pattern[0].text else "x"] + SamplePath(pattern[1..])
  }
}

=== FILE: functions_api.dfy ===
/** The Express application of the Cloud Functions backend
    (functions/index.js): the `cors()` middleware, then seven routes
    dispatched in registration order to the handlers of `JsCrud`.

    The file registers `GET /jobs/:id` before `GET /jobs/search`, so a search
    request is taken by the get-by-id handler with the id `search`.
    `RoutesAsWritten` keeps that order and `SearchShadowed` shows the search
    handler can never run; `Routes` registers the search first and `Handle`
    uses it. */
module FunctionsApi {
  import opened Options
  import opened Text
  import opened Jobs
  import opened Http
  import opened Express
  import JsCrud

  datatype Handler = CreateJob | ListJobs | GetJob | PutJob | DeleteJob | SearchJobs | ApplyJob

  /** The routes in the order the file registers them. */
  const RoutesAsWritten: seq<Route<Handler>> := [
    Route("POST", [Lit("jobs")], CreateJob),
    Route("GET", [Lit("jobs")], ListJobs),
    Route("GET", [Lit("jobs"), Param], GetJob),
    Route("PUT", [Lit("jobs"), Param], PutJob),
    Route("DELETE", [Lit("jobs"), Param], DeleteJob),
    Route("GET", [Lit("jobs"), Lit("search")], SearchJobs),
    Route("POST", [Lit("jobs"), Param, Lit("apply")], ApplyJob)
  ]

  /** The same routes with the search registered before `/jobs/:id`. */
  const Routes: seq<Route<Handler>> := [
    Route("POST", [Lit("jobs")], CreateJob),
    Route("GET", [Lit("jobs")], ListJobs),
    Route("GET", [Lit("jobs"), Lit("search")], SearchJobs),
    Route("GET", [Lit("jobs"), Param], GetJob),
    Route("PUT", [Lit("jobs"), Param], PutJob),
    Route("DELETE", [Lit("jobs"), Param], DeleteJob),
    Route("POST", [Lit("jobs"), Param, Lit("apply")], ApplyJob)
  ]

  /** `req.params.id`: the segment after `jobs`. */
  function PathId(path: seq<String>): String {
    if |path| > 1 then path[1] else ""
  }

  /** One handler's effect; the new document id is a parameter. The list,
      search and get handlers only read. */
  function Run(h: Handler, store: Store, order: seq<String>, req: Request, docId: String): (r: Exchange)
    ensures h == ListJobs || h == SearchJobs || h == GetJob ==> r.store == store
  {
    var q := req.query;
    match h
    case CreateJob => JsCrud.Create(store, req.body, docId)
    case ListJobs => Exchange(JsCrud.List(store, order, q.page, q.size), store)
    case GetJob => Exchange(JsCrud.Get(store, PathId(req.path)), store)
    case PutJob => JsCrud.Put(store, PathId(req.path), req.body)
    case DeleteJob => JsCrud.Delete(store, PathId(req.path))
    case SearchJobs =>
      Exchange(JsCrud.Search(store, order, q.keyword.GetOr(""), q.location.GetOr(""), q.jobType.GetOr(""),
                             q.page, q.size), store)
    case ApplyJob => JsCrud.Apply(store, PathId(req.path), req.userId)
  }

  /** The `cors()` middleware, mounted before every route, ends each
      OPTIONS request itself with 204 and no body (the preflight answer of
      its defaults), whatever the path; every other request goes to the
      router, where the first matching route runs and, with none, Express
      answers 404. */
  function HandleWith(routes: seq<Route<Handler>>, store: Store, order: seq<String>, req: Request,
                      docId: String): (r: Exchange)
    ensures req.verb == "OPTIONS" ==> r == Exchange(Response(StatusNoContent, NoBody), store)
    ensures req.verb != "OPTIONS" && FirstMatch(routes, req.verb, req.path).None? ==>
              r == Exchange(Response(StatusNotFound, NoBody), store)
    ensures req.verb != "OPTIONS" && FirstMatch(routes, req.verb, req.path).Some? ==>
              var i := FirstMatch(routes, req.verb, req.path).value;
              i < |routes| && RouteMatches(routes[i], req.verb, req.path)
              && r == Run(routes[i].handler, store, order, req, docId)
  {
    if req.verb == "OPTIONS" then Exchange(Response(StatusNoContent, NoBody), store)
    else
      match Dispatch(routes, req.verb, req.path)
      case Handled(i) => Run(routes[i].handler, store, order, req, docId)
      case _ => Exchange(Response(StatusNotFound, NoBody), store)
  }

  /** The application as registered. */
  function HandleAsWritten(store: Store, order: seq<String>, req: Request, docId: String): Exchange {
    HandleWith(RoutesAsWritten, store, order, req, docId)
  }

  /** As written, no request reaches the search handler: `/jobs/:id`, two
      routes earlier, matches every path it would; `GET /jobs/search`
      answers 404 `Job not found` unless a document is named `search`. */
  lemma SearchShadowed(store: Store, order: seq<String>, verb: String, path: seq<String>, docId: String)
    ensures FirstMatch(RoutesAsWritten, verb, path) != Some(5)
    ensures RoutesAsWritten[5].handler == SearchJobs
    ensures "search" !in store ==>
              HandleAsWritten(store, order, Request("GET", ["jobs", "search"], NoQuery, NoFields, None), docId)
              == Exchange(Response(StatusNotFound, Failure("Job not found")), store)
  {
    ShadowedRoute(RoutesAsWritten, 2, 5, verb, path);
    SearchTakenById(store, order, docId);
  }

  /** As written, `GET /jobs/search` is the get-by-id route's request. */
  lemma SearchTakenById(store: Store, order: seq<String>, docId: String)
    ensures var req := Request("GET", ["jobs", "search"], NoQuery, NoFields, None);
            HandleAsWritten(store, order, req, docId) == Run(GetJob, store, order, req, docId)
  {
    var p := ["jobs", "search"];
    PatternShapes("jobs", "search", p);
    assert RouteMatches(RoutesAsWritten[2], "GET", p);
    FirstMatchIs(RoutesAsWritten, 2, "GET", p);
  }

  /** In the corrected order every route handles the requests made for it:
      each is the first match for a path its pattern describes. */
  lemma EveryRouteReachable(i: nat)
    requires i < |Routes|
    ensures FirstMatch(Routes, Routes[i].verb, SamplePath(Routes[i].pattern)) == Some(i)
  {
    SamplePaths();
    if i == 0 { Reaches("POST", ["jobs"], 0); }
    else if i == 1 { Reaches("GET", ["jobs"], 1); }
    else if i == 2 { Reaches("GET", ["jobs", "search"], 2); }
    else if i == 3 { Reaches("GET", ["jobs", "x"], 3); }
    else if i == 4 { Reaches("PUT", ["jobs", "x"], 4); }
    else if i == 5 { Reaches("DELETE", ["jobs", "x"], 5); }
    else { Reaches("POST", ["jobs", "x", "apply"], 6); }
  }

  lemma Reaches(verb: String, path: seq<String>, i: nat)
    requires Routed(verb, path) == Some(i)
    ensures FirstMatch(Routes, verb, path) == Some(i)
  {
    RoutingIsRouted(verb, path);
  }

  /** The sample path of each shape of pattern in the table. */
  lemma SamplePaths()
    ensures SamplePath([Lit("jobs")]) == ["jobs"]
    ensures SamplePath([Lit("jobs"), Lit("search")]) == ["jobs", "search"]
    ensures SamplePath([Lit("jobs"), Param]) == ["jobs", "x"]
    ensures SamplePath([Lit("jobs"), Param, Lit("apply")]) == ["jobs", "x", "apply"]
  {
    assert SamplePath([Lit("apply")]) == ["apply"];
    assert SamplePath([Param, Lit("apply")]) == ["x", "apply"];
    assert SamplePath([Lit("search")]) == ["search"];
    assert SamplePath([Param]) == ["x"];
  }

  /** The application with the corrected route order. Reads leave the store
      alone, a preflight OPTIONS is answered by `cors()` on any path, and any
      other request for a path outside `/jobs` is Express's 404. */
  function Handle(store: Store, order: seq<String>, req: Request, docId: String): (r: Exchange)
    ensures req.verb == "GET" ==> r.store == store
    ensures req.verb == "OPTIONS" ==> r == Exchange(Response(StatusNoContent, NoBody), store)
    ensures req.verb != "OPTIONS" && (req.path == [] || req.path[0] != "jobs") ==>
              r == Exchange(Response(StatusNotFound, NoBody), store)
  {
    HandleCases(req);
    GetsReadOnly(store, order, req, docId);
    HandleWith(Routes, store, order, req, docId)
  }

  /** The three routes a GET can reach only read the store. */
  lemma GetsReadOnly(store: Store, order: seq<String>, req: Request, docId: String)
    ensures req.verb == "GET" ==> HandleWith(Routes, store, order, req, docId).store == store
  {
    if req.verb == "GET" {
      RoutingIsRouted(req.verb, req.path);
      GetRoutesRead(req.path);
    }
  }

  lemma GetRoutesRead(path: seq<String>)
    ensures var m := Routed("GET", path);
            m.Some? ==> m.value < |Routes| && Routes[m.value].handler in {ListJobs, SearchJobs, GetJob}
  {
  }

  /** What each request does, route by route: the handler that runs for
      each method and path shape. `Run` says what each handler computes. */
  lemma HandleDispatch(store: Store, order: seq<String>, req: Request, docId: String)
    ensures var r := Handle(store, order, req, docId);
      && (req.verb == "GET" && req.path == ["jobs", "search"] ==> r == Run(SearchJobs, store, order, req, docId))
      && (req.verb == "GET" && IdPath(req.path) && req.path[1] != "search" ==> r == Run(GetJob, store, order, req, docId))
      && (req.verb == "GET" && req.path == ["jobs"] ==> r == Run(ListJobs, store, order, req, docId))
      && (req.verb == "POST" && req.path == ["jobs"] ==> r == Run(CreateJob, store, order, req, docId))
      && (req.verb == "PUT" && IdPath(req.path) ==> r == Run(PutJob, store, order, req, docId))
      && (req.verb == "DELETE" && IdPath(req.path) ==> r == Run(DeleteJob, store, order, req, docId))
      && (req.verb == "POST" && ApplyPath(req.path) ==> r == Run(ApplyJob, store, order, req, docId))
  {
    var v, p := req.verb, req.path;
    if v == "GET" && p == ["jobs", "search"] { Runs(store, order, req, docId, 2, SearchJobs); }
    if v == "GET" && IdPath(p) && p[1] != "search" { Runs(store, order, req, docId, 3, GetJob); }
    if v == "GET" && p == ["jobs"] { Runs(store, order, req, docId, 1, ListJobs); }
    if v == "POST" && p == ["jobs"] { Runs(store, order, req, docId, 0, CreateJob); }
    if v == "PUT" && IdPath(p) { Runs(store, order, req, docId, 4, PutJob); }
    if v == "DELETE" && IdPath(p) { Runs(store, order, req, docId, 5, DeleteJob); }
    if v == "POST" && ApplyPath(p) { Runs(store, order, req, docId, 6, ApplyJob); }
  }

  /** A request routed to the route at `i` runs that route's handler. */
  lemma Runs(store: Store, order: seq<String>, req: Request, docId: String, i: nat, h: Handler)
    requires Routed(req.verb, req.path) == Some(i) && i < |Routes| && Routes[i].handler == h
    ensures Handle(store, order, req, docId) == Run(h, store, order, req, docId)
  {
    RoutingIsRouted(req.verb, req.path);
  }

  /** `/jobs/<id>` with a non-empty id. */
  predicate IdPath(path: seq<String>) {
    |path| == 2 && path[0] == "jobs" && |path[1]| > 0
  }

  /** `/jobs/<id>/apply` with a non-empty id. */
  predicate ApplyPath(path: seq<String>) {
    |path| == 3 && path[0] == "jobs" && |path[1]| > 0 && path[2] == "apply"
  }

  /** Which route the corrected table picks for each request shape. */
  lemma HandleCases(req: Request)
    ensures var m := FirstMatch(Routes, req.verb, req.path);
      && (req.verb == "GET" && req.path == ["jobs", "search"] ==> m == Some(2))
      && (req.verb == "GET" && IdPath(req.path) && req.path[1] != "search" ==> m == Some(3))
      && (req.verb == "GET" && req.path == ["jobs"] ==> m == Some(1))
      && (req.verb == "POST" && req.path == ["jobs"] ==> m == Some(0))
      && (req.verb == "PUT" && IdPath(req.path) ==> m == Some(4))
      && (req.verb == "DELETE" && IdPath(req.path) ==> m == Some(5))
      && (req.verb == "POST" && ApplyPath(req.path) ==> m == Some(6))
      && (req.verb == "GET" && m.Some? ==> m.value in {1, 2, 3})
      && (req.path == [] || req.path[0] != "jobs" ==> m.None?)
  {
    RoutingIsRouted(req.verb, req.path);
  }

  /** The corrected table's routing decision, written as a plain case
      analysis on the request's method and path shape. */
  function Routed(verb: String, path: seq<String>): Option<nat> {
    if verb == "POST" && path == ["jobs"] then Some(0)
    else if verb == "GET" && path == ["jobs"] then Some(1)
    else if verb == "GET" && path == ["jobs", "search"] then Some(2)
    else if verb == "GET" && IdPath(path) then Some(3)
    else if verb == "PUT" && IdPath(path) then Some(4)
    else if verb == "DELETE" && IdPath(path) then Some(5)
    else if verb == "POST" && ApplyPath(path) then Some(6)
    else None
  }

  /** First-match routing over the corrected table is exactly that case
      analysis. */
  lemma RoutingIsRouted(verb: String, path: seq<String>)
    ensures FirstMatch(Routes, verb, path) == Routed(verb, path)
  {
    RouteTable(verb, path);
    match Routed(verb, path)
    case Some(i) => FirstMatchIs(Routes, i, verb, path);
    case None => assert forall j | 0 <= j < |Routes| :: !RouteMatches(Routes[j], verb, path);
  }

  /** What each route of the corrected table matches. */
  lemma RouteTable(verb: String, p: seq<String>)
    ensures RouteMatches(Routes[0], verb, p) <==> verb == "POST" && p == ["jobs"]
    ensures RouteMatches(Routes[1], verb, p) <==> verb == "GET" && p == ["jobs"]
    ensures RouteMatches(Routes[2], verb, p) <==> verb == "GET" && p == ["jobs", "search"]
    ensures RouteMatches(Routes[3], verb, p) <==> verb == "GET" && IdPath(p)
    ensures RouteMatches(Routes[4], verb, p) <==> verb == "PUT" && IdPath(p)
    ensures RouteMatches(Routes[5], verb, p) <==> verb == "DELETE" && IdPath(p)
    ensures RouteMatches(Routes[6], verb, p) <==> verb == "POST" && ApplyPath(p)
  {
    PatternShapes("jobs", "search", p);
    PatternShapes("jobs", "apply", p);
  }

}

=== FILE: http.dfy ===
/** HTTP responses the handlers produce, and the pair of a response with the
    store it leaves behind. */
module Http {
  import opened Options
  import opened Text
  import opened Jobs

  datatype Body =
    | NoBody
    | OneJob(job: Job)
    /** The Spring controller's `{ jobs, total }`. */
    | JobPage(jobs: seq<Job>, total: int)
    /** The JavaScript handlers' `{ jobs, total, page, size }`. */
    | PagedJobs(jobs: seq<Job>, total: int, page: int, size: int)
    | AllJobs(jobs: seq<Job>)
    | Message(text: String)
    | Failure(error: String)
    /** A plain-text body sent with `res.end(text)`. */
    | PlainText(text: String)
    /** Express's automatic answer to OPTIONS: the allowed methods, sent
        both as the `Allow` header and as the body. */
    | Allow(verbs: set<String>)

  datatype Response = Response(status: int, body: Body)

  /** The query-string parameters the handlers read; `None` when absent. */
  datatype Query = Query(id: Option<String>, page: Option<String>, size: Option<String>,
                         keyword: Option<String>, location: Option<String>, jobType: Option<String>)

  const NoQuery: Query := Query(None, None, None, None, None, None)

  /** A request: its method, its path split at `/`, its query, its JSON body
      read as a job, and the body's `userId` property. */
  datatype Request = Request(verb: String, path: seq<String>, query: Query, body: Job, userId: Option<String>)

  /** What a handler answers, and the store after it ran. */
  datatype Exchange = Exchange(response: Response, store: Store)

  const StatusOk := 200
  const StatusCreated := 201
  const StatusNoContent := 204
  const StatusBadRequest := 400
  const StatusUnauthorized := 401
  const StatusNotFound := 404
  const StatusMethodNotAllowed := 405
  const StatusServerError := 500
}

=== FILE: job_bean.dfy ===
/** Bean validation of the Spring `Job` model: `@NotBlank` on title,
    company, location and description, `@NotNull` on expiryDate, and no
    constraint on any other field. */
module JobBean {
  import opened Options
  import opened Text
  import opened Jobs

  /** Blank for `@NotBlank`: the validator tests `trim().length() > 0`, and
      Java's `String.trim` removes every character up to U+0020, control
      characters included. */
  predicate JavaBlank(s: String) {
    forall i | 0 <= i < |s| :: s[i] <= ' '
  }

  /** `@NotBlank`: not null, and at least one character above U+0020. */
  predicate NotBlank(s: Option<String>) {
    s.Some? && !JavaBlank(s.value)
  }

  /** The constraints `@Valid` checks on a request body. */
  predicate IsValid(job: Job) {
    && NotBlank(job.title)
    && NotBlank(job.company)
    && NotBlank(job.location)
    && NotBlank(job.description)
    && job.expiryDate.Some?
  }

  /** Java's blank is wider than the JavaScript whitespace of `Text.IsBlank`:
      every whitespace-only string is blank, and so is a control character
      such as U+0001, which is not whitespace. */
  lemma BlankWider(s: String)
    ensures IsBlank(s) ==> JavaBlank(s)
    ensures JavaBlank("\U{0001}") && !IsBlank("\U{0001}")
  {
    assert !IsSpace("\U{0001}"[0]);
  }

  /** A string has a character above U+0020 exactly when it is not blank. */
  predicate HasVisible(s: Option<String>) {
    s.Some? && exists i | 0 <= i < |s.value| :: s.value[i] > ' '
  }

  /** A valid job has title, company, location and description each holding
      a character above U+0020 (so not whitespace), and an expiry date; a
      blank or whitespace-only one of those four, or a missing expiry date,
      is rejected, and a missing posted date is not. */
  lemma ValidMeans(job: Job)
    ensures IsValid(job) <==>
              HasVisible(job.title) && HasVisible(job.company) && HasVisible(job.location)
              && HasVisible(job.description) && job.expiryDate.Some?
    ensures IsValid(job) ==> exists i | 0 <= i < |job.title.value| :: !IsSpace(job.title.value[i])
    ensures IsValid(job) ==> exists i | 0 <= i < |job.company.value| :: !IsSpace(job.company.value[i])
    ensures IsValid(job) ==> exists i | 0 <= i < |job.location.value| :: !IsSpace(job.location.value[i])
    ensures IsValid(job) ==> exists i | 0 <= i < |job.description.value| :: !IsSpace(job.description.value[i])
    ensures job.title.Some? && IsBlank(job.title.value) ==> !IsValid(job)
    ensures job.company.Some? && IsBlank(job.company.value) ==> !IsValid(job)
    ensures job.location.Some? && IsBlank(job.location.value) ==> !IsValid(job)
    ensures job.description.Some? && IsBlank(job.description.value) ==> !IsValid(job)
    ensures job.expiryDate.None? ==> !IsValid(job)
    ensures IsValid(job) ==> IsValid(job.(postedDate := None))
  {
    VisibleNotBlank(job.title);
    VisibleNotBlank(job.company);
    VisibleNotBlank(job.location);
    VisibleNotBlank(job.description);
    if job.title.Some? { BlankWider(job.title.value); }
    if job.company.Some? { BlankWider(job.company.value); }
    if job.location.Some? { BlankWider(job.location.value); }
    if job.description.Some? { BlankWider(job.description.value); }
  }

  lemma VisibleNotBlank(s: Option<String>)
    ensures NotBlank(s) <==> HasVisible(s)
    ensures HasVisible(s) ==> exists i | 0 <= i < |s.value| :: !IsSpace(s.value[i])
  {
    if HasVisible(s) {
      var i :| 0 <= i < |s.value| && s.value[i] > ' ';
      assert !IsSpace(s.value[i]);
    }
  }

  /** Whitespace-only and empty strings are blank, and so is a control
      character; a string with a letter is not. */
  lemma BlankExamples()
    ensures !NotBlank(Some("   "))
    ensures !NotBlank(Some(""))
    ensures !NotBlank(None)
    ensures !NotBlank(Some("\U{0001}\U{001F}"))
    ensures NotBlank(Some(" a "))
  {
    assert " a "[1] > ' ';
  }

  /** The fields without an annotation never affect validity. */
  lemma UnconstrainedFields(job: Job, other: Job)
    ensures IsValid(job) == IsValid(job.(id := other.id, requirements := other.requirements,
                                        jobType := other.jobType, salary := other.salary,
                                        experienceLevel := other.experienceLevel,
                                        skills := other.skills, postedDate := other.postedDate,
                                        active := other.active, companyId := other.companyId,
                                        applicants := other.applicants))
  {
  }
}

=== FILE: job_controller.dfy ===
/** The Spring controller under `/api/jobs`: the shared-secret check on
    mutating calls, the clamped pagination of the listing and the search,
    and the 200/401/404 decisions.

    The controller computes its page window in 32-bit `int` arithmetic.
    `WindowAsWritten` keeps that arithmetic, and `ListAsWritten` and
    `SearchAsWritten` show that a large page wraps around. `List` and
    `Search` use the unbounded window of `Paging.ClampedWindow`, and agree
    with the written handlers wherever nothing overflows. */
module JobController {
  import opened Options
  import opened Text
  import opened Jobs
  import opened Http
  import opened Paging
  import JobService

  /** `isAuthorized`: a header is required and must equal the configured
      key exactly. */
  function IsAuthorized(header: Option<String>, apiKey: String): (ok: bool)
    ensures header.None? ==> !ok
    ensures header.Some? ==> (ok <==> header.value == apiKey)
  {
    header.Some? && header.value == apiKey
  }

  /** A Java `int`. */
  type Int32 = x: int | -0x8000_0000 <= x < 0x8000_0000

  /** Two's-complement wrap-around of a mathematical result to `int`. */
  function Wrap32(x: int): (r: Int32)
    ensures -0x8000_0000 <= x < 0x8000_0000 ==> r == x
    ensures (r - x) % 0x1_0000_0000 == 0
  {
    (x + 0x8000_0000) % 0x1_0000_0000 - 0x8000_0000
  }

  /** `Math.min(page * size, total)` and `Math.min(fromIndex + size, total)`
      evaluated in `int`, so the products and sums wrap. */
  function WindowAsWritten(page: Int32, size: Int32, total: nat): (w: Window)
    ensures w.from <= total && w.to <= total
  {
    var from := Min(Wrap32(page * size), total);
    Window(from, Min(Wrap32(from + size), total))
  }

  /** `subList(fromIndex, toIndex)` wrapped in the `{ jobs, total }` answer;
      `subList` throws, and Spring answers 500, unless
      `0 <= fromIndex <= toIndex <= size()`. */
  function PageResponse(jobs: seq<Job>, w: Window): (r: Response)
    ensures r.status == StatusOk <==> 0 <= w.from <= w.to <= |jobs|
    ensures r.status == StatusOk ==> r.body == JobPage(jobs[w.from..w.to], |jobs|)
  {
    if 0 <= w.from <= w.to <= |jobs| then Response(StatusOk, JobPage(jobs[w.from..w.to], |jobs|))
    else Response(StatusServerError, Failure("IndexOutOfBoundsException"))
  }

  /** Neither `page * size` nor `page * size + size` leaves the `int` range. */
  predicate NoOverflow(page: int, size: int) {
    0 <= page && 0 <= size && page * size + size < 0x8000_0000
  }

  /** Where nothing overflows, the 32-bit window is the unbounded one. */
  lemma WindowAgrees(page: Int32, size: Int32, total: nat)
    ensures NoOverflow(page, size) ==> WindowAsWritten(page, size, total) == ClampedWindow(page, size, total)
  {
    if NoOverflow(page, size) {
      NonNegativeProduct(page, size);
      var from := Min(page * size, total);
      assert Wrap32(page * size) == page * size;
      assert 0 <= from + size < 0x8000_0000;
      assert Wrap32(from + size) == from + size;
    }
  }

  lemma NonNegativeProduct(a: nat, b: nat)
    ensures a * b >= 0
  {
  }

  /** `getAllJobs` as written, with the 32-bit window. */
  function ListAsWritten(store: Store, order: seq<String>, page: Int32, size: Int32): (r: Response)
    ensures r.status == StatusOk ==> r.body.JobPage? && r.body.total == |Documents(store, order)|
  {
    var all := Documents(store, order);
    PageResponse(all, WindowAsWritten(page, size, |all|))
  }

  /** Two non-negative requests the 32-bit window gets wrong over a single
      stored job: page = size = 46341 makes `page * size` wrap negative and
      the request fail, and page = size = 65536 makes it wrap to 0 and
      return the first job although `page * size` is far past the end. */
  lemma OverflowCounterexample(job: Job)
    ensures ListAsWritten(map["a" := job], ["a"], 46341, 46341).status == StatusServerError
    ensures ListAsWritten(map["a" := job], ["a"], 65536, 65536) == Response(StatusOk, JobPage([ToBean(job)], 1))
    ensures List(map["a" := job], ["a"], 46341, 46341) == Response(StatusOk, JobPage([], 1))
    ensures List(map["a" := job], ["a"], 65536, 65536) == Response(StatusOk, JobPage([], 1))
  {
    assert Documents(map["a" := job], ["a"]) == [ToBean(job)];
    assert Wrap32(46341 * 46341) < 0;
    assert Wrap32(65536 * 65536) == 0;
  }

  /** `getAllJobs`: the page `[fromIndex, toIndex)` of all jobs in scan order
      and the unpaginated total. */
  function List(store: Store, order: seq<String>, page: Int32, size: Int32): (r: Response)
    ensures page >= 0 && size >= 0 ==>
              var all := Documents(store, order);
              var w := ClampedWindow(page, size, |all|);
              && r.status == StatusOk
              && r.body == JobPage(all[w.from..w.to], |all|)
              && |r.body.jobs| <= size
              && (page * size >= |all| ==> r.body.jobs == [])
  {
    var all := Documents(store, order);
    PageResponse(all, ClampedWindow(page, size, |all|))
  }

  /** `searchJobs`: the same window over the service's filtered list; `total`
      is the filtered count. */
  function Search(store: Store, order: seq<String>, keyword: Option<String>, location: Option<String>,
                  jobType: Option<String>, page: Int32, size: Int32): (r: Response)
    ensures page >= 0 && size >= 0 ==>
              var found := JobService.SearchJobs(store, order, keyword, location, jobType);
              var w := ClampedWindow(page, size, |found|);
              && r.status == StatusOk
              && r.body == JobPage(found[w.from..w.to], |found|)
              && |r.body.jobs| <= size
  {
    var found := JobService.SearchJobs(store, order, keyword, location, jobType);
    PageResponse(found, ClampedWindow(page, size, |found|))
  }

  /** `searchJobs` as written: the same 32-bit window over the filtered list. */
  function SearchAsWritten(store: Store, order: seq<String>, keyword: Option<String>, location: Option<String>,
                           jobType: Option<String>, page: Int32, size: Int32): (r: Response)
    ensures r.status == StatusOk ==>
              r.body.JobPage? && r.body.total == |JobService.SearchJobs(store, order, keyword, location, jobType)|
  {
    var found := JobService.SearchJobs(store, order, keyword, location, jobType);
    PageResponse(found, WindowAsWritten(page, size, |found|))
  }

  /** The written handlers agree with the corrected ones on every request
      whose window arithmetic stays inside `int`. */
  lemma AsWrittenAgrees(store: Store, order: seq<String>, keyword: Option<String>, location: Option<String>,
                        jobType: Option<String>, page: Int32, size: Int32)
    ensures NoOverflow(page, size) ==> ListAsWritten(store, order, page, size) == List(store, order, page, size)
    ensures NoOverflow(page, size) ==>
              SearchAsWritten(store, order, keyword, location, jobType, page, size)
              == Search(store, order, keyword, location, jobType, page, size)
  {
    WindowAgrees(page, size, |Documents(store, order)|);
    WindowAgrees(page, size, |JobService.SearchJobs(store, order, keyword, location, jobType)|);
  }

  /** The search overflows like the listing: over a single stored job and
      no filters, page = size = 46341 fails where the corrected search
      answers an empty page. */
  lemma SearchOverflowCounterexample(job: Job)
    ensures SearchAsWritten(map["a" := job], ["a"], None, None, None, 46341, 46341).status == StatusServerError
    ensures Search(map["a" := job], ["a"], None, None, None, 46341, 46341) == Response(StatusOk, JobPage([], 1))
  {
    assert Documents(map["a" := job], ["a"]) == [ToBean(job)];
    assert JobService.SearchJobs(map["a" := job], ["a"], None, None, None) == [ToBean(job)];
    assert Wrap32(46341 * 46341) < 0;
  }

  /** `getJobById`: 404 when the service returns null, otherwise 200 with
      the job. */
  function Get(store: Store, id: String): (r: Response)
    ensures id !in store <==> r == Response(StatusNotFound, NoBody)
    ensures id in store ==> r == Response(StatusOk, OneJob(ToBean(store[id])))
  {
    match JobService.GetJobById(store, id)
    case Some(job) => Response(StatusOk, OneJob(job))
    case None => Response(StatusNotFound, NoBody)
  }

  /** `createJob`: 401 without touching the store unless authorized;
      otherwise 200 with the body, read into the bean, carrying its new id. */
  function Create(store: Store, body: Job, header: Option<String>, apiKey: String, docId: String): (r: Exchange)
    ensures !IsAuthorized(header, apiKey) ==> r == Exchange(Response(StatusUnauthorized, NoBody), store)
    ensures IsAuthorized(header, apiKey) ==>
              && r.response == Response(StatusOk, OneJob(ToBean(body).(id := Some(docId))))
              && r.store == store[docId := ToBean(body).(id := Some(docId))]
  {
    if !IsAuthorized(header, apiKey) then Exchange(Response(StatusUnauthorized, NoBody), store)
    else
      var saved := JobService.CreateJob(store, body, docId);
      Exchange(Response(StatusOk, OneJob(saved.job)), saved.store)
  }

  /** `updateJob`: 401 without touching the store unless authorized;
      otherwise the document at `id` becomes exactly the body read into the
      bean. */
  function Update(store: Store, id: String, body: Job, header: Option<String>, apiKey: String): (r: Exchange)
    ensures !IsAuthorized(header, apiKey) ==> r == Exchange(Response(StatusUnauthorized, NoBody), store)
    ensures IsAuthorized(header, apiKey) ==>
              r.response == Response(StatusOk, OneJob(ToBean(body))) && r.store == store[id := ToBean(body)]
  {
    if !IsAuthorized(header, apiKey) then Exchange(Response(StatusUnauthorized, NoBody), store)
    else
      var saved := JobService.UpdateJob(store, id, body);
      Exchange(Response(StatusOk, OneJob(saved.job)), saved.store)
  }

  /** `deleteJob`: 401 without touching the store unless authorized;
      otherwise 200 whether or not the id existed. */
  function Delete(store: Store, id: String, header: Option<String>, apiKey: String): (r: Exchange)
    ensures !IsAuthorized(header, apiKey) ==> r == Exchange(Response(StatusUnauthorized, NoBody), store)
    ensures IsAuthorized(header, apiKey) ==>
              r.response == Response(StatusOk, NoBody) && id !in r.store && r.store.Keys == store.Keys - {id}
  {
    if !IsAuthorized(header, apiKey) then Exchange(Response(StatusUnauthorized, NoBody), store)
    else Exchange(Response(StatusOk, NoBody), JobService.DeleteJob(store, id))
  }

  /** Pages of one size tile the listing: page `p` ends where page `p + 1`
      starts, so concatenating pages never skips or repeats a job. */
  lemma ListPagesTile(store: Store, order: seq<String>, page: Int32, size: Int32)
    requires page >= 0 && size >= 0 && page < 0x7fff_ffff
    ensures var all := Documents(store, order);
            var a := List(store, order, page, size);
            var b := List(store, order, page + 1, size);
            var w := ClampedWindow(page, size, |all|);
            var v := ClampedWindow(page + 1, size, |all|);
            w.to == v.from && a.body.jobs + b.body.jobs == all[w.from..v.to]
  {
    var all := Documents(store, order);
    ClampedPagesTile(page, size, |all|);
    var w := ClampedWindow(page, size, |all|);
    var v := ClampedWindow(page + 1, size, |all|);
    assert all[w.from..w.to] + all[v.from..v.to] == all[w.from..v.to];
  }
}

=== FILE: job_form.dfy ===
/** The post-a-job form (frontend/src/components/JobForm.tsx): its initial
    values, the required-field check, and the body it posts to the Cloud
    Functions `POST /jobs`. Whether the post succeeds is a parameter. */
module JobForm {
  import opened Options
  import opened Text
  import opened Jobs
  import JobBean

  /** The form's fields, all text; `skills` is comma-separated. */
  datatype Form = Form(
    title: String, company: String, location: String, description: String,
    requirements: String, jobType: String, salary: String, experienceLevel: String,
    skills: String, expiryDate: String)

  /** `initialState`. */
  const InitialForm: Form := Form("", "", "", "", "", "FULL_TIME", "", "ENTRY", "", "")

  const MissingFields: String := "Please fill in all required fields."
  const PostFailed: String := "Failed to post job."

  /** Title, company, location, description and expiry date are filled in. */
  predicate Complete(f: Form) {
    |f.title| > 0 && |f.company| > 0 && |f.location| > 0 && |f.description| > 0 && |f.expiryDate| > 0
  }

  /** `{ ...form, skills: form.skills.split(',').map(s => s.trim()).filter(Boolean) }`:
      every field forwarded as it is, except the skills, which are parsed. */
  function PostBody(f: Form): (j: Job)
    ensures j.skills == Some(TrimmedPieces(Split(f.skills, ',')))
    ensures forall i | 0 <= i < |j.skills.value| :: |j.skills.value[i]| > 0 && ',' !in j.skills.value[i]
    ensures forall i | 0 <= i < |j.skills.value| ::
              !IsSpace(j.skills.value[i][0]) && !IsSpace(j.skills.value[i][|j.skills.value[i]| - 1])
  {
    NoFields.(title := Some(f.title), company := Some(f.company), location := Some(f.location),
              description := Some(f.description), requirements := Some(f.requirements),
              jobType := Some(f.jobType), salary := Some(f.salary),
              experienceLevel := Some(f.experienceLevel), skills := Some(ParseList(f.skills)),
              expiryDate := Some(f.expiryDate))
  }

  /** The form a body came from, apart from the skills text. */
  function FormOf(j: Job): Form {
    Form(j.title.GetOr(""), j.company.GetOr(""), j.location.GetOr(""), j.description.GetOr(""),
         j.requirements.GetOr(""), j.jobType.GetOr(""), j.salary.GetOr(""),
         j.experienceLevel.GetOr(""), "", j.expiryDate.GetOr(""))
  }

  /** Every field but the skills text can be read back from the body, and
      the body adds no id, applicants or active flag. */
  lemma PostBodyForwards(f: Form)
    ensures FormOf(PostBody(f)).(skills := f.skills) == f
    ensures PostBody(f).id.None? && PostBody(f).applicants.None? && PostBody(f).active.None?
  {
  }

  /** Skills typed as a tidy comma-separated list are posted as that list;
      an empty skills field posts no skills. */
  lemma PostedSkills(f: Form, items: seq<String>)
    requires f.skills == JoinWith(items, ",")
    requires forall i | 0 <= i < |items| :: |items[i]| > 0 && ',' !in items[i]
    requires forall i | 0 <= i < |items| :: !IsSpace(items[i][0]) && !IsSpace(items[i][|items[i]| - 1])
    ensures PostBody(f).skills == Some(items)
  {
    if |items| == 0 {
      ParseListJoinWith(items);
    } else {
      JoinWithChar(items, ',');
      ParseListJoin(items);
    }
  }

  /** What a submit leaves behind: the error shown, the success flag, and the
      body posted if any. */
  datatype Outcome = Outcome(error: Option<String>, success: bool, posted: Option<Job>)

  /** `handleSubmit`: an incomplete form is refused before anything is
      posted; otherwise the body is posted and the outcome follows the
      server's answer. */
  function Submit(f: Form, postSucceeds: bool): (r: Outcome)
    ensures r.posted.Some? <==> Complete(f)
    ensures r.posted.Some? ==> r.posted.value == PostBody(f)
    ensures !Complete(f) ==> r.error == Some(MissingFields) && !r.success
    ensures r.success <==> Complete(f) && postSucceeds
    ensures Complete(f) && !postSucceeds ==> r.error == Some(PostFailed)
    ensures r.success ==> r.error.None?
  {
    if !Complete(f) then Outcome(Some(MissingFields), false, None)
    else if postSucceeds then Outcome(None, true, Some(PostBody(f)))
    else Outcome(Some(PostFailed), false, Some(PostBody(f)))
  }

  /** The untouched form cannot be posted. */
  lemma InitialFormRefused(postSucceeds: bool)
    ensures Submit(InitialForm, postSucceeds).posted.None?
  {
  }

  /** The four `@NotBlank` fields each hold a character above U+0020. */
  predicate RequiredNotBlank(f: Form) {
    && !JobBean.JavaBlank(f.title) && !JobBean.JavaBlank(f.company)
    && !JobBean.JavaBlank(f.location) && !JobBean.JavaBlank(f.description)
  }

  /** The check is for emptiness, not blankness: a complete form whose
      required fields hold a non-space character posts a body that passes
      the Spring model's validation constraints, but a title of one space
      also passes the form and posts a body those constraints reject. */
  lemma FormVersusBean(f: Form)
    ensures Complete(f) && RequiredNotBlank(f) ==> JobBean.IsValid(PostBody(f))
    ensures JobBean.IsValid(PostBody(f)) ==> |f.title| > 0 && |f.company| > 0 && |f.location| > 0 && |f.description| > 0
    ensures var blank := InitialForm.(title := " ", company := "c", location := "l", description := "d", expiryDate := "e");
            Complete(blank) && !JobBean.IsValid(PostBody(blank))
  {
    var blank := InitialForm.(title := " ", company := "c", location := "l", description := "d", expiryDate := "e");
    assert JobBean.JavaBlank(blank.title);
  }
}

=== FILE: job_list.dfy ===
/** The public job list (frontend/src/components/JobList.tsx): which backend
    call a fetch makes, how the answer is read, the page count, the search
    form's reduction to three filters, and the "applied" badge. The calls
    themselves are left to the services layer; a fetch is described by the
    request it would make. */
module JobList {
  import opened Options
  import opened Text
  import opened Jobs
  import opened Paging
  import PageControls
  import SeekerHome

  /** `const size = 10`. */
  const PageSize: nat := 10

  /** `Math.ceil(total / size)`. */
  function TotalPages(total: nat): (n: nat)
    ensures n * PageSize >= total
    ensures total > 0 ==> (n - 1) * PageSize < total
    ensures n == 0 <==> total == 0
  {
    PageCount(total, PageSize)
  }

  /** The three filters the list keeps. */
  datatype Filters = Filters(keyword: String, location: String, jobType: String)

  /** The advanced search form's fields. */
  datatype AdvancedFilters = AdvancedFilters(
    keyword: String, location: String, jobType: String, salary: String, experience: String,
    company: String, remote: bool, datePosted: String, radius: String)

  /** The backend call a fetch makes. */
  datatype Call =
    | SearchCall(keyword: String, location: String, jobType: String, page: int, size: nat)
    | ListCall(page: int, size: nat)

  /** `fetchJobs`: with filters set it searches, otherwise it lists; either
      way for the requested page and ten jobs. */
  function FetchCall(filters: Option<Filters>, page: int): (c: Call)
    ensures c.SearchCall? <==> filters.Some?
    ensures c.page == page && c.size == PageSize
    ensures filters.Some? ==> c.keyword == filters.value.keyword && c.location == filters.value.location
                              && c.jobType == filters.value.jobType
  {
    match filters
    case Some(f) => SearchCall(f.keyword, f.location, f.jobType, page, PageSize)
    case None => ListCall(page, PageSize)
  }

  /** A backend answer, either part of which may be missing. */
  datatype Answer = Answer(jobs: Option<seq<Job>>, total: Option<nat>)

  /** The list's state. */
  datatype ListState = ListState(jobs: seq<Job>, page: int, total: nat, filters: Option<Filters>)

  /** `setJobs(data.jobs || [])` and `setTotal(data.total || 0)`. */
  function Receive(s: ListState, a: Answer): (r: ListState)
    ensures a.jobs.Some? ==> r.jobs == a.jobs.value
    ensures a.jobs.None? ==> r.jobs == []
    ensures r.total == a.total.GetOr(0)
    ensures r.page == s.page && r.filters == s.filters
  {
    s.(jobs := a.jobs.GetOr([]), total := a.total.GetOr(0))
  }

  /** `handleSearch`: keeps only keyword, location and type, returns to the
      first page, and fetches page 0 with the new filters. */
  function Search(s: ListState, form: AdvancedFilters): (r: (ListState, Call))
    ensures r.0.filters == Some(Filters(form.keyword, form.location, form.jobType))
    ensures r.0.page == 0 && r.0.jobs == s.jobs && r.0.total == s.total
    ensures r.1 == FetchCall(r.0.filters, 0)
  {
    var f := Some(Filters(form.keyword, form.location, form.jobType));
    (s.(filters := f, page := 0), FetchCall(f, 0))
  }

  /** Salary, experience, company, remote, date and radius never reach the
      backend: forms that agree on the three kept filters search alike. */
  lemma SearchIgnoresExtras(s: ListState, a: AdvancedFilters, b: AdvancedFilters)
    requires a.keyword == b.keyword && a.location == b.location && a.jobType == b.jobType
    ensures Search(s, a) == Search(s, b)
  {
  }

  /** After a search the page is in range for any answer, so the Previous
      button is disabled until the user moves on. */
  lemma SearchStartsOnFirstPage(s: ListState, form: AdvancedFilters, a: Answer)
    ensures var r := Receive(Search(s, form).0, a);
            PageControls.InRange(r.page, TotalPages(r.total)) && !PageControls.PreviousEnabled(r.page)
  {
  }

  /** The Previous and Next buttons below the list, for the list's state. */
  function Buttons(s: ListState): (r: (bool, bool))
    ensures r.0 <==> s.page != 0
    ensures r.1 <==> s.page + 1 < TotalPages(s.total)
    ensures s.page >= 0 && r.1 ==> (s.page + 1) * PageSize < s.total
  {
    (PageControls.PreviousEnabled(s.page), PageControls.NextEnabled(s.page, TotalPages(s.total)))
  }

  /** `user ? job.applicants?.includes(user.uid) : false`. */
  function IsApplied(user: Option<String>, job: Job): (b: bool)
    ensures user.None? ==> !b
    ensures user.Some? ==> (b <==> SeekerHome.HasApplied(job, user.value))
  {
    user.Some? && job.applicants.Some? && user.value in job.applicants.value
  }

  /** The badge appears once the dashboard has recorded the application. */
  lemma AppliedAfterApply(jobs: seq<Job>, jobId: String, uid: String, i: nat)
    requires i < |jobs| && jobs[i].id == Some(jobId)
    ensures IsApplied(Some(uid), SeekerHome.AddApplicant(jobs, jobId, uid)[i])
  {
  }
}

=== FILE: job_service.dfy ===
/** The Spring service over the `jobs` collection: get by id, create with a
    store-generated id, full replace, delete, and the filtered query whose
    keyword filter is the title range `[keyword, keyword + U+F8FF]`. */
module JobService {
  import opened Options
  import opened Seqs
  import opened Text
  import opened Jobs

  /** The service's answer together with the store it leaves. */
  datatype Saved = Saved(job: Job, store: Store)

  /** `getJobById`: the stored document read into the bean, or null when
      none exists. */
  function GetJobById(store: Store, id: String): (r: Option<Job>)
    ensures r.None? <==> id !in store
    ensures r.Some? ==> IsBean(r.value) && r.value == ToBean(store[id])
  {
    if id in store then Some(ToBean(store[id])) else None
  }

  /** `createJob`: the request body, read into the bean, gets the generated
      document id and is stored there as it is. The id comes from the store
      and is a parameter here. */
  function CreateJob(store: Store, job: Job, docId: String): (r: Saved)
    ensures IsBean(r.job) && r.job.id == Some(docId)
    ensures r.job == ToBean(job).(id := Some(docId))
    ensures r.store.Keys == store.Keys + {docId}
    ensures r.store[docId] == r.job
    ensures forall k | k in store && k != docId :: r.store[k] == store[k]
  {
    var stamped := ToBean(job).(id := Some(docId));
    Saved(stamped, store[docId := stamped])
  }

  /** `updateJob`: `set(job)` without merge replaces the whole document with
      the bean read from the body; the path id is not written into it. */
  function UpdateJob(store: Store, id: String, job: Job): (r: Saved)
    ensures IsBean(r.job) && r.job == ToBean(job)
    ensures r.store.Keys == store.Keys + {id}
    ensures r.store[id] == ToBean(job)
    ensures forall k | k in store && k != id :: r.store[k] == store[k]
  {
    var bean := ToBean(job);
    Saved(bean, store[id := bean])
  }

  /** `deleteJob`: removes the document if there is one. */
  function DeleteJob(store: Store, id: String): (r: Store)
    ensures r.Keys == store.Keys - {id}
    ensures forall k | k in r :: r[k] == store[k]
  {
    store - {id}
  }

  /** Reading back after each write gives the bean that was written. */
  lemma ReadAfterWrite(store: Store, id: String, job: Job, docId: String)
    ensures GetJobById(CreateJob(store, job, docId).store, docId) == Some(CreateJob(store, job, docId).job)
    ensures GetJobById(UpdateJob(store, id, job).store, id) == Some(ToBean(job))
    ensures GetJobById(DeleteJob(store, id), id) == None
    ensures id !in store ==> DeleteJob(store, id) == store
    ensures docId !in store ==> |CreateJob(store, job, docId).store| == |store| + 1
    ensures GetJobById(UpdateJob(store, id, job).store, id).value.status.None?
    ensures job.active.None? ==> GetJobById(UpdateJob(store, id, job).store, id).value.active == Some(false)
  {
  }

  /** An update loses every field the new body lacks: nothing is merged
      from the old document. */
  lemma UpdateReplaces(store: Store, id: String, job: Job)
    requires id in store && store[id].salary.Some? && job.salary.None?
    ensures GetJobById(UpdateJob(store, id, job).store, id).value.salary.None?
  {
  }

  /** The character appended to the keyword to close the title range. */
  const Sentinel: char := '\U{F8FF}'

  /** `title >= keyword && title <= keyword + U+F8FF`. */
  predicate InKeywordRange(keyword: String, title: String) {
    LexLe(keyword, title) && LexLe(title, keyword + [Sentinel])
  }

  /** A shared prefix does not change the comparison. */
  lemma {:induction false} LexLeCommonPrefix(k: String, a: String, b: String)
    ensures LexLe(k + a, k + b) == LexLe(a, b)
  {
    if |k| > 0 {
      assert (k + a)[1..] == k[1..] + a;
      assert (k + b)[1..] == k[1..] + b;
      LexLeCommonPrefix(k[1..], a, b);
    } else {
      assert k + a == a && k + b == b;
    }
  }

  /** Every title in range begins with the keyword. */
  lemma {:induction false} RangeMatchHasPrefix(keyword: String, title: String)
    requires InKeywordRange(keyword, title)
    ensures keyword <= title
  {
    if |keyword| > 0 {
      var ks := keyword + [Sentinel];
      assert ks[0] == keyword[0];
      assert title[0] == keyword[0];
      assert ks[1..] == keyword[1..] + [Sentinel];
      RangeMatchHasPrefix(keyword[1..], title[1..]);
    }
  }

  /** The range is exactly: the keyword, followed by nothing, by a character
      below U+F8FF, or by U+F8FF alone. */
  lemma KeywordRangeExactly(keyword: String, title: String)
    ensures InKeywordRange(keyword, title) <==>
              keyword <= title &&
              (|title| == |keyword| || title[|keyword|] < Sentinel || title == keyword + [Sentinel])
  {
    if InKeywordRange(keyword, title) {
      RangeMatchHasPrefix(keyword, title);
    }
    if keyword <= title {
      var rest := title[|keyword|..];
      assert title == keyword + rest;
      assert keyword == keyword + [];
      LexLeCommonPrefix(keyword, [], rest);
      LexLeCommonPrefix(keyword, rest, [Sentinel]);
      if |rest| > 0 && rest[0] == Sentinel {
        assert LexLe(rest, [Sentinel]) == LexLe(rest[1..], []);
        assert title == keyword + [Sentinel] <==> |rest| == 1;
      }
    }
  }

  /** The filters the service ANDs together; a null or empty argument adds
      no constraint, and a document lacking the field never matches it. */
  predicate Matches(job: Job, keyword: Option<String>, location: Option<String>, jobType: Option<String>) {
    && (Truthy(keyword) ==> job.title.Some? && InKeywordRange(keyword.value, job.title.value))
    && (Truthy(location) ==> job.location == location)
    && (Truthy(jobType) ==> job.jobType == jobType)
  }

  /** `searchJobs`: the documents matching every supplied filter, in scan
      order. */
  function SearchJobs(store: Store, order: seq<String>, keyword: Option<String>,
                      location: Option<String>, jobType: Option<String>): (r: seq<Job>)
    ensures forall i | 0 <= i < |r| :: Matches(r[i], keyword, location, jobType)
    ensures forall i | 0 <= i < |r| :: r[i] in Documents(store, order)
    ensures forall j | j in Documents(store, order) && Matches(j, keyword, location, jobType) :: j in r
    ensures IsSubseq(r, Documents(store, order))
    ensures !Truthy(keyword) && !Truthy(location) && !Truthy(jobType) ==> r == Documents(store, order)
  {
    var docs := Documents(store, order);
    var r := Filter(docs, j => Matches(j, keyword, location, jobType));
    FilterIsSubseq(docs, j => Matches(j, keyword, location, jobType));
    if !Truthy(keyword) && !Truthy(location) && !Truthy(jobType) then
      FilterKeepsAll(docs, j => Matches(j, keyword, location, jobType));
      r
    else r
  }

  /** A keyword search only returns titles starting with the keyword, and a
      location search only exact, case-sensitive locations. */
  lemma SearchResultsMeaning(store: Store, order: seq<String>, keyword: Option<String>,
                             location: Option<String>, jobType: Option<String>, j: Job)
    requires j in SearchJobs(store, order, keyword, location, jobType)
    ensures Truthy(keyword) ==> keyword.value <= j.title.value
    ensures Truthy(location) ==> j.location == location
    ensures Truthy(jobType) ==> j.jobType == jobType
  {
    if Truthy(keyword) {
      RangeMatchHasPrefix(keyword.value, j.title.value);
    }
  }
}

=== FILE: jobs.dfy ===
/** The job document and the document store holding it.

    One `Job` shape serves every layer: the Java bean, the JSON bodies of the
    JavaScript handlers, and the documents the front end reads. A field that
    is absent from a document (or null in the bean) is `None`. The store is a
    map from document id to document; the order in which a collection scan
    returns documents is supplied separately as a sequence of ids. */
module Jobs {
  import opened Options
  import opened Text

  datatype Job = Job(
    id: Option<String>,
    title: Option<String>,
    company: Option<String>,
    location: Option<String>,
    description: Option<String>,
    requirements: Option<String>,
    jobType: Option<String>,
    salary: Option<String>,
    experienceLevel: Option<String>,
    skills: Option<seq<String>>,
    postedDate: Option<String>,
    expiryDate: Option<String>,
    active: Option<bool>,
    companyId: Option<String>,
    applicants: Option<seq<String>>,
    status: Option<String>,
    featured: Option<bool>
  )

  /** A document with no fields at all. */
  const NoFields: Job := Job(None, None, None, None, None, None, None, None, None,
                             None, None, None, None, None, None, None, None)

  type Store = map<String, Job>

  /** `{ id: docId, ...data }`: the document id, unless the stored data has
      an `id` field of its own, which the spread copies over it. */
  function WithId(docId: String, data: Job): (r: Job)
    ensures r.id.Some?
    ensures data.id.None? ==> r.id == Some(docId)
    ensures r.(id := data.id) == data
  {
    if data.id.Some? then data else data.(id := Some(docId))
  }

  /** The field of an update body if it has one, otherwise the stored field. */
  function Pick<T>(update: Option<T>, stored: Option<T>): Option<T> {
    if update.Some? then update else stored
  }

  /** Firestore `set(body, { merge: true })` on an existing document: fields
      in the body overwrite, fields absent from it keep their stored value. */
  function Merge(stored: Job, body: Job): (r: Job)
  {
    Job(Pick(body.id, stored.id), Pick(body.title, stored.title),
        Pick(body.company, stored.company), Pick(body.location, stored.location),
        Pick(body.description, stored.description),
        Pick(body.requirements, stored.requirements), Pick(body.jobType, stored.jobType),
        Pick(body.salary, stored.salary), Pick(body.experienceLevel, stored.experienceLevel),
        Pick(body.skills, stored.skills), Pick(body.postedDate, stored.postedDate),
        Pick(body.expiryDate, stored.expiryDate), Pick(body.active, stored.active),
        Pick(body.companyId, stored.companyId), Pick(body.applicants, stored.applicants),
        Pick(body.status, stored.status), Pick(body.featured, stored.featured))
  }

  /** A body carrying every field leaves nothing of the stored document. */
  predicate HasEveryField(j: Job) {
    j.id.Some? && j.title.Some? && j.company.Some? && j.location.Some?
    && j.description.Some? && j.requirements.Some? && j.jobType.Some?
    && j.salary.Some? && j.experienceLevel.Some? && j.skills.Some?
    && j.postedDate.Some? && j.expiryDate.Some? && j.active.Some?
    && j.companyId.Some? && j.applicants.Some? && j.status.Some? && j.featured.Some?
  }

  /** Merging keeps absent fields, takes present ones, and is idempotent. */
  lemma MergeLaws(stored: Job, body: Job)
    ensures Merge(stored, NoFields) == stored
    ensures Merge(NoFields, body) == body
    ensures Merge(Merge(stored, body), body) == Merge(stored, body)
    ensures HasEveryField(body) ==> Merge(stored, body) == body
    ensures body.title.None? ==> Merge(stored, body).title == stored.title
    ensures body.title.Some? ==> Merge(stored, body).title == body.title
    ensures body.applicants.None? ==> Merge(stored, body).applicants == stored.applicants
  {
  }

  /** `set(body, { merge: true })` on the document at `id`: merges into an
      existing document and creates one from the body otherwise. */
  function MergeAt(store: Store, id: String, body: Job): (r: Store)
    ensures r.Keys == store.Keys + {id}
    ensures id in store ==> r[id] == Merge(store[id], body)
    ensures id !in store ==> r[id] == body
    ensures forall k | k in store && k != id :: r[k] == store[k]
  {
    store[id := if id in store then Merge(store[id], body) else body]
  }

  /** A value of the Spring `Job` bean: `active` is a primitive `boolean`,
      so it is always there, and `status` and `featured` are not bean
      properties, so a bean never carries them. */
  predicate IsBean(j: Job) {
    j.active.Some? && j.status.None? && j.featured.None?
  }

  /** A document or JSON body read into the bean, as `toObject(Job.class)`
      and Jackson do: a missing `active` reads as `false` and the properties
      the bean lacks are dropped. Every other field is copied as read: the
      conversions into the bean's `String[]` and `LocalDateTime` fields, and
      the ways they can fail, are not part of this model. */
  function ToBean(j: Job): (b: Job)
    ensures IsBean(b)
    ensures b.active == Some(j.active == Some(true))
    ensures b.(active := j.active, status := j.status, featured := j.featured) == j
  {
    j.(active := Some(j.active == Some(true)), status := None, featured := None)
  }

  /** Reading a bean back changes nothing, a job is a bean exactly when it
      is its own reading, the properties the bean lacks never show, and only
      an explicit `true` reads as active. */
  lemma ToBeanLaws(j: Job, other: Job)
    ensures ToBean(ToBean(j)) == ToBean(j)
    ensures IsBean(j) <==> ToBean(j) == j
    ensures ToBean(j.(status := other.status, featured := other.featured)) == ToBean(j)
    ensures j.active.None? ==> ToBean(j).active == Some(false)
  {
    if IsBean(j) {
      var b := j.active.value;
      assert ToBean(j).active == Some(b);
    }
  }

  /** The stored documents in scan order, as `document.toObject(Job.class)`
      reads them (ids in `order` that the store lacks are skipped). */
  function Documents(store: Store, order: seq<String>): (r: seq<Job>)
    ensures |r| <= |order|
    ensures forall i | 0 <= i < |order| && order[i] in store :: ToBean(store[order[i]]) in r
    ensures forall j | j in r :: IsBean(j) && exists id | id in store :: ToBean(store[id]) == j
  {
    if |order| == 0 then []
    else if order[0] in store then [ToBean(store[order[0]])] + Documents(store, order[1..])
    else Documents(store, order[1..])
  }

  /** The stored documents in scan order as `{ id: doc.id, ...doc.data() }`. */
  function Identified(store: Store, order: seq<String>): (r: seq<Job>)
    ensures |r| <= |order|
    ensures forall i | 0 <= i < |order| && order[i] in store :: WithId(order[i], store[order[i]]) in r
    ensures forall j | j in r :: j.id.Some?
  {
    if |order| == 0 then []
    else if order[0] in store then [WithId(order[0], store[order[0]])] + Identified(store, order[1..])
    else Identified(store, order[1..])
  }

  /** A scan order lists every stored document exactly once. */
  predicate IsScanOrder(store: Store, order: seq<String>) {
    && (forall i | 0 <= i < |order| :: order[i] in store)
    && (forall k | k in store :: k in order)
    && (forall i, j | 0 <= i < j < |order| :: order[i] != order[j])
  }

  /** A full scan returns as many documents as the store holds. */
  lemma {:induction false} ScanSize(store: Store, order: seq<String>)
    requires IsScanOrder(store, order)
    ensures |Identified(store, order)| == |store| == |Documents(store, order)|
    decreases |order|
  {
    if |order| == 0 {
      assert store.Keys == {};
    } else {
      ScanTail(store, order);
      ScanSize(store - {order[0]}, order[1..]);
      ScanRestrict(store, order[0], order[1..]);
    }
  }

  /** Dropping the first document of a scan leaves a scan of the rest. */
  lemma ScanTail(store: Store, order: seq<String>)
    requires IsScanOrder(store, order) && |order| > 0
    ensures IsScanOrder(store - {order[0]}, order[1..])
    ensures order[0] !in order[1..]
    ensures |store - {order[0]}| == |store| - 1
  {
    var rest := store - {order[0]};
    var tail := order[1..];
    forall i | 0 <= i < |tail| ensures tail[i] in rest {
      assert tail[i] == order[i + 1];
    }
    forall k | k in rest ensures k in tail {
      var i :| 0 <= i < |order| && order[i] == k;
      assert i != 0;
      assert tail[i - 1] == k;
    }
    forall i, j | 0 <= i < j < |tail| ensures tail[i] != tail[j] {
      assert tail[i] == order[i + 1] && tail[j] == order[j + 1];
    }
  }

  /** Removing a key the order does not mention does not change the scan. */
  lemma {:induction false} ScanRestrict(store: Store, k: String, order: seq<String>)
    requires k !in order
    ensures Identified(store - {k}, order) == Identified(store, order)
    ensures Documents(store - {k}, order) == Documents(store, order)
    decreases |order|
  {
    if |order| > 0 {
      ScanRestrict(store, k, order[1..]);
    }
  }
}

=== FILE: js_crud.dfy ===
/** The request handlers of the Express function app (functions/index.js):
    the in-memory location/type/keyword filters, the `parseInt(...) ||
    default` page parameters, the slice pagination, create, get, merge-put,
    delete and apply. The Vercel functions and the standalone Express server
    run the same code and reuse these definitions. */
module JsCrud {
  import opened Options
  import opened Seqs
  import opened Text
  import opened Jobs
  import opened Http
  import opened Paging

  /** `parseInt(param, 10) || fallback`; an absent parameter takes the
      destructuring default, which equals the fallback (0 for the page, 10
      for the size). */
  function QueryInt(param: Option<String>, fallback: int): (n: int)
    ensures param.None? ==> n == fallback
    ensures param.Some? && ParseInt(param.value).None? ==> n == fallback
    ensures param.Some? && ParseInt(param.value) == Some(0) ==> n == fallback
    ensures param.Some? && ParseInt(param.value).Some? && ParseInt(param.value).value != 0 ==>
              n == ParseInt(param.value).value
    ensures n == 0 ==> fallback == 0
  {
    match param
    case None => fallback
    case Some(s) =>
      match ParseInt(s)
      case None => fallback
      case Some(v) => if v == 0 then fallback else v
  }

  /** A non-numeric page is page 0, and an empty or zero size is 10. */
  lemma QueryIntExamples()
    ensures QueryInt(Some("abc"), 0) == 0
    ensures QueryInt(Some(""), 10) == 10
    ensures QueryInt(Some("0"), 10) == 10
  {
    NotANumber();
    ReadsDefault("abc", 0);
    ReadsDefault("", 10);
    ZeroParses();
    ReadsDefault("0", 10);
  }

  lemma ReadsDefault(s: String, fallback: int)
    requires ParseInt(s).None? || ParseInt(s) == Some(0)
    ensures QueryInt(Some(s), fallback) == fallback
  {
  }

  /** A positive number is read as written, whatever the default. */
  lemma QueryIntDecimal(n: nat, fallback: int)
    requires n > 0
    ensures QueryInt(Some(Decimal(n)), fallback) == n
  {
    ParseIntDecimal(n);
    ReadsParsed(Decimal(n), n, fallback);
  }

  lemma ReadsParsed(s: String, v: int, fallback: int)
    requires ParseInt(s) == Some(v) && v != 0
    ensures QueryInt(Some(s), fallback) == v
  {
  }

  lemma NotANumber()
    ensures ParseInt("abc").None? && ParseInt("").None?
  {
    ParseIntNaN("abc");
    ParseIntNaN("");
  }

  lemma ZeroParses()
    ensures ParseInt("0") == Some(0)
  {
    ParseIntDecimal(0);
    assert Decimal(0) == "0";
  }

  /** `job.location && job.location.toLowerCase().includes(location.toLowerCase())`. */
  predicate LocationMatch(job: Job, location: String) {
    Truthy(job.location) && ContainsIgnoringCase(job.location.value, location)
  }

  /** `job.type === type`. */
  predicate TypeMatch(job: Job, jobType: String) {
    job.jobType == Some(jobType)
  }

  /** `field && field.toLowerCase().includes(keyword)`. */
  predicate FieldMentions(field: Option<String>, keyword: String) {
    Truthy(field) && ContainsIgnoringCase(field.value, keyword)
  }

  /** The keyword test: title, description or company mentions it. */
  predicate KeywordMatch(job: Job, keyword: String) {
    FieldMentions(job.title, keyword) || FieldMentions(job.description, keyword)
    || FieldMentions(job.company, keyword)
  }

  /** Each filter constrains the job only when its query string is non-empty. */
  predicate LocationOk(job: Job, location: String) { |location| > 0 ==> LocationMatch(job, location) }
  predicate TypeOk(job: Job, jobType: String) { |jobType| > 0 ==> TypeMatch(job, jobType) }
  predicate KeywordOk(job: Job, keyword: String) { |keyword| > 0 ==> KeywordMatch(job, keyword) }

  /** A job passes every non-empty filter. */
  predicate Matches(job: Job, keyword: String, location: String, jobType: String) {
    LocationOk(job, location) && TypeOk(job, jobType) && KeywordOk(job, keyword)
  }

  /** `if (location) jobs = jobs.filter(...)`, and likewise for the type and
      the keyword. */
  function ByLocation(jobs: seq<Job>, location: String): seq<Job> {
    if |location| > 0 then Filter(jobs, j => LocationMatch(j, location)) else jobs
  }

  function ByType(jobs: seq<Job>, jobType: String): seq<Job> {
    if |jobType| > 0 then Filter(jobs, j => TypeMatch(j, jobType)) else jobs
  }

  function ByKeyword(jobs: seq<Job>, keyword: String): seq<Job> {
    if |keyword| > 0 then Filter(jobs, j => KeywordMatch(j, keyword)) else jobs
  }

  /** Each guarded stage is a single filter. */
  lemma LocationStage(jobs: seq<Job>, location: String)
    ensures ByLocation(jobs, location) == Filter(jobs, j => LocationOk(j, location))
  {
    if |location| > 0 {
      FilterCongruent(jobs, j => LocationMatch(j, location), j => LocationOk(j, location));
    } else {
      FilterKeepsAll(jobs, j => LocationOk(j, location));
    }
  }

  lemma TypeStage(jobs: seq<Job>, jobType: String)
    ensures ByType(jobs, jobType) == Filter(jobs, j => TypeOk(j, jobType))
  {
    if |jobType| > 0 {
      FilterCongruent(jobs, j => TypeMatch(j, jobType), j => TypeOk(j, jobType));
    } else {
      FilterKeepsAll(jobs, j => TypeOk(j, jobType));
    }
  }

  lemma KeywordStage(jobs: seq<Job>, keyword: String)
    ensures ByKeyword(jobs, keyword) == Filter(jobs, j => KeywordOk(j, keyword))
  {
    if |keyword| > 0 {
      FilterCongruent(jobs, j => KeywordMatch(j, keyword), j => KeywordOk(j, keyword));
    } else {
      FilterKeepsAll(jobs, j => KeywordOk(j, keyword));
    }
  }

  /** Three filters in a row are one filter by their conjunction. */
  lemma StagesCompose(jobs: seq<Job>, keyword: String, location: String, jobType: String)
    ensures ByKeyword(ByType(ByLocation(jobs, location), jobType), keyword)
            == Filter(jobs, j => Matches(j, keyword, location, jobType))
  {
    var l := j => LocationOk(j, location);
    var t := j => TypeOk(j, jobType);
    var k := j => KeywordOk(j, keyword);
    var lt := j => LocationOk(j, location) && TypeOk(j, jobType);
    var a := ByLocation(jobs, location);
    LocationStage(jobs, location);
    var b := ByType(a, jobType);
    TypeStage(a, jobType);
    assert b == Filter(Filter(jobs, l), t);
    FilterFilter(jobs, l, t, lt);
    assert b == Filter(jobs, lt);
    KeywordStage(b, keyword);
    assert ByKeyword(b, keyword) == Filter(Filter(jobs, lt), k);
    FilterFilter(jobs, lt, k, j => Matches(j, keyword, location, jobType));
  }

  /** The three successive filters: location, then type, then keyword. */
  function FilterJobs(jobs: seq<Job>, keyword: String, location: String, jobType: String): (r: seq<Job>)
    ensures r == Filter(jobs, j => Matches(j, keyword, location, jobType))
    ensures IsSubseq(r, jobs)
    ensures |keyword| == 0 && |location| == 0 && |jobType| == 0 ==> r == jobs
  {
    StagesCompose(jobs, keyword, location, jobType);
    FilterIsSubseq(jobs, j => Matches(j, keyword, location, jobType));
    ByKeyword(ByType(ByLocation(jobs, location), jobType), keyword)
  }

  /** Applying the same filters to their own result changes nothing. */
  lemma FilterJobsIdempotent(jobs: seq<Job>, keyword: String, location: String, jobType: String)
    ensures FilterJobs(FilterJobs(jobs, keyword, location, jobType), keyword, location, jobType)
            == FilterJobs(jobs, keyword, location, jobType)
  {
    FilterIdempotent(jobs, j => Matches(j, keyword, location, jobType));
  }

  /** A location filter keeps a job exactly when the job's location contains
      it ignoring case; a keyword filter exactly when title, description or
      company does. */
  lemma FilterJobsMembership(jobs: seq<Job>, keyword: String, location: String, jobType: String, i: nat)
    requires i < |jobs|
    ensures jobs[i] in FilterJobs(jobs, keyword, location, jobType) <==> Matches(jobs[i], keyword, location, jobType)
  {
  }

  /** The `{ jobs, total, page, size }` answer: the slice
      `[page * size, page * size + size)` of the list and its full length. */
  function Paginate(jobs: seq<Job>, pageParam: Option<String>, sizeParam: Option<String>): (r: Response)
    ensures r.status == StatusOk && r.body.PagedJobs?
    ensures r.body.total == |jobs|
    ensures r.body.page == QueryInt(pageParam, 0) && r.body.size == QueryInt(sizeParam, 10)
    ensures r.body.jobs == PageSlice(jobs, r.body.page, r.body.size)
    ensures r.body.page >= 0 && r.body.size >= 0 ==>
              |r.body.jobs| <= r.body.size &&
              var w := ClampedWindow(r.body.page, r.body.size, |jobs|);
              r.body.jobs == jobs[w.from..w.to]
  {
    var page := QueryInt(pageParam, 0);
    var size := QueryInt(sizeParam, 10);
    PageWindow(jobs, page, size);
    Response(StatusOk, PagedJobs(PageSlice(jobs, page, size), |jobs|, page, size))
  }

  lemma PageWindow(jobs: seq<Job>, page: int, size: int)
    ensures page >= 0 && size >= 0 ==>
              var w := ClampedWindow(page, size, |jobs|);
              PageSlice(jobs, page, size) == jobs[w.from..w.to]
  {
    if page >= 0 && size >= 0 {
      PageSliceIsWindow(jobs, page, size);
    }
  }

  lemma ListSize(store: Store, order: seq<String>)
    ensures IsScanOrder(store, order) ==> |Identified(store, order)| == |store|
  {
    if IsScanOrder(store, order) {
      ScanSize(store, order);
    }
  }

  /** `GET /jobs`: the page `slice(page * size, page * size + size)` of the
      stored jobs in scan order; `total` counts them all. */
  function List(store: Store, order: seq<String>, pageParam: Option<String>, sizeParam: Option<String>): (r: Response)
    ensures r.status == StatusOk && r.body.PagedJobs?
    ensures r.body.total == |Identified(store, order)|
    ensures IsScanOrder(store, order) ==> r.body.total == |store|
    ensures r.body.page == QueryInt(pageParam, 0) && r.body.size == QueryInt(sizeParam, 10)
    ensures r.body.jobs == PageSlice(Identified(store, order), r.body.page, r.body.size)
    ensures r.body.page >= 0 && r.body.size >= 0 ==>
              var all := Identified(store, order);
              var w := ClampedWindow(r.body.page, r.body.size, |all|);
              r.body.jobs == all[w.from..w.to]
  {
    ListSize(store, order);
    Paginate(Identified(store, order), pageParam, sizeParam)
  }

  /** `GET /jobs/search`: the same page of the jobs meeting every filter;
      `total` counts the filtered list and does not depend on the page. */
  function Search(store: Store, order: seq<String>, keyword: String, location: String, jobType: String,
                  pageParam: Option<String>, sizeParam: Option<String>): (r: Response)
    ensures r.status == StatusOk && r.body.PagedJobs?
    ensures r.body.total == |FilterJobs(Identified(store, order), keyword, location, jobType)|
    ensures forall i | 0 <= i < |r.body.jobs| :: Matches(r.body.jobs[i], keyword, location, jobType)
    ensures r.body.page >= 0 && r.body.size >= 0 ==> |r.body.jobs| <= r.body.size
    ensures r.body.page == QueryInt(pageParam, 0) && r.body.size == QueryInt(sizeParam, 10)
    ensures r.body.jobs == PageSlice(Filter(Identified(store, order), j => Matches(j, keyword, location, jobType)),
                                     r.body.page, r.body.size)
    ensures r.body.page >= 0 && r.body.size >= 0 ==>
              var found := Filter(Identified(store, order), j => Matches(j, keyword, location, jobType));
              var w := ClampedWindow(r.body.page, r.body.size, |found|);
              r.body.jobs == found[w.from..w.to]
  {
    var found := FilterJobs(Identified(store, order), keyword, location, jobType);
    var r := Paginate(found, pageParam, sizeParam);
    SliceMatches(found, r.body.page, r.body.size, keyword, location, jobType);
    r
  }

  lemma SliceMatches(found: seq<Job>, page: int, size: int, keyword: String, location: String, jobType: String)
    requires forall i | 0 <= i < |found| :: Matches(found[i], keyword, location, jobType)
    ensures forall i | 0 <= i < |PageSlice(found, page, size)| ::
              Matches(PageSlice(found, page, size)[i], keyword, location, jobType)
  {
    var s := PageSlice(found, page, size);
    var from := RelativeIndex(page * size, |found|);
    forall i | 0 <= i < |s| ensures Matches(s[i], keyword, location, jobType) {
      assert s[i] == found[from + i];
    }
  }

  /** `POST /jobs`: stores the body under a fresh id and answers 201 with
      `{ id, ...body }`. The id comes from the store and is a parameter. */
  function Create(store: Store, body: Job, docId: String): (r: Exchange)
    ensures r.response == Response(StatusCreated, OneJob(WithId(docId, body)))
    ensures r.store == store[docId := body]
    ensures body.id.None? ==> r.response.body.job.id == Some(docId)
    ensures r.response.body.job.(id := body.id) == body
  {
    Exchange(Response(StatusCreated, OneJob(WithId(docId, body))), store[docId := body])
  }

  /** `GET /jobs/:id`: 404 exactly when no document exists, otherwise the
      document with its id. */
  function Get(store: Store, id: String): (r: Response)
    ensures r.status == StatusNotFound <==> id !in store
    ensures id in store ==> r == Response(StatusOk, OneJob(WithId(id, store[id])))
  {
    if id !in store then Response(StatusNotFound, Failure("Job not found"))
    else Response(StatusOk, OneJob(WithId(id, store[id])))
  }

  /** `PUT /jobs/:id`: merges the body into the document (creating it if
      absent) and echoes `{ id, ...body }`. */
  function Put(store: Store, id: String, body: Job): (r: Exchange)
    ensures r.response == Response(StatusOk, OneJob(WithId(id, body)))
    ensures r.store == MergeAt(store, id, body)
    ensures id in store && body.salary.None? ==> r.store[id].salary == store[id].salary
  {
    Exchange(Response(StatusOk, OneJob(WithId(id, body))), MergeAt(store, id, body))
  }

  /** `DELETE /jobs/:id`: removes the document if present and reports
      success either way. */
  function Delete(store: Store, id: String): (r: Exchange)
    ensures r.response == Response(StatusOk, Message("Job deleted"))
    ensures r.store.Keys == store.Keys - {id}
    ensures forall k | k in r.store :: r.store[k] == store[k]
  {
    Exchange(Response(StatusOk, Message("Job deleted")), store - {id})
  }

  /** `POST /jobs/:id/apply`: 400 without a user id, 404 for a missing job,
      otherwise `arrayUnion` adds the user to the applicants. */
  function Apply(store: Store, id: String, userId: Option<String>): (r: Exchange)
    ensures !Truthy(userId) ==> r == Exchange(Response(StatusBadRequest, Failure("Missing userId")), store)
    ensures Truthy(userId) && id !in store ==> r == Exchange(Response(StatusNotFound, Failure("Job not found")), store)
    ensures Truthy(userId) && id in store ==>
              && r.response == Response(StatusOk, Message("Application successful"))
              && r.store.Keys == store.Keys
              && r.store[id].applicants.Some?
              && userId.value in r.store[id].applicants.value
              && store[id].applicants.GetOr([]) <= r.store[id].applicants.value
              && |r.store[id].applicants.value| <= |store[id].applicants.GetOr([])| + 1
              && (userId.value in store[id].applicants.GetOr([]) ==>
                    r.store[id].applicants.value == store[id].applicants.GetOr([]))
              && r.store[id] == store[id].(applicants := r.store[id].applicants)
              && (userId.value !in store[id].applicants.GetOr([]) ==>
                    multiset(r.store[id].applicants.value)[userId.value] == 1)
              && (forall k | k in store && k != id :: r.store[k] == store[k])
  {
    if !Truthy(userId) then Exchange(Response(StatusBadRequest, Failure("Missing userId")), store)
    else if id !in store then Exchange(Response(StatusNotFound, Failure("Job not found")), store)
    else
      var job := store[id];
      var applicants := ArrayUnion(job.applicants.GetOr([]), userId.value);
      Exchange(Response(StatusOk, Message("Application successful")),
               store[id := job.(applicants := Some(applicants))])
  }

  /** Applying twice is applying once. */
  lemma ApplyIdempotent(store: Store, id: String, userId: Option<String>)
    ensures Apply(Apply(store, id, userId).store, id, userId) == Apply(store, id, userId)
  {
    if Truthy(userId) && id in store {
      ArrayUnionIdempotent(store[id].applicants.GetOr([]), userId.value);
    }
  }
}

=== FILE: node_backend.dfy ===
/** The standalone Express server (backend-nodejs/index.js): create, list
    everything unpaginated, get, merge-put and delete, with the same handler
    bodies as the Cloud Functions app. It has no search route. */
module NodeBackend {
  import opened Options
  import opened Text
  import opened Jobs
  import opened Http
  import opened Express
  import JsCrud

  datatype Handler = CreateJob | ListJobs | GetJob | PutJob | DeleteJob

  /** The routes in registration order. */
  const Routes: seq<Route<Handler>> := [
    Route("POST", [Lit("jobs")], CreateJob),
    Route("GET", [Lit("jobs")], ListJobs),
    Route("GET", [Lit("jobs"), Param], GetJob),
    Route("PUT", [Lit("jobs"), Param], PutJob),
    Route("DELETE", [Lit("jobs"), Param], DeleteJob)
  ]

  /** `GET /jobs`: every document with its id, as a bare array. */
  function ListAll(store: Store, order: seq<String>): (r: Response)
    ensures r.status == StatusOk && r.body.AllJobs?
    ensures IsScanOrder(store, order) ==> |r.body.jobs| == |store|
    ensures forall i | 0 <= i < |order| && order[i] in store :: WithId(order[i], store[order[i]]) in r.body.jobs
  {
    JsCrud.ListSize(store, order);
    Response(StatusOk, AllJobs(Identified(store, order)))
  }

  /** One handler's effect; the list and get handlers only read. */
  function Run(h: Handler, store: Store, order: seq<String>, req: Request, docId: String): (r: Exchange)
    ensures h == ListJobs || h == GetJob ==> r.store == store
  {
    var id := if |req.path| > 1 then req.path[1] else "";
    match h
    case CreateJob => JsCrud.Create(store, req.body, docId)
    case ListJobs => Exchange(ListAll(store, order), store)
    case GetJob => Exchange(JsCrud.Get(store, id), store)
    case PutJob => JsCrud.Put(store, id, req.body)
    case DeleteJob => JsCrud.Delete(store, id)
  }

  /** The first matching route runs. An OPTIONS request, which no route
      handles, gets Express's automatic 200 listing the methods its path
      allows; with no route for the path at all, Express answers 404. Reads
      leave the store alone. */
  function Handle(store: Store, order: seq<String>, req: Request, docId: String): (r: Exchange)
    ensures req.verb in {"GET", "OPTIONS"} ==> r.store == store
    ensures req.verb != "OPTIONS" && FirstMatch(Routes, req.verb, req.path).None? ==>
              r == Exchange(Response(StatusNotFound, NoBody), store)
    ensures req.verb !in {"GET", "POST", "PUT", "DELETE", "OPTIONS"} ==>
              r == Exchange(Response(StatusNotFound, NoBody), store)
    ensures req.verb == "OPTIONS" ==>
              (r.response.status == StatusOk <==> AllowedVerbs(Routes, req.path) != {})
              && (r.response.status == StatusOk ==> r.response.body == Allow(AllowedVerbs(Routes, req.path)))
              && (r.response.status != StatusOk ==> r.response == Response(StatusNotFound, NoBody))
  {
    RouteVerbs(req);
    match Dispatch(Routes, req.verb, req.path)
    case Handled(i) => Run(Routes[i].handler, store, order, req, docId)
    case AllowList(vs) => Exchange(Response(StatusOk, Allow(vs)), store)
    case Unrouted => Exchange(Response(StatusNotFound, NoBody), store)
  }

  /** What OPTIONS answers on each path: `/jobs` allows the list and create
      routes, `/jobs/<id>` the get, put and delete routes (HEAD with GET),
      and any other path is 404. */
  lemma OptionsAnswers(store: Store, order: seq<String>, path: seq<String>, docId: String)
    ensures var r := Handle(store, order, Request("OPTIONS", path, NoQuery, NoFields, None), docId);
      && r.store == store
      && (path == ["jobs"] ==> r.response == Response(StatusOk, Allow({"GET", "HEAD", "POST"})))
      && (IdPath(path) ==> r.response == Response(StatusOk, Allow({"GET", "HEAD", "PUT", "DELETE"})))
      && (path != ["jobs"] && !IdPath(path) ==> r.response == Response(StatusNotFound, NoBody))
  {
    AllowedOnPath(path);
  }

  /** The methods each path shape allows. */
  function PathAllows(path: seq<String>): set<String> {
    if path == ["jobs"] then {"GET", "HEAD", "POST"}
    else if IdPath(path) then {"GET", "HEAD", "PUT", "DELETE"}
    else {}
  }

  /** Unfolds `PathVerbs` over the table from the last route back. */
  lemma AllowedOnPath(path: seq<String>)
    ensures AllowedVerbs(Routes, path) == PathAllows(path)
  {
    PatternShapes("jobs", "jobs", path);
    var list := PathMatches([Lit("jobs")], path);
    var item := PathMatches([Lit("jobs"), Param], path);
    assert list <==> path == ["jobs"];
    assert item <==> IdPath(path);
    var items: set<String> := if item then {"GET", "PUT", "DELETE"} else {};
    assert PathVerbs(Routes[5..], path) == {};
    assert PathVerbs(Routes[4..], path) == if item then {"DELETE"} else {};
    assert PathVerbs(Routes[3..], path) == if item then {"PUT", "DELETE"} else {};
    assert PathVerbs(Routes[2..], path) == items;
    assert PathVerbs(Routes[1..], path) == (if list then {"GET"} else {}) + items;
    assert PathVerbs(Routes, path) == (if list then {"POST", "GET"} else {}) + items;
  }

  lemma RouteVerbs(req: Request)
    ensures var m := FirstMatch(Routes, req.verb, req.path);
      && (m.Some? ==> req.verb in {"GET", "POST", "PUT", "DELETE"})
      && (req.verb == "GET" && m.Some? ==> m.value in {1, 2})
  {
    RoutingIsRouted(req.verb, req.path);
  }

  /** `/jobs/<id>` with a non-empty id. */
  predicate IdPath(path: seq<String>) {
    |path| == 2 && path[0] == "jobs" && |path[1]| > 0
  }

  /** What each request does, route by route: the handler that runs for each
      method and path shape. `GET /jobs/search` is an ordinary lookup of the
      id `search`, and a POST anywhere but `/jobs` is 404. */
  lemma HandleDispatch(store: Store, order: seq<String>, req: Request, docId: String)
    ensures var r := Handle(store, order, req, docId);
      && (req.verb == "POST" && req.path == ["jobs"] ==> r == Run(CreateJob, store, order, req, docId))
      && (req.verb == "GET" && req.path == ["jobs"] ==> r == Run(ListJobs, store, order, req, docId))
      && (req.verb == "GET" && IdPath(req.path) ==> r == Run(GetJob, store, order, req, docId))
      && (req.verb == "PUT" && IdPath(req.path) ==> r == Run(PutJob, store, order, req, docId))
      && (req.verb == "DELETE" && IdPath(req.path) ==> r == Run(DeleteJob, store, order, req, docId))
      && (req.verb == "POST" && |req.path| != 1 ==> r == Exchange(Response(StatusNotFound, NoBody), store))
  {
    RoutingIsRouted(req.verb, req.path);
    match Routed(req.verb, req.path)
    case None =>
    case Some(i) =>
      if i < |Routes| {
        Runs(store, order, req, docId, i, Routes[i].handler);
      }
  }

  /** A request routed to the route at `i` runs that route's handler. */
  lemma Runs(store: Store, order: seq<String>, req: Request, docId: String, i: nat, h: Handler)
    requires Routed(req.verb, req.path) == Some(i) && i < |Routes| && Routes[i].handler == h
    ensures Handle(store, order, req, docId) == Run(h, store, order, req, docId)
  {
    RoutingIsRouted(req.verb, req.path);
  }

  /** The routing decision, written as a plain case analysis on the
      request's method and path shape. */
  function Routed(verb: String, path: seq<String>): Option<nat> {
    if verb == "POST" && path == ["jobs"] then Some(0)
    else if verb == "GET" && path == ["jobs"] then Some(1)
    else if verb == "GET" && IdPath(path) then Some(2)
    else if verb == "PUT" && IdPath(path) then Some(3)
    else if verb == "DELETE" && IdPath(path) then Some(4)
    else None
  }

  /** First-match routing over the table is exactly that case analysis. */
  lemma RoutingIsRouted(verb: String, path: seq<String>)
    ensures FirstMatch(Routes, verb, path) == Routed(verb, path)
  {
    RouteTable(verb, path);
    match Routed(verb, path)
    case Some(i) => FirstMatchIs(Routes, i, verb, path);
    case None => assert forall j | 0 <= j < |Routes| :: !RouteMatches(Routes[j], verb, path);
  }

  /** What each route of the table matches. */
  lemma RouteTable(verb: String, p: seq<String>)
    ensures RouteMatches(Routes[0], verb, p) <==> verb == "POST" && p == ["jobs"]
    ensures RouteMatches(Routes[1], verb, p) <==> verb == "GET" && p == ["jobs"]
    ensures RouteMatches(Routes[2], verb, p) <==> verb == "GET" && IdPath(p)
    ensures RouteMatches(Routes[3], verb, p) <==> verb == "PUT" && IdPath(p)
    ensures RouteMatches(Routes[4], verb, p) <==> verb == "DELETE" && IdPath(p)
  {
    PatternShapes("jobs", "jobs", p);
  }
}

=== FILE: options.dfy ===
/** Optional values: a JSON field that may be absent, a Java reference that
    may be null, a query parameter that may be missing. */
module Options {

  datatype Option<+T> = None | Some(value: T) {

    /** The value if present, otherwise `default` (the `x ?? default` idiom). */
    function GetOr(default: T): T {
      match this
      case Some(v) => v
      case None => default
    }
  }

  /** JavaScript truthiness of an optional string: present and non-empty.
      `undefined`, `null` and `''` are all falsy. */
  predicate Truthy(s: Option<seq<char>>) {
    s.Some? && |s.value| > 0
  }

  /** `s || default` on an optional string. */
  function OrElse(s: Option<seq<char>>, default: seq<char>): (r: seq<char>)
    ensures Truthy(s) ==> r == s.value
    ensures !Truthy(s) ==> r == default
  {
    if Truthy(s) then s.value else default
  }
}

=== FILE: page_controls.dfy ===
/** The Previous/Next controls (frontend/src/components/Pagination.tsx, and
    the same buttons written out in JobList.tsx): when each is enabled and
    which page a click asks for. Pages count from 0. */
module PageControls {
  import opened Paging

  datatype Button = Previous | Next

  /** `disabled={page === 0}`. */
  predicate PreviousEnabled(page: int) {
    page != 0
  }

  /** `disabled={page + 1 >= totalPages}`. */
  predicate NextEnabled(page: int, totalPages: int) {
    page + 1 < totalPages
  }

  predicate Enabled(b: Button, page: int, totalPages: int) {
    match b
    case Previous => PreviousEnabled(page)
    case Next => NextEnabled(page, totalPages)
  }

  /** The page a click requests: `page - 1` or `page + 1`. A click on a
      disabled button does nothing and keeps the page. */
  function Click(b: Button, page: int, totalPages: int): (next: int)
    ensures !Enabled(b, page, totalPages) ==> next == page
    ensures Enabled(b, page, totalPages) && b == Previous ==> next == page - 1
    ensures Enabled(b, page, totalPages) && b == Next ==> next == page + 1
    ensures 0 <= page < totalPages ==> 0 <= next < totalPages
  {
    if !Enabled(b, page, totalPages) then page
    else match b
      case Previous => page - 1
      case Next => page + 1
  }

  /** A run of clicks, oldest first. */
  function Clicks(page: int, totalPages: int, bs: seq<Button>): int
    decreases |bs|
  {
    if |bs| == 0 then page else Clicks(Click(bs[0], page, totalPages), totalPages, bs[1..])
  }

  /** The page lies between 0 and the last page (0 when there are none). */
  predicate InRange(page: int, totalPages: int) {
    0 <= page <= Max(totalPages - 1, 0)
  }

  /** Starting on the first page and clicking only the buttons the controls
      let through, the page never leaves the range of existing pages. */
  lemma {:induction false} ClicksStayInRange(page: int, totalPages: int, bs: seq<Button>)
    requires InRange(page, totalPages)
    ensures InRange(Clicks(page, totalPages, bs), totalPages)
    decreases |bs|
  {
    if |bs| > 0 {
      var next := Click(bs[0], page, totalPages);
      assert InRange(next, totalPages);
      ClicksStayInRange(next, totalPages, bs[1..]);
    }
  }

  /** From the first page every page of the list can be reached with Next
      clicks alone. */
  lemma {:induction false} NextReachesEveryPage(totalPages: int, k: nat)
    requires k < totalPages
    ensures Clicks(0, totalPages, seq(k, _ => Next)) == k
    decreases k
  {
    if k > 0 {
      NextReachesEveryPage(totalPages, k - 1);
      NextThenPrefix(0, totalPages, k - 1);
    }
  }

  /** `k` Next clicks from `page`, while the last page is not reached, end
      on `page + k`. */
  lemma {:induction false} NextThenPrefix(page: nat, totalPages: int, k: nat)
    requires page + k + 1 < totalPages
    ensures Clicks(page, totalPages, seq(k + 1, _ => Next)) == Clicks(page, totalPages, seq(k, _ => Next)) + 1
    decreases k
  {
    var more := seq(k + 1, _ => Next);
    assert more[1..] == seq(k, _ => Next);
    if k > 0 {
      NextThenPrefix(page + 1, totalPages, k - 1);
      assert seq(k, _ => Next)[1..] == seq(k - 1, _ => Next);
    }
  }

  /** An empty list shows no pages: Next is disabled on every page from -1
      up (a page the controls never reach lies below), the only page in
      range is the first, and there Previous is disabled too. */
  lemma EmptyList(page: int)
    ensures PageCount(0, 10) == 0
    ensures !NextEnabled(page, PageCount(0, 10)) <==> page >= -1
    ensures InRange(page, PageCount(0, 10)) <==> page == 0
    ensures page == 0 ==> !PreviousEnabled(page)
  {
  }
}

=== FILE: paging.dfy ===
/** Pagination arithmetic: the Spring controller's clamped window, the
    JavaScript handlers' `Array.prototype.slice`, and the page count the
    list view shows. */
module Paging {

  function Min(a: int, b: int): int { if a <= b then a else b }
  function Max(a: int, b: int): int { if a <= b then b else a }

  /** `Math.min(page * size, total)` and `Math.min(from + size, total)`,
      in unbounded integers. */
  datatype Window = Window(from: int, to: int)

  function ClampedWindow(page: int, size: int, total: nat): (w: Window)
    ensures page >= 0 && size >= 0 ==> 0 <= w.from <= w.to <= total
    ensures page >= 0 && size >= 0 ==> w.to - w.from <= size
    ensures page >= 0 && size >= 0 && page * size >= total ==> w.from == w.to == total
    ensures page >= 0 && size >= 0 && page * size + size <= total ==>
              w.from == page * size && w.to == page * size + size
  {
    var from := Min(page * size, total);
    Window(from, Min(from + size, total))
  }

  /** Consecutive pages of the same size meet: the end of page `p` is the
      start of page `p + 1`. */
  lemma ClampedPagesTile(page: nat, size: nat, total: nat)
    ensures ClampedWindow(page, size, total).to == ClampedWindow(page + 1, size, total).from
  {
    assert (page + 1) * size == page * size + size;
  }

  /** The index `slice` derives from one argument: negative counts back from
      the end, and the result is clamped to `[0, len]`. */
  function RelativeIndex(i: int, len: nat): (r: nat)
    ensures r <= len
    ensures 0 <= i ==> r == Min(i, len)
  {
    if i < 0 then Max(len + i, 0) else Min(i, len)
  }

  /** `xs.slice(start, end)`. */
  function Slice<T>(xs: seq<T>, start: int, end: int): (r: seq<T>)
    ensures |r| <= |xs|
    ensures 0 <= start <= end ==> |r| <= end - start
    ensures 0 <= start <= end ==> r == xs[Min(start, |xs|)..Min(end, |xs|)]
  {
    var from := RelativeIndex(start, |xs|);
    var to := RelativeIndex(end, |xs|);
    if from < to then xs[from..to] else []
  }

  /** `xs.slice(page * size, page * size + size)`. */
  function PageSlice<T>(xs: seq<T>, page: int, size: int): (r: seq<T>)
    ensures page >= 0 && size >= 0 ==> |r| <= size
    ensures page >= 0 && size >= 0 && page * size >= |xs| ==> r == []
  {
    Slice(xs, page * size, page * size + size)
  }

  /** For non-negative arguments the slice is exactly the clamped window. */
  lemma PageSliceIsWindow<T>(xs: seq<T>, page: nat, size: nat)
    ensures var w := ClampedWindow(page, size, |xs|);
            PageSlice(xs, page, size) == xs[w.from..w.to]
  {
  }

  /** Consecutive slices of one size, concatenated, give the prefix they
      cover: paging never skips or repeats an element. */
  lemma {:induction false} PageSlicesTile<T>(xs: seq<T>, pages: nat, size: nat)
    ensures PagesUpTo(xs, pages, size) == xs[..Min(pages * size, |xs|)]
  {
    if pages > 0 {
      PageSlicesTile(xs, pages - 1, size);
      var a, b := Min((pages - 1) * size, |xs|), Min(pages * size, |xs|);
      NextPage(xs, pages, size);
      PrefixJoin(xs, a, b);
    } else {
      assert pages * size == 0;
    }
  }

  /** One more page appends the next clamped window. */
  lemma NextPage<T>(xs: seq<T>, pages: nat, size: nat)
    requires pages > 0
    ensures 0 <= Min((pages - 1) * size, |xs|) <= Min(pages * size, |xs|)
    ensures PagesUpTo(xs, pages, size)
            == PagesUpTo(xs, pages - 1, size) + xs[Min((pages - 1) * size, |xs|)..Min(pages * size, |xs|)]
  {
    MulPred(pages, size);
    SliceAt(xs, pages - 1, size, (pages - 1) * size);
  }

  lemma PrefixJoin<T>(xs: seq<T>, a: nat, b: nat)
    requires a <= b <= |xs|
    ensures xs[..a] + xs[a..b] == xs[..b]
  {
  }

  lemma MulPred(pages: nat, size: nat)
    requires pages > 0
    ensures pages * size == (pages - 1) * size + size
  {
  }

  /** Page `p` is the window starting at `m = p * size`, clamped. */
  lemma SliceAt<T>(xs: seq<T>, p: nat, size: nat, m: nat)
    requires m == p * size
    ensures PageSlice(xs, p, size) == xs[Min(m, |xs|)..Min(m + size, |xs|)]
  {
  }

  /** Pages `0 .. pages - 1` concatenated. */
  function PagesUpTo<T>(xs: seq<T>, pages: nat, size: nat): seq<T> {
    if pages == 0 then [] else PagesUpTo(xs, pages - 1, size) + PageSlice(xs, pages - 1, size)
  }

  /** With a negative size the end index counts back from the end of the
      list, so page 0 returns everything except the last `-size` items. */
  lemma NegativeSizeDropsTail<T>(xs: seq<T>, size: int)
    requires size < 0 && -size <= |xs|
    ensures PageSlice(xs, 0, size) == xs[..|xs| + size]
  {
  }

  /** `Math.ceil(total / size)` for a positive page size. */
  function PageCount(total: nat, size: nat): (n: nat)
    requires size > 0
    ensures n * size >= total
    ensures total > 0 ==> (n - 1) * size < total
    ensures total == 0 <==> n == 0
  {
    (total + size - 1) / size
  }
}

=== FILE: recommendations.dfy ===
/** Job recommendations (frontend/src/components/JobRecommendations.tsx): the
    ordinal experience match, the city/state location match, the exclusion
    of saved and applied jobs followed by a stable descending sort on the
    score, the cap of ten, and the one-line reason shown on each card.

    The weighted score mixes floating-point ratios with the time since
    posting; it is a parameter `score` here. */
module Recommendations {
  import opened Options
  import opened Seqs
  import opened Text
  import opened Jobs

  /** The seeker's profile, with the loader's `|| []` and `|| ''` defaults
      already applied. */
  datatype Profile = Profile(skills: seq<String>, experience: String, location: String,
                             preferredJobTypes: seq<String>, savedJobs: seq<String>,
                             appliedJobs: seq<String>)

  /** `experienceLevels[name] || 1`: the four lower-case names, and the
      entry level for any other name (including `MID` or `SENIOR`). Names of
      properties every JavaScript object inherits are not covered. */
  function Level(name: String): (n: int)
    ensures 1 <= n <= 4
    ensures n == 1 <==> name != "mid" && name != "senior" && name != "executive"
    ensures n == 2 <==> name == "mid"
    ensures n == 3 <==> name == "senior"
    ensures n == 4 <==> name == "executive"
    ensures name == "entry" ==> n == 1
  {
    if name == "mid" then 2
    else if name == "senior" then 3
    else if name == "executive" then 4
    else 1
  }

  /** `getExperienceMatch`: 1 for the same level, 0.8 one level above the
      job, 0.3 below it, 0.5 two or more above. */
  function ExperienceMatch(user: String, job: String): (m: real)
    ensures m in {1.0, 0.8, 0.5, 0.3}
    ensures m == 1.0 <==> Level(user) == Level(job)
    ensures m == 0.8 <==> Level(user) == Level(job) + 1
    ensures m == 0.3 <==> Level(user) < Level(job)
    ensures m == 0.5 <==> Level(user) >= Level(job) + 2
  {
    var u := Level(user);
    var j := Level(job);
    if u == j then 1.0
    else if u == j + 1 then 0.8
    else if u < j then 0.3
    else 0.5
  }

  /** The match depends on the names only through their levels: names of
      the same level can stand in for each other on either side. */
  lemma ExperienceByLevel(a: String, b: String, other: String)
    ensures Level(a) == Level(b) ==> ExperienceMatch(a, other) == ExperienceMatch(b, other)
    ensures Level(a) == Level(b) ==> ExperienceMatch(other, a) == ExperienceMatch(other, b)
    ensures Level(a) != Level(b) ==> ExperienceMatch(a, a) != ExperienceMatch(b, a)
  {
  }

  /** Level names are case-sensitive: upper-case names all count as entry
      level, so they match each other perfectly and `mid` only partly. */
  lemma ExperienceCaseSensitive()
    ensures ExperienceMatch("MID", "SENIOR") == 1.0
    ensures ExperienceMatch("mid", "MID") == 0.8
    ensures ExperienceMatch("entry", "executive") == 0.3
    ensures ExperienceMatch("executive", "mid") == 0.5
  {
  }

  /** `loc.toLowerCase().split(',')`; never empty. */
  function Parts(loc: String): (parts: seq<String>)
    ensures |parts| >= 1
  {
    Split(Lower(loc), ',')
  }

  /** `loc.toLowerCase().split(',')[0].trim()`. */
  function City(loc: String): String {
    Trim(Parts(loc)[0])
  }

  /** `loc.toLowerCase().split(',').pop()?.trim()`; `split` never returns
      an empty array, so this is always defined. */
  function State(loc: String): String {
    Trim(LastPart(Parts(loc)))
  }

  function LastPart(parts: seq<String>): String
    requires |parts| >= 1
  {
    parts[|parts| - 1]
  }

  /** `getLocationMatch`: the same city 1, a remote job 0.9, the same
      non-empty last segment 0.7, otherwise 0.2. */
  function LocationMatch(user: String, job: String): (m: real)
    ensures m in {1.0, 0.9, 0.7, 0.2}
    ensures m == 1.0 <==> City(user) == City(job)
    ensures m == 0.9 <==> City(user) != City(job) && Contains(Lower(job), "remote")
    ensures m == 0.7 ==> |State(user)| > 0 && State(user) == State(job)
  {
    if City(user) == City(job) then 1.0
    else if Contains(Lower(job), "remote") then 0.9
    else if |State(user)| > 0 && |State(job)| > 0 && State(user) == State(job) then 0.7
    else 0.2
  }

  /** Lower-casing first changes neither the city nor the state. */
  lemma CaselessParts(s: String)
    ensures Lower(Lower(s)) == Lower(s)
    ensures City(Lower(s)) == City(s)
    ensures State(Lower(s)) == State(s)
  {
    LowerIdempotent(s);
    SameLowerSameParts(Lower(s), s);
  }

  lemma SameLowerSameParts(a: String, b: String)
    requires Lower(a) == Lower(b)
    ensures City(a) == City(b) && State(a) == State(b)
  {
    assert Parts(a) == Parts(b);
  }

  /** The match ignores letter case, and a location matches itself. */
  lemma LocationMatchCaseless(user: String, job: String)
    ensures LocationMatch(Lower(user), Lower(job)) == LocationMatch(user, job)
    ensures LocationMatch(user, user) == 1.0
  {
    CaselessParts(user);
    CaselessParts(job);
  }

  /** City and state of `c,tx` for a one-letter lower-case city `c`. */
  lemma CityStateParts(c: char)
    requires 'a' <= c <= 'z'
    ensures City([c, ',', 't', 'x']) == [c] && State([c, ',', 't', 'x']) == "tx"
  {
    var s := [c, ',', 't', 'x'];
    LowerNoUpper(s);
    SplitCityState(c);
    TrimTrimmed([c]);
    TrimTrimmed("tx");
    CityStateOf(s, [c], "tx");
  }

  /** A lower-case `city,state` with nothing to trim. */
  lemma CityStateOf(s: String, city: String, state: String)
    ensures Lower(s) == s && Split(s, ',') == [city, state] && Trim(city) == city && Trim(state) == state
            ==> City(s) == city && State(s) == state
  {
    if Lower(s) == s && Split(s, ',') == [city, state] {
      assert Parts(s) == [city, state];
    }
  }

  lemma SplitCityState(c: char)
    requires c != ','
    ensures Split([c, ',', 't', 'x'], ',') == [[c], "tx"]
  {
    SplitNoSeparator("tx", ',');
    SplitWithSeparator([c], ',', "tx");
    assert [c] + [','] + "tx" == [c, ',', 't', 'x'];
  }

  /** A string without upper-case letters is its own lower case. */
  lemma LowerNoUpper(s: String)
    requires forall i | 0 <= i < |s| :: !IsUpper(s[i])
    ensures Lower(s) == s
  {
  }

  /** Two places in the same state, written in lower case. */
  lemma SameStateExample()
    ensures LocationMatch("a,tx", "b,tx") == 0.7
  {
    var u: String, j: String := ['a', ',', 't', 'x'], ['b', ',', 't', 'x'];
    CityStateParts('a');
    CityStateParts('b');
    NotRemote(j);
    SameStateMatch(u, j);
  }

  lemma NotRemote(s: String)
    requires |s| < |"remote"|
    ensures !Contains(Lower(s), "remote")
  {
  }

  lemma SameStateMatch(user: String, job: String)
    ensures City(user) != City(job) && !Contains(Lower(job), "remote")
            && |State(user)| > 0 && State(user) == State(job)
            ==> LocationMatch(user, job) == 0.7
  {
  }

  /** A remote job in another city. */
  lemma RemoteExample()
    ensures LocationMatch("a", "remote") == 0.9
  {
    PlainCity("a");
    PlainCity("remote");
    RemoteMatch("a", "remote");
  }

  lemma RemoteMatch(user: String, job: String)
    requires City(user) != City(job) && Lower(job) == job && Contains(job, "remote")
    ensures LocationMatch(user, job) == 0.9
  {
  }

  /** A lower-case word without separators or spaces is its own city. */
  lemma PlainCity(s: String)
    requires forall i | 0 <= i < |s| :: 'a' <= s[i] <= 'z'
    ensures City(s) == s && Lower(s) == s && Contains(s, s)
  {
    LowerNoUpper(s);
    SplitNoSeparator(s, ',');
    TrimTrimmed(s);
    ContainsSelf(s);
  }

  /** The job's id is in the saved or the applied list. */
  predicate Excluded(p: Profile, j: Job) {
    j.id.Some? && (j.id.value in p.savedJobs || j.id.value in p.appliedJobs)
  }

  /** Non-increasing in the score. */
  predicate SortedDesc(s: seq<Job>, score: Job -> real) {
    forall i, j | 0 <= i < j < |s| :: score(s[i]) >= score(s[j])
  }

  /** Every element of `s` scores at most `bound`. */
  predicate AllAtMost(s: seq<Job>, score: Job -> real, bound: real) {
    forall k | 0 <= k < |s| :: score(s[k]) <= bound
  }

  lemma AllAtMostMultiset(s: seq<Job>, t: seq<Job>, score: Job -> real, bound: real)
    requires multiset(s) <= multiset(t) && AllAtMost(t, score, bound)
    ensures AllAtMost(s, score, bound)
  {
    forall k | 0 <= k < |s| ensures score(s[k]) <= bound {
      assert s[k] in multiset(s);
      assert s[k] in multiset(t);
      var m :| 0 <= m < |t| && t[m] == s[k];
    }
  }

  /** Places `x` before the first element that scores no more than it, so
      that `x` stays ahead of later equal-scoring jobs. */
  function Insert(x: Job, s: seq<Job>, score: Job -> real): (r: seq<Job>)
    requires SortedDesc(s, score)
    ensures SortedDesc(r, score)
    ensures multiset(r) == multiset(s) + multiset{x}
  {
    if |s| == 0 || score(x) >= score(s[0]) then [x] + s
    else
      var rest := Insert(x, s[1..], score);
      InsertBehind(x, s, rest, score);
      [s[0]] + rest
  }

  /** Inserting behind the head keeps the order when the head outscores `x`. */
  lemma InsertBehind(x: Job, s: seq<Job>, rest: seq<Job>, score: Job -> real)
    requires SortedDesc(s, score) && |s| > 0 && score(x) < score(s[0])
    requires SortedDesc(rest, score) && multiset(rest) == multiset(s[1..]) + multiset{x}
    ensures SortedDesc([s[0]] + rest, score)
    ensures multiset([s[0]] + rest) == multiset(s) + multiset{x}
  {
    assert AllAtMost(s[1..] + [x], score, score(s[0]));
    assert multiset(rest) == multiset(s[1..] + [x]);
    AllAtMostMultiset(rest, s[1..] + [x], score, score(s[0]));
    assert s == [s[0]] + s[1..];
  }

  /** `sort((a, b) => b.score - a.score)`: a stable sort, best first. */
  function SortByScore(xs: seq<Job>, score: Job -> real): (r: seq<Job>)
    ensures SortedDesc(r, score)
    ensures multiset(r) == multiset(xs)
  {
    if |xs| == 0 then []
    else
      assert xs == [xs[0]] + xs[1..];
      Insert(xs[0], SortByScore(xs[1..], score), score)
  }

  /** `calculateRecommendations`: without a profile the first ten jobs in
      their order; with one, every job not saved or applied to, best score
      first. */
  function Calculate(jobs: seq<Job>, profile: Option<Profile>, score: Job -> real): (r: seq<Job>)
    ensures profile.None? ==> r == jobs[..if |jobs| < 10 then |jobs| else 10]
    ensures profile.Some? ==> SortedDesc(r, score)
    ensures profile.Some? ==> multiset(r) == multiset(Filter(jobs, j => !Excluded(profile.value, j)))
    ensures profile.Some? ==> forall i | 0 <= i < |r| :: !Excluded(profile.value, r[i])
  {
    match profile
    case None => jobs[..if |jobs| < 10 then |jobs| else 10]
    case Some(p) =>
      var kept := Filter(jobs, j => !Excluded(p, j));
      var r := SortByScore(kept, score);
      forall i | 0 <= i < |r| ensures !Excluded(p, r[i]) {
        assert r[i] in multiset(kept);
      }
      r
  }

  /** `recommendations.slice(0, 10)`: at most ten cards, never a saved or
      applied job, best first, and each one a job that was offered. */
  function Displayed(jobs: seq<Job>, profile: Option<Profile>, score: Job -> real): (r: seq<Job>)
    ensures |r| <= 10
    ensures forall i | 0 <= i < |r| :: r[i] in jobs
    ensures profile.Some? ==> forall i | 0 <= i < |r| :: !Excluded(profile.value, r[i])
    ensures profile.Some? ==> SortedDesc(r, score)
    ensures profile.None? && |jobs| <= 10 ==> r == jobs
    ensures r <= Calculate(jobs, profile, score)
    ensures profile.Some? ==>
              var kept := Filter(jobs, j => !Excluded(profile.value, j));
              |r| == if |kept| < 10 then |kept| else 10
  {
    var all := Calculate(jobs, profile, score);
    CalculateOffered(jobs, profile, score);
    CalculateCount(jobs, profile, score);
    all[..if |all| < 10 then |all| else 10]
  }

  /** With a profile, every job that is not excluded is recommended once. */
  lemma CalculateCount(jobs: seq<Job>, profile: Option<Profile>, score: Job -> real)
    ensures profile.Some? ==> |Calculate(jobs, profile, score)| == |Filter(jobs, j => !Excluded(profile.value, j))|
  {
    if profile.Some? {
      var kept := Filter(jobs, j => !Excluded(profile.value, j));
      assert |multiset(Calculate(jobs, profile, score))| == |multiset(kept)|;
    }
  }

  /** Every recommendation is one of the jobs offered. */
  lemma CalculateOffered(jobs: seq<Job>, profile: Option<Profile>, score: Job -> real)
    ensures forall i | 0 <= i < |Calculate(jobs, profile, score)| :: Calculate(jobs, profile, score)[i] in jobs
  {
    var all := Calculate(jobs, profile, score);
    if profile.Some? {
      var kept := Filter(jobs, j => !Excluded(profile.value, j));
      forall i | 0 <= i < |all| ensures all[i] in jobs {
        assert all[i] in multiset(all);
        assert all[i] in multiset(kept);
      }
    }
  }

  /** `userSkill` contains `skill` or the other way round, ignoring case. */
  predicate SkillsOverlap(userSkill: String, skill: String) {
    ContainsIgnoringCase(userSkill, skill) || ContainsIgnoringCase(skill, userSkill)
  }

  /** A job skill some profile skill overlaps. */
  predicate SkillWanted(p: Profile, skill: String) {
    exists k | 0 <= k < |p.skills| :: SkillsOverlap(p.skills[k], skill)
  }

  /** The job's skills the profile asks for, in the job's order. */
  function MatchingSkills(p: Profile, j: Job): seq<String>
    requires j.skills.Some?
  {
    Filter(j.skills.value, s => SkillWanted(p, s))
  }

  /** `matchingSkills.slice(0, 2).join(', ')`. */
  function FirstTwo(skills: seq<String>): String
    requires |skills| > 0
  {
    if |skills| == 1 then skills[0] else skills[0] + ", " + skills[1]
  }

  const Default := "Recommended for you"
  const SameLevel := "Matches your experience level"
  const RemoteReason := "Remote work available"
  const NearReason := "Near your location"

  /** The reasons `getRecommendationReason` collects, in order. */
  function Reasons(p: Profile, j: Job): seq<String> {
    var skill :=
      if |p.skills| > 0 && j.skills.Some? && |MatchingSkills(p, j)| > 0
      then ["Matches your skills: " + FirstTwo(MatchingSkills(p, j))] else [];
    var level :=
      if |p.experience| > 0 && Truthy(j.experienceLevel) && p.experience == j.experienceLevel.value
      then [SameLevel] else [];
    var place :=
      if |p.location| > 0 && Truthy(j.location) then
        if Contains(Lower(j.location.value), "remote") then [RemoteReason]
        else if Contains(Lower(p.location), Parts(j.location.value)[0]) then [NearReason]
        else []
      else [];
    skill + level + place
  }

  /** `getRecommendationReason`: the first reason collected, or the
      default. */
  function Reason(profile: Option<Profile>, j: Job): (r: String)
    ensures profile.None? ==> r == Default
    ensures profile.Some? && Reasons(profile.value, j) == [] ==> r == Default
  {
    match profile
    case None => Default
    case Some(p) =>
      var reasons := Reasons(p, j);
      if |reasons| > 0 then reasons[0] else Default
  }

  /** The reason is the first rule that applies, tried in order: matching
      skills, the exact experience level (case-sensitive, unlike the
      score), remote work, then the first segment of the job's location
      found, untrimmed, inside the seeker's location. */
  lemma ReasonFirstApplicable(p: Profile, j: Job)
    ensures var r := Reason(Some(p), j);
      if |p.skills| > 0 && j.skills.Some? && |MatchingSkills(p, j)| > 0 then
        r == "Matches your skills: " + FirstTwo(MatchingSkills(p, j))
      else if |p.experience| > 0 && Truthy(j.experienceLevel) && p.experience == j.experienceLevel.value then
        r == SameLevel
      else if |p.location| > 0 && Truthy(j.location) && Contains(Lower(j.location.value), "remote") then
        r == RemoteReason
      else if |p.location| > 0 && Truthy(j.location) && Contains(Lower(p.location), Parts(j.location.value)[0]) then
        r == NearReason
      else r == Default
  {
  }

  /** A matching-skills reason names at most two skills, both from the job
      and both wanted by the seeker. */
  lemma SkillReasonNamesWantedSkills(p: Profile, j: Job)
    requires j.skills.Some? && |MatchingSkills(p, j)| > 0
    ensures var m := MatchingSkills(p, j);
            m[0] in j.skills.value && SkillWanted(p, m[0]) &&
            (|m| > 1 ==> m[1] in j.skills.value && SkillWanted(p, m[1]))
  {
  }
}

=== FILE: seeker_home.dfy ===
/** The job seeker's dashboard (frontend/src/components/JobSeekerHome.tsx):
    how loaded documents are normalised, the client-side search, the local
    bookkeeping after applying to and saving jobs, the tab contents and the
    statistics tiles. Firestore reads and writes are parameters: a loaded
    document, whether the apply call succeeded, the clock's timestamp. */
module SeekerHome {
  import opened Options
  import opened Seqs
  import opened Text
  import opened Jobs
  import opened Paging
  import JsCrud

  /* ---------------------------------------------------------------- */
  /* Normalising loaded documents                                      */
  /* ---------------------------------------------------------------- */

  /** Every field the dashboard reads is present, and the text ones are
      non-empty. */
  predicate Normalised(j: Job) {
    && j.id.Some?
    && Truthy(j.title) && Truthy(j.company) && Truthy(j.location) && Truthy(j.jobType)
    && Truthy(j.salary) && Truthy(j.postedDate) && Truthy(j.description) && Truthy(j.status)
    && j.active.Some? && j.applicants.Some? && j.featured.Some?
  }

  /** A non-empty stored text field survives normalisation unchanged. */
  predicate KeepsText(stored: Option<String>, shown: Option<String>) {
    Truthy(stored) ==> shown == stored
  }

  /** The object the main loader builds from a document: defaults for the
      missing text fields, `active` unless the stored flag is exactly
      `false`, `[]` for missing applicants, `featured` only when stored as
      `true`. Fields the literal does not list are dropped. `now` stands for
      `new Date().toISOString()`. */
  function Normalise(docId: String, data: Job, now: String): (r: Job)
    requires |now| > 0
    ensures Normalised(r)
    ensures r.id == Some(docId)
    ensures r.active == Some(data.active != Some(false))
    ensures r.featured == Some(data.featured == Some(true))
    ensures KeepsText(data.title, r.title) && KeepsText(data.company, r.company)
    ensures KeepsText(data.location, r.location) && KeepsText(data.jobType, r.jobType)
    ensures KeepsText(data.salary, r.salary) && KeepsText(data.description, r.description)
    ensures KeepsText(data.postedDate, r.postedDate) && KeepsText(data.status, r.status)
    ensures data.applicants.Some? ==> r.applicants == data.applicants
    ensures r.requirements.None? && r.experienceLevel.None? && r.skills.None?
    ensures r.expiryDate.None? && r.companyId.None?
  {
    Job(
      id := Some(docId),
      title := Some(OrElse(data.title, "Untitled Job")),
      company := Some(OrElse(data.company, "Unknown Company")),
      location := Some(OrElse(data.location, "Location TBD")),
      description := Some(OrElse(data.description, "No description available")),
      requirements := None,
      jobType := Some(OrElse(data.jobType, "FULL_TIME")),
      salary := Some(OrElse(data.salary, "Salary TBD")),
      experienceLevel := None,
      skills := None,
      postedDate := Some(OrElse(data.postedDate, now)),
      expiryDate := None,
      active := Some(data.active != Some(false)),
      companyId := None,
      applicants := Some(data.applicants.GetOr([])),
      status := Some(OrElse(data.status, "approved")),
      featured := Some(data.featured == Some(true)))
  }

  /** Normalising an already normalised job changes nothing, whatever the
      clock says the second time. */
  lemma NormaliseIdempotent(docId: String, data: Job, now: String, later: String)
    requires |now| > 0 && |later| > 0
    ensures Normalise(docId, Normalise(docId, data, now), later) == Normalise(docId, data, now)
  {
  }

  /** The fallback loader: `{ id: doc.id, ...data }` with only `active`,
      `applicants` and `status` defaulted; every other field is the stored
      one, and a stored `id` field wins over the document id. */
  function NormaliseFallback(docId: String, data: Job): (r: Job)
    ensures r.id == WithId(docId, data).id
    ensures r.active == Some(data.active != Some(false))
    ensures r.applicants.Some? && Truthy(r.status)
    ensures r.(active := data.active, applicants := data.applicants, status := data.status, id := data.id) == data
  {
    WithId(docId, data).(active := Some(data.active != Some(false)),
                         applicants := Some(data.applicants.GetOr([])),
                         status := Some(OrElse(data.status, "approved")))
  }

  /* ---------------------------------------------------------------- */
  /* Client-side search                                                */
  /* ---------------------------------------------------------------- */

  /** The text of a field the component reads directly; normalised jobs
      always have it. */
  function FieldText(f: Option<String>): String {
    f.GetOr("")
  }

  /** `job.title.toLowerCase().includes(keyword)`, or the company, or the
      description. */
  predicate KeywordHit(j: Job, keyword: String) {
    || ContainsIgnoringCase(FieldText(j.title), keyword)
    || ContainsIgnoringCase(FieldText(j.company), keyword)
    || ContainsIgnoringCase(FieldText(j.description), keyword)
  }

  predicate LocationHit(j: Job, location: String) {
    ContainsIgnoringCase(FieldText(j.location), location)
  }

  /** The three guarded filters, in the component's order: keyword, then
      location, then the exact type. */
  function KeywordStage(jobs: seq<Job>, keyword: String): seq<Job> {
    if |keyword| > 0 then Filter(jobs, j => KeywordHit(j, keyword)) else jobs
  }

  function LocationStage(jobs: seq<Job>, location: String): seq<Job> {
    if |location| > 0 then Filter(jobs, j => LocationHit(j, location)) else jobs
  }

  function TypeStage(jobs: seq<Job>, jobType: String): seq<Job> {
    if |jobType| > 0 then Filter(jobs, j => JsCrud.TypeMatch(j, jobType)) else jobs
  }

  /** A non-empty keyword never occurs in an empty field, so reading a
      missing field as `""` agrees with the servers' `field && ...` test. */
  lemma FieldTextMentions(f: Option<String>, keyword: String)
    requires |keyword| > 0
    ensures ContainsIgnoringCase(FieldText(f), keyword) == JsCrud.FieldMentions(f, keyword)
  {
    if !Truthy(f) {
      assert FieldText(f) == "";
      assert |Lower(keyword)| > 0;
      assert !Contains(Lower(""), Lower(keyword)) by {
        forall i | 0 <= i <= 0 ensures !OccursAt(Lower(""), Lower(keyword), i) { }
      }
    }
  }

  lemma HitsAgree(j: Job, keyword: String, location: String)
    ensures |keyword| > 0 ==> (KeywordHit(j, keyword) <==> JsCrud.KeywordMatch(j, keyword))
    ensures |location| > 0 ==> (LocationHit(j, location) <==> JsCrud.LocationMatch(j, location))
  {
    if |keyword| > 0 {
      FieldTextMentions(j.title, keyword);
      FieldTextMentions(j.company, keyword);
      FieldTextMentions(j.description, keyword);
    }
    if |location| > 0 {
      FieldTextMentions(j.location, location);
    }
  }

  lemma KeywordStageIsOk(jobs: seq<Job>, keyword: String)
    ensures KeywordStage(jobs, keyword) == Filter(jobs, j => JsCrud.KeywordOk(j, keyword))
  {
    if |keyword| > 0 {
      forall i | 0 <= i < |jobs| ensures KeywordHit(jobs[i], keyword) == JsCrud.KeywordOk(jobs[i], keyword) {
        HitsAgree(jobs[i], keyword, "");
      }
      FilterCongruent(jobs, j => KeywordHit(j, keyword), j => JsCrud.KeywordOk(j, keyword));
    } else {
      FilterKeepsAll(jobs, j => JsCrud.KeywordOk(j, keyword));
    }
  }

  lemma LocationStageIsOk(jobs: seq<Job>, location: String)
    ensures LocationStage(jobs, location) == Filter(jobs, j => JsCrud.LocationOk(j, location))
  {
    if |location| > 0 {
      forall i | 0 <= i < |jobs| ensures LocationHit(jobs[i], location) == JsCrud.LocationOk(jobs[i], location) {
        HitsAgree(jobs[i], "", location);
      }
      FilterCongruent(jobs, j => LocationHit(j, location), j => JsCrud.LocationOk(j, location));
    } else {
      FilterKeepsAll(jobs, j => JsCrud.LocationOk(j, location));
    }
  }

  lemma TypeStageIsOk(jobs: seq<Job>, jobType: String)
    ensures TypeStage(jobs, jobType) == Filter(jobs, j => JsCrud.TypeOk(j, jobType))
  {
    if |jobType| > 0 {
      FilterCongruent(jobs, j => JsCrud.TypeMatch(j, jobType), j => JsCrud.TypeOk(j, jobType));
    } else {
      FilterKeepsAll(jobs, j => JsCrud.TypeOk(j, jobType));
    }
  }

  /** `handleSearch`'s list: the filters applied in the component's order
      select exactly the jobs the Cloud Functions search selects, so the
      result is an order-preserving subsequence, and empty filters keep
      every job. */
  function SearchJobs(jobs: seq<Job>, keyword: String, location: String, jobType: String): (r: seq<Job>)
    ensures r == JsCrud.FilterJobs(jobs, keyword, location, jobType)
    ensures IsSubseq(r, jobs)
    ensures |keyword| == 0 && |location| == 0 && |jobType| == 0 ==> r == jobs
  {
    SearchIsFilter(jobs, keyword, location, jobType);
    TypeStage(LocationStage(KeywordStage(jobs, keyword), location), jobType)
  }

  lemma SearchIsFilter(jobs: seq<Job>, keyword: String, location: String, jobType: String)
    ensures TypeStage(LocationStage(KeywordStage(jobs, keyword), location), jobType)
            == JsCrud.FilterJobs(jobs, keyword, location, jobType)
  {
    var k := j => JsCrud.KeywordOk(j, keyword);
    var l := j => JsCrud.LocationOk(j, location);
    var t := j => JsCrud.TypeOk(j, jobType);
    var kl := j => JsCrud.KeywordOk(j, keyword) && JsCrud.LocationOk(j, location);
    var a := KeywordStage(jobs, keyword);
    KeywordStageIsOk(jobs, keyword);
    var b := LocationStage(a, location);
    LocationStageIsOk(a, location);
    FilterFilter(jobs, k, l, kl);
    assert b == Filter(jobs, kl);
    TypeStageIsOk(b, jobType);
    FilterFilter(jobs, kl, t, j => JsCrud.Matches(j, keyword, location, jobType));
  }

  /* ---------------------------------------------------------------- */
  /* Dashboard state                                                   */
  /* ---------------------------------------------------------------- */

  /** The tabs; `All` is also what any other tab name shows. */
  datatype Tab = All | Featured | Recent | Saved

  datatype Filters = Filters(keyword: String, location: String, jobType: String)

  datatype Home = Home(
    jobs: seq<Job>,
    featuredJobs: seq<Job>,
    recentJobs: seq<Job>,
    savedJobs: seq<Job>,
    savedJobIds: seq<String>,
    activeTab: Tab,
    filters: Filters,
    user: Option<String>)

  /** `handleSearch`: the filtered list replaces the job list and the `All`
      tab is shown; nothing else changes. */
  function Search(h: Home, f: Filters): (r: Home)
    ensures r.jobs == JsCrud.FilterJobs(h.jobs, f.keyword, f.location, f.jobType)
    ensures r.activeTab == All && r.filters == f
    ensures r.(jobs := h.jobs, activeTab := h.activeTab, filters := h.filters) == h
  {
    h.(jobs := SearchJobs(h.jobs, f.keyword, f.location, f.jobType), activeTab := All, filters := f)
  }

  /** The search filters the list already on screen: repeating a search
      changes nothing, and no search brings back a job an earlier one
      removed. */
  lemma SearchLaws(h: Home, f: Filters, g: Filters)
    ensures Search(Search(h, f), f).jobs == Search(h, f).jobs
    ensures IsSubseq(Search(Search(h, f), g).jobs, Search(h, f).jobs)
  {
    JsCrud.FilterJobsIdempotent(h.jobs, f.keyword, f.location, f.jobType);
  }

  /* ---------------------------------------------------------------- */
  /* Applying                                                          */
  /* ---------------------------------------------------------------- */

  /** The applicants of a job as the component spreads them. */
  function Applicants(j: Job): seq<String> {
    j.applicants.GetOr([])
  }

  /** `job.applicants && job.applicants.includes(uid)`. */
  predicate HasApplied(j: Job, uid: String) {
    j.applicants.Some? && uid in j.applicants.value
  }

  /** `{ ...job, applicants: [...job.applicants, uid] }` on the jobs with id
      `jobId`: exactly one more copy of `uid`, no de-duplication, every other
      job and field as before. */
  function AddApplicant(jobs: seq<Job>, jobId: String, uid: String): (r: seq<Job>)
    ensures |r| == |jobs|
    ensures forall i | 0 <= i < |jobs| && jobs[i].id != Some(jobId) :: r[i] == jobs[i]
    ensures forall i | 0 <= i < |jobs| && jobs[i].id == Some(jobId) ::
              && r[i].applicants == Some(Applicants(jobs[i]) + [uid])
              && multiset(Applicants(r[i]))[uid] == multiset(Applicants(jobs[i]))[uid] + 1
              && r[i].(applicants := jobs[i].applicants) == jobs[i]
  {
    seq(|jobs|, i requires 0 <= i < |jobs| =>
      if jobs[i].id == Some(jobId) then jobs[i].(applicants := Some(Applicants(jobs[i]) + [uid])) else jobs[i])
  }

  /** On a first application the local update mirrors the store's
      `arrayUnion`; on a repeated one the local list gains a duplicate the
      store does not have. */
  lemma LocalApplyVersusStore(j: Job, uid: String)
    ensures !HasApplied(j, uid) ==> Applicants(j) + [uid] == ArrayUnion(Applicants(j), uid)
    ensures HasApplied(j, uid) ==> Applicants(j) + [uid] != ArrayUnion(Applicants(j), uid)
  {
  }

  /** `handleApply`: without a user nothing changes; after a successful
      call the applicant is added in all three lists; a failed call changes
      nothing. */
  function Apply(h: Home, jobId: String, callSucceeded: bool): (r: Home)
    ensures h.user.None? || !callSucceeded ==> r == h
    ensures h.user.Some? && callSucceeded ==>
              && r.jobs == AddApplicant(h.jobs, jobId, h.user.value)
              && r.featuredJobs == AddApplicant(h.featuredJobs, jobId, h.user.value)
              && r.recentJobs == AddApplicant(h.recentJobs, jobId, h.user.value)
              && r.(jobs := h.jobs, featuredJobs := h.featuredJobs, recentJobs := h.recentJobs) == h
  {
    if h.user.None? || !callSucceeded then h
    else
      var uid := h.user.value;
      h.(jobs := AddApplicant(h.jobs, jobId, uid),
         featuredJobs := AddApplicant(h.featuredJobs, jobId, uid),
         recentJobs := AddApplicant(h.recentJobs, jobId, uid))
  }

  /* ---------------------------------------------------------------- */
  /* Statistics                                                        */
  /* ---------------------------------------------------------------- */

  /** The number of jobs whose applicants contain `uid`, counted one job at
      a time. */
  function AppliedCount(jobs: seq<Job>, uid: String): (n: nat)
    ensures n <= |jobs|
  {
    if |jobs| == 0 then 0
    else (if HasApplied(jobs[0], uid) then 1 else 0) + AppliedCount(jobs[1..], uid)
  }

  /** The count is the length of `jobs.filter(job => job.applicants.includes(uid))`. */
  lemma {:induction false} AppliedCountIsFilter(jobs: seq<Job>, uid: String)
    ensures AppliedCount(jobs, uid) == |Filter(jobs, j => HasApplied(j, uid))|
  {
    if |jobs| > 0 {
      AppliedCountIsFilter(jobs[1..], uid);
    }
  }

  datatype Stats = Stats(totalJobs: nat, appliedJobs: nat, savedJobs: nat, profileViews: nat)

  /** `loadStats`: without a user the applied count is 0; with one it is the
      number of loaded jobs listing the user as an applicant. Saved jobs are
      counted by id. */
  function LoadStats(h: Home): (s: Stats)
    ensures s.totalJobs == |h.jobs| && s.appliedJobs <= s.totalJobs
    ensures h.user.None? ==> s.appliedJobs == 0
    ensures h.user.Some? ==> s.appliedJobs == |Filter(h.jobs, j => HasApplied(j, h.user.value))|
    ensures h.user.Some? && (forall i | 0 <= i < |h.jobs| :: !HasApplied(h.jobs[i], h.user.value)) ==> s.appliedJobs == 0
    ensures s.savedJobs == |h.savedJobIds| && s.profileViews == 0
  {
    NoneApplied(h.jobs, if h.user.Some? then h.user.value else "");
    AppliedCountIsFilter(h.jobs, if h.user.Some? then h.user.value else "");
    Stats(|h.jobs|, if h.user.Some? then AppliedCount(h.jobs, h.user.value) else 0, |h.savedJobIds|, 0)
  }

  lemma {:induction false} NoneApplied(jobs: seq<Job>, uid: String)
    ensures (forall i | 0 <= i < |jobs| :: !HasApplied(jobs[i], uid)) ==> AppliedCount(jobs, uid) == 0
  {
    if |jobs| > 0 {
      NoneApplied(jobs[1..], uid);
      if forall i | 0 <= i < |jobs| :: !HasApplied(jobs[i], uid) {
        assert forall i | 0 <= i < |jobs[1..]| :: jobs[1..][i] == jobs[i + 1];
      }
    }
  }

  /** Adding an applicant never lowers anyone's applied count, and raises
      the applicant's own by the number of matching jobs they had not yet
      applied to. */
  lemma {:induction false} AddApplicantCount(jobs: seq<Job>, jobId: String, uid: String, other: String)
    ensures AppliedCount(AddApplicant(jobs, jobId, uid), other) >= AppliedCount(jobs, other)
    ensures AppliedCount(AddApplicant(jobs, jobId, uid), uid)
            == AppliedCount(jobs, uid) + NewlyApplied(jobs, jobId, uid)
  {
    if |jobs| > 0 {
      var r := AddApplicant(jobs, jobId, uid);
      assert r[1..] == AddApplicant(jobs[1..], jobId, uid);
      AddApplicantCount(jobs[1..], jobId, uid, other);
    }
  }

  /** The jobs with id `jobId` that `uid` has not applied to yet. */
  function NewlyApplied(jobs: seq<Job>, jobId: String, uid: String): nat {
    if |jobs| == 0 then 0
    else (if jobs[0].id == Some(jobId) && !HasApplied(jobs[0], uid) then 1 else 0)
         + NewlyApplied(jobs[1..], jobId, uid)
  }

  /** After a successful apply to a listed job not yet applied to, the
      applied tile goes up. */
  lemma ApplyRaisesStats(h: Home, jobId: String, i: nat)
    requires h.user.Some? && i < |h.jobs|
    requires h.jobs[i].id == Some(jobId) && !HasApplied(h.jobs[i], h.user.value)
    ensures LoadStats(Apply(h, jobId, true)).appliedJobs > LoadStats(h).appliedJobs
  {
    AddApplicantCount(h.jobs, jobId, h.user.value, h.user.value);
    NewlyAppliedPositive(h.jobs, jobId, h.user.value, i);
  }

  lemma {:induction false} NewlyAppliedPositive(jobs: seq<Job>, jobId: String, uid: String, i: nat)
    requires i < |jobs| && jobs[i].id == Some(jobId) && !HasApplied(jobs[i], uid)
    ensures NewlyApplied(jobs, jobId, uid) > 0
  {
    if i > 0 {
      NewlyAppliedPositive(jobs[1..], jobId, uid, i - 1);
    }
  }

  /* ---------------------------------------------------------------- */
  /* Tabs                                                              */
  /* ---------------------------------------------------------------- */

  predicate IsFeatured(j: Job) {
    j.featured == Some(true)
  }

  /** `getDisplayJobs`: the saved list; the recent list, or the first eight
      jobs when it is empty; the featured list, or the jobs flagged featured
      when it is empty; otherwise every job. */
  function DisplayJobs(h: Home): (r: seq<Job>)
    ensures h.activeTab == Saved ==> r == h.savedJobs
    ensures h.activeTab == All ==> r == h.jobs
    ensures h.activeTab == Recent && |h.recentJobs| > 0 ==> r == h.recentJobs
    ensures h.activeTab == Recent && |h.recentJobs| == 0 ==>
              |r| == Min(8, |h.jobs|) && r <= h.jobs
    ensures h.activeTab == Featured && |h.featuredJobs| > 0 ==> r == h.featuredJobs
    ensures h.activeTab == Featured && |h.featuredJobs| == 0 ==>
              && IsSubseq(r, h.jobs)
              && (forall i | 0 <= i < |r| :: IsFeatured(r[i]))
              && (forall i | 0 <= i < |h.jobs| && IsFeatured(h.jobs[i]) :: h.jobs[i] in r)
  {
    match h.activeTab
    case Featured =>
      if |h.featuredJobs| > 0 then h.featuredJobs
      else
        FilterIsSubseq(h.jobs, IsFeatured);
        Filter(h.jobs, IsFeatured)
    case Recent => if |h.recentJobs| > 0 then h.recentJobs else Slice(h.jobs, 0, 8)
    case Saved => h.savedJobs
    case All => h.jobs
  }

  /** Every job a tab shows comes from one of the dashboard's lists. */
  lemma DisplayFromState(h: Home, i: nat)
    requires i < |DisplayJobs(h)|
    ensures var j := DisplayJobs(h)[i];
            j in h.jobs || j in h.featuredJobs || j in h.recentJobs || j in h.savedJobs
  {
    var r := DisplayJobs(h);
    if h.activeTab == Recent && |h.recentJobs| == 0 {
      assert r[i] == h.jobs[i];
    }
  }

  /* ---------------------------------------------------------------- */
  /* Saving                                                            */
  /* ---------------------------------------------------------------- */

  /** `list.find(j => j.id === jobId)`. */
  function FindById(jobs: seq<Job>, jobId: String): (r: Option<Job>)
    ensures r.Some? ==> r.value in jobs && r.value.id == Some(jobId)
    ensures r.None? <==> forall i | 0 <= i < |jobs| :: jobs[i].id != Some(jobId)
    ensures r.Some? ==> exists i | 0 <= i < |jobs| ::
              jobs[i] == r.value && forall k | 0 <= k < i :: jobs[k].id != Some(jobId)
  {
    if |jobs| == 0 then None
    else if jobs[0].id == Some(jobId) then Some(jobs[0])
    else
      var r := FindById(jobs[1..], jobId);
      if r.Some? then
        assert forall k | 1 <= k < |jobs| :: jobs[k] == jobs[1..][k - 1];
        r
      else r
  }

  /** The job to save: from the job list, else the featured list, else the
      recent list, else the stored document (`fetched`, normalised). */
  function JobToSave(h: Home, jobId: String, fetched: Option<Job>, now: String): (r: Option<Job>)
    requires |now| > 0
    ensures r.Some? ==> r.value.id == Some(jobId)
    ensures r.None? <==> fetched.None? && FindById(h.jobs, jobId).None?
                         && FindById(h.featuredJobs, jobId).None? && FindById(h.recentJobs, jobId).None?
    ensures FindById(h.jobs, jobId).Some? ==> r == FindById(h.jobs, jobId)
    ensures FindById(h.jobs, jobId).None? && FindById(h.featuredJobs, jobId).Some? ==>
              r == FindById(h.featuredJobs, jobId)
    ensures FindById(h.jobs, jobId).None? && FindById(h.featuredJobs, jobId).None? ==>
              FindById(h.recentJobs, jobId).Some? ==> r == FindById(h.recentJobs, jobId)
    ensures FindById(h.jobs, jobId).None? && FindById(h.featuredJobs, jobId).None? ==>
              FindById(h.recentJobs, jobId).None? && fetched.Some? ==>
                r == Some(Normalise(jobId, fetched.value, now))
  {
    var a := FindById(h.jobs, jobId);
    if a.Some? then a
    else
      var b := FindById(h.featuredJobs, jobId);
      if b.Some? then b
      else
        var c := FindById(h.recentJobs, jobId);
        if c.Some? then c
        else if fetched.Some? then Some(Normalise(jobId, fetched.value, now))
        else None
  }

  predicate HasId(j: Job, jobId: String) {
    j.id == Some(jobId)
  }

  /** No two saved jobs carry the same id. */
  predicate DistinctIds(jobs: seq<Job>) {
    forall i, k | 0 <= i < k < |jobs| :: jobs[i].id.Some? ==> jobs[i].id != jobs[k].id
  }

  /** `handleSaveChange`. Saving appends the id (no de-duplication) and
      adds the job unless one with that id is already saved; unsaving drops
      the id and every saved job with it. */
  function SaveChange(h: Home, jobId: String, isSaved: bool, fetched: Option<Job>, now: String): (r: Home)
    requires |now| > 0
    ensures isSaved ==> r.savedJobIds == h.savedJobIds + [jobId]
    ensures isSaved && (exists i | 0 <= i < |h.savedJobs| :: HasId(h.savedJobs[i], jobId)) ==>
              r.savedJobs == h.savedJobs
    ensures isSaved && (forall i | 0 <= i < |h.savedJobs| :: !HasId(h.savedJobs[i], jobId)) ==>
              r.savedJobs == h.savedJobs + (if JobToSave(h, jobId, fetched, now).Some? then [JobToSave(h, jobId, fetched, now).value] else [])
    ensures !isSaved ==> jobId !in r.savedJobIds && IsSubseq(r.savedJobIds, h.savedJobIds)
    ensures !isSaved ==> (forall i | 0 <= i < |r.savedJobs| :: !HasId(r.savedJobs[i], jobId))
                         && IsSubseq(r.savedJobs, h.savedJobs)
    ensures !isSaved ==> forall i | 0 <= i < |h.savedJobs| && !HasId(h.savedJobs[i], jobId) :: h.savedJobs[i] in r.savedJobs
    ensures r.(savedJobIds := h.savedJobIds, savedJobs := h.savedJobs) == h
  {
    if isSaved then
      var add := JobToSave(h, jobId, fetched, now);
      var alreadySaved := exists i | 0 <= i < |h.savedJobs| :: HasId(h.savedJobs[i], jobId);
      h.(savedJobIds := h.savedJobIds + [jobId],
         savedJobs := if add.None? || alreadySaved then h.savedJobs else h.savedJobs + [add.value])
    else
      FilterIsSubseq(h.savedJobs, j => !HasId(j, jobId));
      h.(savedJobIds := RemoveAll(h.savedJobIds, jobId),
         savedJobs := Filter(h.savedJobs, j => !HasId(j, jobId)))
  }

  /** Saving and unsaving never put two jobs with one id in the saved
      list. */
  lemma SaveKeepsDistinct(h: Home, jobId: String, isSaved: bool, fetched: Option<Job>, now: String)
    requires |now| > 0 && DistinctIds(h.savedJobs)
    ensures DistinctIds(SaveChange(h, jobId, isSaved, fetched, now).savedJobs)
  {
    var r := SaveChange(h, jobId, isSaved, fetched, now);
    if !isSaved {
      FilterKeepsDistinct(h.savedJobs, j => !HasId(j, jobId));
    }
  }

  lemma {:induction false} FilterKeepsDistinct(jobs: seq<Job>, p: Job -> bool)
    requires DistinctIds(jobs)
    ensures DistinctIds(Filter(jobs, p))
  {
    if |jobs| > 0 {
      var rest := Filter(jobs[1..], p);
      assert DistinctIds(jobs[1..]) by {
        forall i, k | 0 <= i < k < |jobs[1..]| ensures jobs[1..][i].id.Some? ==> jobs[1..][i].id != jobs[1..][k].id {
          assert jobs[1..][i] == jobs[i + 1] && jobs[1..][k] == jobs[k + 1];
        }
      }
      FilterKeepsDistinct(jobs[1..], p);
      if p(jobs[0]) {
        var r := Filter(jobs, p);
        assert r == [jobs[0]] + rest;
        forall i, k | 0 <= i < k < |r| ensures r[i].id.Some? ==> r[i].id != r[k].id {
          if i == 0 {
            assert r[k] == rest[k - 1];
            assert rest[k - 1] in jobs[1..];
            var m :| 0 <= m < |jobs[1..]| && jobs[1..][m] == rest[k - 1];
            assert jobs[m + 1] == r[k];
          } else {
            assert r[i] == rest[i - 1] && r[k] == rest[k - 1];
          }
        }
      }
    }
  }
}

=== FILE: seqs.dfy ===
/** Sequence operations shared by the handlers and components: the
    order-preserving `filter`, counting, and the array updates the document
    store offers (`arrayUnion`). */
module Seqs {

  /** `a` is obtained from `b` by deleting elements, keeping their order. */
  predicate IsSubseq<T(==)>(a: seq<T>, b: seq<T>)
    decreases |b|
  {
    if |a| == 0 then true
    else if |b| == 0 then false
    else if a[0] == b[0] then IsSubseq(a[1..], b[1..])
    else IsSubseq(a, b[1..])
  }

  /** `xs.filter(p)`: the elements satisfying `p`, in their original order. */
  function Filter<T(==)>(xs: seq<T>, p: T -> bool): (r: seq<T>)
    ensures |r| <= |xs|
    ensures forall i | 0 <= i < |r| :: p(r[i])
    ensures forall i | 0 <= i < |r| :: r[i] in xs
    ensures forall i | 0 <= i < |xs| && p(xs[i]) :: xs[i] in r
  {
    if |xs| == 0 then []
    else if p(xs[0]) then [xs[0]] + Filter(xs[1..], p)
    else Filter(xs[1..], p)
  }

  /** `xs.filter(p).length`. */
  function Count<T(==)>(xs: seq<T>, p: T -> bool): (n: nat)
    ensures n <= |xs|
  {
    |Filter(xs, p)|
  }

  lemma {:induction false} SubseqPrepend<T>(a: seq<T>, b: seq<T>, x: T)
    requires IsSubseq(a, b)
    ensures IsSubseq(a, [x] + b)
    decreases |b|, 1
  {
    var xb := [x] + b;
    assert xb[1..] == b;
    if |a| > 0 && a[0] == x {
      SubseqDropFirst(a, b);
    }
  }

  lemma {:induction false} SubseqDropFirst<T>(a: seq<T>, b: seq<T>)
    requires |a| > 0 && IsSubseq(a, b)
    ensures IsSubseq(a[1..], b)
    decreases |b|, 0
  {
    assert |b| > 0;
    if a[0] == b[0] {
      SubseqPrepend(a[1..], b[1..], b[0]);
    } else {
      SubseqDropFirst(a, b[1..]);
      SubseqPrepend(a[1..], b[1..], b[0]);
    }
    assert [b[0]] + b[1..] == b;
  }

  /** Every filter result is an order-preserving subsequence of its input. */
  lemma {:induction false} FilterIsSubseq<T>(xs: seq<T>, p: T -> bool)
    ensures IsSubseq(Filter(xs, p), xs)
  {
    if |xs| > 0 {
      FilterIsSubseq(xs[1..], p);
      var r := Filter(xs, p);
      if p(xs[0]) {
        assert r[1..] == Filter(xs[1..], p);
      } else {
        SubseqPrepend(Filter(xs[1..], p), xs[1..], xs[0]);
        assert [xs[0]] + xs[1..] == xs;
      }
    }
  }

  /** A filter whose predicate holds everywhere changes nothing. */
  lemma {:induction false} FilterKeepsAll<T>(xs: seq<T>, p: T -> bool)
    requires forall i | 0 <= i < |xs| :: p(xs[i])
    ensures Filter(xs, p) == xs
  {
    if |xs| > 0 {
      FilterKeepsAll(xs[1..], p);
      assert [xs[0]] + xs[1..] == xs;
    }
  }

  /** Filtering twice with the same predicate is filtering once. */
  lemma FilterIdempotent<T>(xs: seq<T>, p: T -> bool)
    ensures Filter(Filter(xs, p), p) == Filter(xs, p)
  {
    FilterKeepsAll(Filter(xs, p), p);
  }

  /** Two successive filters are one filter by the conjunction `both`. */
  lemma {:induction false} FilterFilter<T>(xs: seq<T>, p: T -> bool, q: T -> bool, both: T -> bool)
    requires forall i | 0 <= i < |xs| :: both(xs[i]) == (p(xs[i]) && q(xs[i]))
    ensures Filter(Filter(xs, p), q) == Filter(xs, both)
  {
    if |xs| > 0 {
      FilterFilter(xs[1..], p, q, both);
      if p(xs[0]) {
        assert Filter(xs, p)[1..] == Filter(xs[1..], p);
      }
    }
  }

  /** Filters with pointwise-equal predicates agree. */
  lemma {:induction false} FilterCongruent<T>(xs: seq<T>, p: T -> bool, q: T -> bool)
    requires forall i | 0 <= i < |xs| :: p(xs[i]) == q(xs[i])
    ensures Filter(xs, p) == Filter(xs, q)
  {
    if |xs| > 0 {
      FilterCongruent(xs[1..], p, q);
    }
  }

  /** Filtering distributes over concatenation. */
  lemma {:induction false} FilterAppend<T>(xs: seq<T>, ys: seq<T>, p: T -> bool)
    ensures Filter(xs + ys, p) == Filter(xs, p) + Filter(ys, p)
  {
    if |xs| == 0 {
      assert xs + ys == ys;
    } else {
      assert (xs + ys)[1..] == xs[1..] + ys;
      FilterAppend(xs[1..], ys, p);
    }
  }

  /** A predicate implied by another never counts fewer elements. */
  lemma {:induction false} CountMonotone<T>(xs: seq<T>, p: T -> bool, q: T -> bool)
    requires forall i | 0 <= i < |xs| :: p(xs[i]) ==> q(xs[i])
    ensures Count(xs, p) <= Count(xs, q)
  {
    if |xs| > 0 {
      CountMonotone(xs[1..], p, q);
    }
  }

  /** Firestore's `arrayUnion(x)` on one array: appends `x` only when it is
      not already an element. */
  function ArrayUnion<T(==)>(arr: seq<T>, x: T): (r: seq<T>)
    ensures x in r
    ensures arr <= r && |r| <= |arr| + 1
    ensures multiset(r)[x] == if x in arr then multiset(arr)[x] else 1
  {
    if x in arr then arr else arr + [x]
  }

  /** A second `arrayUnion` with the same element changes nothing. */
  lemma ArrayUnionIdempotent<T>(arr: seq<T>, x: T)
    ensures ArrayUnion(ArrayUnion(arr, x), x) == ArrayUnion(arr, x)
  {
  }

  /** `xs.filter(y => y !== x)`: drops every occurrence of `x`. */
  function RemoveAll<T(==)>(xs: seq<T>, x: T): (r: seq<T>)
    ensures x !in r
    ensures forall i | 0 <= i < |r| :: r[i] in xs
    ensures forall i | 0 <= i < |xs| && xs[i] != x :: xs[i] in r
    ensures IsSubseq(r, xs)
  {
    FilterIsSubseq(xs, y => y != x);
    Filter(xs, y => y != x)
  }
}

=== FILE: signup.dfy ===
/** The sign-up page (frontend/src/pages/SignUp.tsx): the ordered form
    validation, the e-mail pattern `^[^@\s]+@[^@\s]+\.[^@\s]+$`, the 0..5
    password-strength score, the step-one check of the two-step form, and the
    role recorded after registration. */
module SignUp {
  import opened Options
  import opened Text

  datatype Form = Form(
    role: String, fullName: String, email: String, password: String, confirmPassword: String,
    phone: String, location: String, linkedin: String, companyName: String,
    companyWebsite: String, businessPhone: String, businessLocation: String,
    agree: bool, alerts: bool)

  /** The form as the page first shows it. */
  const InitialForm: Form := Form("jobseeker", "", "", "", "", "", "", "", "", "", "", "", false, false)

  const FullNameRequired := "Full name is required."
  const EmailRequired := "Email is required."
  const InvalidEmail := "Invalid email address."
  const PasswordTooShort := "Password must be at least 8 characters."
  const PasswordsDiffer := "Passwords do not match."
  const MustAgree := "You must agree to the Terms and Conditions."
  const LocationRequired := "Location is required."
  const CompanyRequired := "Company name is required."
  const BusinessLocationRequired := "Business location is required."
  const IncompleteStep := "Please complete all required fields correctly before continuing."

  /** `[^@\s]`. */
  predicate EmailChar(c: char) { c != '@' && !IsSpace(c) }

  /** `[^@\s]+` without the length: every character qualifies. */
  predicate Plain(s: String) { forall i | 0 <= i < |s| :: EmailChar(s[i]) }

  /** The pattern matched with the `@` at `at` and the `.` at `dot`. */
  predicate EmailShape(e: String, at: int, dot: int) {
    && 0 < at && at + 1 < dot && dot + 1 < |e|
    && e[at] == '@' && e[dot] == '.'
    && Plain(e[..at]) && Plain(e[at + 1..dot]) && Plain(e[dot + 1..])
  }

  /** The regular expression accepts `e`. */
  predicate IsEmail(e: String) {
    exists at, dot | 0 < at < dot < |e| :: EmailShape(e, at, dot)
  }

  /** The domain after the `@` at `at` has a `.` with text on both sides. */
  predicate DotInDomain(e: String, at: int) {
    exists dot | 0 <= at + 1 < dot < |e| - 1 :: e[dot] == '.'
  }

  /** What the pattern means: a single `@` that is not the first character,
      a `.` inside the domain after it, and no whitespace anywhere. */
  lemma EmailMeaning(e: String)
    ensures IsEmail(e) <==>
              && (exists at | 0 < at < |e| :: e[at] == '@' && DotInDomain(e, at) &&
                    forall i | 0 <= i < |e| && i != at :: e[i] != '@')
              && (forall i | 0 <= i < |e| :: !IsSpace(e[i]))
  {
    if IsEmail(e) {
      var at, dot :| EmailShape(e, at, dot);
      forall i | 0 <= i < |e| && i != at ensures e[i] != '@' && !IsSpace(e[i]) {
        ShapeChar(e, at, dot, i);
      }
      assert !IsSpace(e[at]);
      assert DotInDomain(e, at);
    }
    if (exists at | 0 < at < |e| :: e[at] == '@' && DotInDomain(e, at) &&
          forall i | 0 <= i < |e| && i != at :: e[i] != '@')
       && (forall i | 0 <= i < |e| :: !IsSpace(e[i])) {
      var at :| 0 < at < |e| && e[at] == '@' && DotInDomain(e, at) &&
                forall i | 0 <= i < |e| && i != at :: e[i] != '@';
      var dot :| at + 1 < dot < |e| - 1 && e[dot] == '.';
      forall i | 0 <= i < |e| && i != at ensures EmailChar(e[i]) {
        assert !IsSpace(e[i]);
      }
      assert EmailShape(e, at, dot);
    }
  }

  /** Outside the `@`, every character of a matching address is a plain one. */
  lemma ShapeChar(e: String, at: int, dot: int, i: int)
    requires EmailShape(e, at, dot) && 0 <= i < |e| && i != at
    ensures EmailChar(e[i])
  {
    if i < at {
      assert e[..at][i] == e[i];
    } else if i < dot {
      assert e[at + 1..dot][i - at - 1] == e[i];
    } else if i == dot {
    } else {
      assert e[dot + 1..][i - dot - 1] == e[i];
    }
  }

  /** An address with two `@` never matches. */
  lemma TwoAts(e: String, i: nat, j: nat)
    requires i < j < |e| && e[i] == '@' && e[j] == '@'
    ensures !IsEmail(e)
  {
    EmailMeaning(e);
    forall at | 0 < at < |e| && e[at] == '@'
      ensures exists k | 0 <= k < |e| && k != at :: e[k] == '@'
    {
      if at == i {
        assert e[j] == '@';
      } else {
        assert e[i] == '@';
      }
    }
  }

  /** Some examples: an ordinary address is accepted; one without a dot in
      the domain, with two `@` or with a space is not. */
  lemma EmailExamples()
    ensures IsEmail("a@b.c")
    ensures !IsEmail("a@bc")
    ensures !IsEmail("a@@b.c")
    ensures !IsEmail("a b@c.d")
  {
    assert EmailShape("a@b.c", 1, 3);
    EmailMeaning("a@bc");
    TwoAts("a@@b.c", 1, 2);
    EmailMeaning("a b@c.d");
    assert IsSpace("a b@c.d"[1]);
  }

  /** Every rule of `validate` with its message, in source order; a rule
      holds or its message is the answer. */
  function Rules(f: Form): seq<(bool, String)> {
    [ (|f.fullName| > 0, FullNameRequired),
      (|f.email| > 0, EmailRequired),
      (IsEmail(f.email), InvalidEmail),
      (|f.password| >= 8, PasswordTooShort),
      (f.password == f.confirmPassword, PasswordsDiffer),
      (f.agree, MustAgree),
      (!(f.role == "jobseeker" && |f.location| == 0), LocationRequired),
      (!(f.role == "employer" && |f.companyName| == 0), CompanyRequired),
      (!(f.role == "employer" && |f.businessLocation| == 0), BusinessLocationRequired) ]
  }

  /** The message of the first rule that fails, if any. */
  function FirstFailure(rules: seq<(bool, String)>): (r: Option<String>)
    ensures r.None? <==> forall k | 0 <= k < |rules| :: rules[k].0
    ensures r.Some? ==> exists k | 0 <= k < |rules| :: !rules[k].0 && rules[k].1 == r.value &&
                          forall j | 0 <= j < k :: rules[j].0
  {
    if |rules| == 0 then None
    else if !rules[0].0 then Some(rules[0].1)
    else
      var rest := FirstFailure(rules[1..]);
      if rest.Some? then
        var k :| 0 <= k < |rules[1..]| && !rules[1..][k].0 && rules[1..][k].1 == rest.value &&
                 forall j | 0 <= j < k :: rules[1..][j].0;
        assert !rules[k + 1].0 && forall j | 0 <= j < k + 1 :: rules[j].0;
        rest
      else rest
  }

  /** Every check passes: the conjunction the page requires before it
      registers anybody. */
  predicate FormValid(f: Form) {
    && |f.fullName| > 0 && |f.email| > 0 && IsEmail(f.email)
    && |f.password| >= 8 && f.password == f.confirmPassword && f.agree
    && (f.role == "jobseeker" ==> |f.location| > 0)
    && (f.role == "employer" ==> |f.companyName| > 0 && |f.businessLocation| > 0)
  }

  /** `validate`: `null` exactly when the form is valid, otherwise the
      message of the first failing check in source order. */
  function Validate(f: Form): (r: Option<String>)
    ensures r.None? <==> FormValid(f)
    ensures |f.password| < 8 || f.password != f.confirmPassword ==> r.Some?
    ensures f.role != "jobseeker" && f.role != "employer" && FormValid(f.(location := "", companyName := "")) ==>
              r.None?
  {
    if |f.fullName| == 0 then Some(FullNameRequired)
    else if |f.email| == 0 then Some(EmailRequired)
    else if !IsEmail(f.email) then Some(InvalidEmail)
    else if |f.password| < 8 then Some(PasswordTooShort)
    else if f.password != f.confirmPassword then Some(PasswordsDiffer)
    else if !f.agree then Some(MustAgree)
    else if f.role == "jobseeker" && |f.location| == 0 then Some(LocationRequired)
    else if f.role == "employer" && |f.companyName| == 0 then Some(CompanyRequired)
    else if f.role == "employer" && |f.businessLocation| == 0 then Some(BusinessLocationRequired)
    else None
  }

  /** `FirstFailure` on the suffix from `k` looks at rule `k` first. */
  lemma FirstFailureStep(rules: seq<(bool, String)>, k: nat)
    requires k < |rules|
    ensures FirstFailure(rules[k..]) == if !rules[k].0 then Some(rules[k].1) else FirstFailure(rules[k + 1..])
  {
    assert rules[k..][1..] == rules[k + 1..];
  }

  /** The if-chain of `validate` is the first failure among its rules taken
      in source order. */
  lemma ValidateFirstFailure(f: Form)
    ensures Validate(f) == FirstFailure(Rules(f))
  {
    var rs := Rules(f);
    assert rs[0..] == rs;
    assert rs[9..] == [];
    FirstFailureStep(rs, 0);
    FirstFailureStep(rs, 1);
    FirstFailureStep(rs, 2);
    FirstFailureStep(rs, 3);
    FirstFailureStep(rs, 4);
    FirstFailureStep(rs, 5);
    FirstFailureStep(rs, 6);
    FirstFailureStep(rs, 7);
    FirstFailureStep(rs, 8);
  }

  /** The form starts out invalid: the name is missing first. */
  lemma InitialFormInvalid()
    ensures Validate(InitialForm) == Some(FullNameRequired)
  {
  }

  /** The wizard: the step shown and the error banner. */
  datatype Wizard = Wizard(step: int, error: Option<String>)

  /** Step one is complete: role, name, e-mail and both passwords filled in,
      and the passwords equal. */
  predicate StepOneComplete(f: Form) {
    |f.role| > 0 && |f.fullName| > 0 && |f.email| > 0 && |f.password| > 0 && |f.confirmPassword| > 0
    && f.password == f.confirmPassword
  }

  /** `nextStep`: to step two with the error cleared, or the step unchanged
      and an error shown. */
  function NextStep(f: Form, w: Wizard): (r: Wizard)
    ensures StepOneComplete(f) <==> r.step == 2 && r.error.None?
    ensures !StepOneComplete(f) ==> r.step == w.step && r.error == Some(IncompleteStep)
  {
    if |f.role| == 0 || |f.fullName| == 0 || |f.email| == 0 || |f.password| == 0
       || |f.confirmPassword| == 0 || f.password != f.confirmPassword
    then w.(error := Some(IncompleteStep))
    else Wizard(2, None)
  }

  /** Passing step one rules out the validation failures it covers. */
  lemma StepOneCoversValidate(f: Form, w: Wizard)
    requires NextStep(f, w).error.None?
    ensures Validate(f) != Some(FullNameRequired)
    ensures Validate(f) != Some(EmailRequired)
    ensures Validate(f) != Some(PasswordsDiffer)
  {
  }

  /** The character classes the strength score looks for. */
  predicate IsOther(c: char) { !IsUpper(c) && !IsLower(c) && !IsDigit(c) }

  predicate HasLower(s: String) { exists i | 0 <= i < |s| :: IsLower(s[i]) }
  predicate HasUpper(s: String) { exists i | 0 <= i < |s| :: IsUpper(s[i]) }
  predicate HasDigit(s: String) { exists i | 0 <= i < |s| :: IsDigit(s[i]) }
  predicate HasOther(s: String) { exists i | 0 <= i < |s| :: IsOther(s[i]) }

  function Point(b: bool): nat { if b then 1 else 0 }

  /** `getPasswordStrength`: one point each for length 8 or more, a
      lower-case letter, an upper-case letter, a digit and anything else. */
  function Strength(p: String): (n: nat)
    ensures n <= 5
    ensures |p| == 0 ==> n == 0
    ensures n == 5 <==> |p| >= 8 && HasLower(p) && HasUpper(p) && HasDigit(p) && HasOther(p)
  {
    Point(|p| >= 8) + Point(HasLower(p)) + Point(HasUpper(p)) + Point(HasDigit(p)) + Point(HasOther(p))
  }

  /** Typing more characters never lowers the score. */
  lemma StrengthMonotone(p: String, q: String)
    ensures Strength(p) <= Strength(p + q)
  {
    if HasLower(p) {
      var i :| 0 <= i < |p| && IsLower(p[i]);
      assert (p + q)[i] == p[i];
    }
    if HasUpper(p) {
      var i :| 0 <= i < |p| && IsUpper(p[i]);
      assert (p + q)[i] == p[i];
    }
    if HasDigit(p) {
      var i :| 0 <= i < |p| && IsDigit(p[i]);
      assert (p + q)[i] == p[i];
    }
    if HasOther(p) {
      var i :| 0 <= i < |p| && IsOther(p[i]);
      assert (p + q)[i] == p[i];
    }
  }

  /** A password with every class and eight characters scores 5; a short
      lower-case word scores 1. */
  lemma StrengthExamples()
    ensures Strength("Passw0rd!") == 5
    ensures Strength("abc") == 1
  {
    var p := "Passw0rd!";
    assert IsUpper(p[0]) && IsLower(p[1]) && IsDigit(p[5]) && IsOther(p[8]);
    var a := "abc";
    assert IsLower(a[0]);
    assert !HasUpper(a) && !HasDigit(a) && !HasOther(a);
  }

  const AdminEmail := "admin@jobseeker.com"

  /** The role written after registration: the administrator account by
      e-mail or name, otherwise the selected role. */
  function StoredRole(f: Form): (role: String)
    ensures role == "admin" <==> f.email == AdminEmail || f.fullName == "admin" || f.role == "admin"
    ensures role != "admin" ==> role == f.role
  {
    if f.email == AdminEmail || f.fullName == "admin" then "admin" else f.role
  }

  /** What submitting does: refuse with the first validation message, or
      register (the account service may still fail, with its message as a
      parameter) and record the role. */
  datatype Submission = Refused(message: String) | AuthFailed(message: String) | Registered(role: String)

  function Submit(f: Form, authError: Option<String>): (r: Submission)
    ensures r.Refused? <==> !FormValid(f)
    ensures r.Refused? ==> Some(r.message) == Validate(f)
    ensures r.Registered? ==> FormValid(f) && authError.None? && r.role == StoredRole(f)
    ensures FormValid(f) && authError.None? ==> r == Registered(StoredRole(f))
    ensures FormValid(f) && authError.Some? ==> r == AuthFailed(authError.value)
  {
    match Validate(f)
    case Some(message) => Refused(message)
    case None =>
      if authError.Some? then AuthFailed(authError.value) else Registered(StoredRole(f))
  }

  /** `disabled={loading || !!validate()}`. */
  predicate SubmitDisabled(loading: bool, f: Form) {
    loading || Validate(f).Some?
  }

  /** An enabled submit button never leads to a refusal. */
  lemma EnabledSubmitValid(loading: bool, f: Form, authError: Option<String>)
    requires !SubmitDisabled(loading, f)
    ensures FormValid(f)
    ensures !Submit(f, authError).Refused?
  {
  }
}

=== FILE: text.dfy ===
/** String primitives the handlers and components lean on, with ASCII
    semantics: `toLowerCase`, `includes`, `trim`, `split`, lexicographic
    order, decimal `parseInt`, and comma-separated list parsing. */
module Text {
  import opened Options
  import opened Seqs

  type String = seq<char>

  /** ASCII whitespace, as `trim()` and the regular-expression class `\s`
      treat it. */
  predicate IsSpace(c: char) {
    c == ' ' || c == '\t' || c == '\n' || c == '\r' || c == '\U{000B}' || c == '\U{000C}'
  }

  predicate IsUpper(c: char) { 'A' <= c <= 'Z' }
  predicate IsLower(c: char) { 'a' <= c <= 'z' }
  predicate IsDigit(c: char) { '0' <= c <= '9' }

  function ToLowerChar(c: char): (d: char)
    ensures !IsUpper(d)
    ensures !IsUpper(c) ==> d == c
    ensures IsUpper(c) ==> IsLower(d)
  {
    if IsUpper(c) then (c as int + 32) as char else c
  }

  /** `s.toLowerCase()` on ASCII letters. */
  function Lower(s: String): (r: String)
    ensures |r| == |s|
    ensures forall i | 0 <= i < |s| :: r[i] == ToLowerChar(s[i])
  {
    seq(|s|, i requires 0 <= i < |s| => ToLowerChar(s[i]))
  }

  lemma LowerIdempotent(s: String)
    ensures Lower(Lower(s)) == Lower(s)
  {
  }

  lemma LowerAppend(s: String, t: String)
    ensures Lower(s + t) == Lower(s) + Lower(t)
  {
  }

  /** `sub` occurs in `s` starting at index `i`. */
  predicate OccursAt(s: String, sub: String, i: nat) {
    i + |sub| <= |s| && s[i..i + |sub|] == sub
  }

  /** `s.includes(sub)`. */
  predicate Contains(s: String, sub: String) {
    exists i | 0 <= i <= |s| :: OccursAt(s, sub, i)
  }

  /** `a.toLowerCase().includes(b.toLowerCase())`. */
  predicate ContainsIgnoringCase(s: String, sub: String) {
    Contains(Lower(s), Lower(sub))
  }

  lemma ContainsEmpty(s: String)
    ensures Contains(s, [])
  {
    assert OccursAt(s, [], 0);
  }

  lemma ContainsSelf(s: String)
    ensures Contains(s, s)
  {
    assert OccursAt(s, s, 0);
  }

  /** Lexicographic order on code points: the order in which the document
      store compares strings (UTF-8 bytes, which sort as code points do). */
  predicate LexLe(a: String, b: String)
    decreases |a|
  {
    if |a| == 0 then true
    else if |b| == 0 then false
    else if a[0] != b[0] then a[0] < b[0]
    else LexLe(a[1..], b[1..])
  }

  /** Drops leading whitespace. */
  function TrimStart(s: String): (r: String)
    ensures |r| <= |s| && r == s[|s| - |r|..]
    ensures |r| > 0 ==> !IsSpace(r[0])
    ensures IsBlank(s[..|s| - |r|])
  {
    if |s| > 0 && IsSpace(s[0]) then TrimStart(s[1..]) else s
  }

  /** Drops trailing whitespace. */
  function TrimEnd(s: String): (r: String)
    ensures r <= s
    ensures |r| > 0 ==> !IsSpace(r[|r| - 1])
    ensures IsBlank(s[|r|..])
  {
    if |s| > 0 && IsSpace(s[|s| - 1]) then TrimEnd(s[..|s| - 1]) else s
  }

  /** Holds when `s` has no character other than whitespace. */
  predicate IsBlank(s: String) {
    forall i | 0 <= i < |s| :: IsSpace(s[i])
  }

  /** `s` is `r` with only whitespace added before and after it. */
  predicate BlankAround(s: String, r: String) {
    exists i | 0 <= i <= |s| - |r| :: s[i..i + |r|] == r && IsBlank(s[..i]) && IsBlank(s[i + |r|..])
  }

  /** `s.trim()`: the longest infix with no whitespace at either end. */
  function Trim(s: String): (r: String)
    ensures |r| > 0 ==> !IsSpace(r[0]) && !IsSpace(r[|r| - 1])
    ensures |r| == 0 <==> IsBlank(s)
    ensures BlankAround(s, r)
  {
    var t := TrimStart(s);
    var r := TrimEnd(t);
    TrimBlank(s);
    TrimEdges(s);
    TrimCut(s);
    r
  }

  /** The trimmed string sits in its input between blank edges. */
  lemma TrimCut(s: String)
    ensures BlankAround(s, TrimEnd(TrimStart(s)))
  {
    var t := TrimStart(s);
    var r := TrimEnd(t);
    var k := |s| - |t|;
    assert IsBlank(s[..k]);
    assert t == s[k..];
    assert r == t[..|r|];
    assert s[k..k + |r|] == r;
    assert s[k + |r|..] == t[|r|..];
    assert IsBlank(s[k + |r|..]);
    Around(s, r, k);
  }

  lemma Around(s: String, r: String, k: nat)
    requires k + |r| <= |s| && s[k..k + |r|] == r && IsBlank(s[..k]) && IsBlank(s[k + |r|..])
    ensures BlankAround(s, r)
  {
  }

  lemma TrimEdges(s: String)
    ensures var r := TrimEnd(TrimStart(s));
            |r| > 0 ==> !IsSpace(r[0]) && !IsSpace(r[|r| - 1])
  {
    var t := TrimStart(s);
    var r := TrimEnd(t);
    if |r| > 0 {
      assert r[0] == t[0];
    }
  }

  /** What `trim` returns is a piece of its input. */
  lemma TrimInfix(s: String)
    ensures Contains(s, Trim(s))
  {
    TrimIsInfix(s);
  }

  lemma TrimIsInfix(s: String)
    ensures Contains(s, TrimEnd(TrimStart(s)))
  {
    var t := TrimStart(s);
    var r := TrimEnd(t);
    var k := |s| - |t|;
    assert t == s[k..];
    assert r == t[..|r|];
    assert s[k..k + |r|] == s[k..][..|r|];
    assert OccursAt(s, r, k);
  }

  lemma TrimBlank(s: String)
    ensures |TrimEnd(TrimStart(s))| == 0 <==> IsBlank(s)
  {
    var t := TrimStart(s);
    var r := TrimEnd(t);
    var k := |s| - |t|;
    assert t == s[k..];
    if |r| > 0 {
      assert r[0] == s[k];
    } else {
      assert IsBlank(t[0..]);
      assert |t| == 0;
      forall i | 0 <= i < |s| ensures IsSpace(s[i]) {
        assert s[..k][i] == s[i];
      }
    }
  }

  /** A string not starting with whitespace is left alone by `TrimStart`. */
  lemma TrimStartKeeps(s: String)
    requires |s| > 0 && !IsSpace(s[0])
    ensures TrimStart(s) == s
  {
  }

  /** A string with no whitespace at either end is its own trim. */
  lemma {:induction false} TrimTrimmed(s: String)
    requires |s| > 0 ==> !IsSpace(s[0]) && !IsSpace(s[|s| - 1])
    ensures Trim(s) == s
  {
  }

  /** `s.split(c)`: the pieces between occurrences of `c`; at least one. */
  function Split(s: String, c: char): (r: seq<String>)
    ensures |r| >= 1
    ensures forall i | 0 <= i < |r| :: c !in r[i]
  {
    if |s| == 0 then [[]]
    else
      var rest := Split(s[1..], c);
      if s[0] == c then [[]] + rest
      else [[s[0]] + rest[0]] + rest[1..]
  }

  /** `parts.join(c)`. */
  function Join(parts: seq<String>, c: char): String
    requires |parts| >= 1
  {
    if |parts| == 1 then parts[0] else parts[0] + [c] + Join(parts[1..], c)
  }

  /** Joining the pieces of a split restores the string. */
  lemma {:induction false} JoinSplit(s: String, c: char)
    ensures Join(Split(s, c), c) == s
  {
    if |s| > 0 {
      var rest := Split(s[1..], c);
      JoinSplit(s[1..], c);
      if s[0] == c {
        assert Split(s, c)[1..] == rest;
        assert [s[0]] + s[1..] == s;
      } else {
        var r := Split(s, c);
        assert r[1..] == rest[1..];
        if |rest| == 1 {
          assert s == [s[0]] + rest[0];
        } else {
          assert rest[1..] == rest[1..];
          assert Join(rest, c) == rest[0] + [c] + Join(rest[1..], c);
          assert s == [s[0]] + s[1..];
        }
      }
    }
  }

  /** Splitting a join of separator-free pieces recovers the pieces. */
  lemma {:induction false} SplitJoin(parts: seq<String>, c: char)
    requires |parts| >= 1
    requires forall i | 0 <= i < |parts| :: c !in parts[i]
    ensures Split(Join(parts, c), c) == parts
  {
    if |parts| == 1 {
      SplitNoSeparator(parts[0], c);
    } else {
      SplitJoin(parts[1..], c);
      SplitWithSeparator(parts[0], c, Join(parts[1..], c));
      assert [parts[0]] + parts[1..] == parts;
    }
  }

  lemma {:induction false} SplitNoSeparator(s: String, c: char)
    requires c !in s
    ensures Split(s, c) == [s]
  {
    if |s| > 0 {
      SplitNoSeparator(s[1..], c);
      assert [s[0]] + s[1..] == s;
    }
  }

  lemma {:induction false} SplitWithSeparator(p: String, c: char, t: String)
    requires c !in p
    ensures Split(p + [c] + t, c) == [p] + Split(t, c)
  {
    var s := p + [c] + t;
    if |p| == 0 {
      assert s[1..] == t;
    } else {
      assert s[1..] == p[1..] + [c] + t;
      SplitWithSeparator(p[1..], c, t);
      assert [p[0]] + p[1..] == p;
    }
  }

  /** The first piece of a split is the text before the first separator
      (all of `s` when there is none). */
  lemma {:induction false} SplitHead(s: String, c: char)
    ensures Split(s, c)[0] <= s
    ensures c in s ==> |Split(s, c)[0]| < |s| && s[|Split(s, c)[0]|] == c
    ensures c !in s ==> Split(s, c)[0] == s
  {
    if |s| > 0 && s[0] != c {
      SplitHead(s[1..], c);
      assert s == [s[0]] + s[1..];
      if c in s {
        assert c in s[1..];
      }
    }
  }

  /** `p` is the text of `s` before its first `c` (all of `s` when it has
      none). */
  predicate PrefixBefore(s: String, c: char, p: String) {
    p <= s && c !in p && (|p| == |s| || s[|p|] == c)
  }

  /** Only one prefix is the text before the first separator, and it is
      the first piece of the split. */
  lemma SplitHeadIsPrefixBefore(s: String, c: char, p: String)
    ensures PrefixBefore(s, c, Split(s, c)[0])
    ensures PrefixBefore(s, c, p) ==> p == Split(s, c)[0]
  {
    SplitHead(s, c);
  }

  /** Trims every piece. */
  function TrimAll(parts: seq<String>): (r: seq<String>)
    ensures |r| == |parts|
    ensures forall i | 0 <= i < |parts| :: r[i] == Trim(parts[i])
  {
    seq(|parts|, i requires 0 <= i < |parts| => Trim(parts[i]))
  }

  predicate NonEmpty(s: String) { |s| > 0 }

  /** Piece by piece: a blank piece contributes nothing, any other piece
      its trim, in the pieces' order. */
  function TrimmedPieces(pieces: seq<String>): seq<String>
  {
    if |pieces| == 0 then []
    else (if IsBlank(pieces[0]) then [] else [Trim(pieces[0])]) + TrimmedPieces(pieces[1..])
  }

  /** `s.split(',').map(x => x.trim()).filter(Boolean)`: the comma-separated
      skills input of the application and job-posting forms. */
  function ParseList(s: String): (r: seq<String>)
    ensures forall i | 0 <= i < |r| :: |r[i]| > 0
    ensures forall i | 0 <= i < |r| :: ',' !in r[i]
    ensures forall i | 0 <= i < |r| :: !IsSpace(r[i][0]) && !IsSpace(r[i][|r[i]| - 1])
    ensures forall i | 0 <= i < |Split(s, ',')| && !IsBlank(Split(s, ',')[i]) ::
              Trim(Split(s, ',')[i]) in r
    ensures r == TrimmedPieces(Split(s, ','))
  {
    var trimmed := TrimAll(Split(s, ','));
    TrimmedCommaFree(Split(s, ','), trimmed);
    ParseListShape(trimmed);
    TrimThenDropEmpty(Split(s, ','));
    Filter(trimmed, NonEmpty)
  }

  /** Trimming every piece and then dropping the empty ones is dropping the
      blank pieces and trimming the rest. */
  lemma {:induction false} TrimThenDropEmpty(pieces: seq<String>)
    ensures Filter(TrimAll(pieces), NonEmpty) == TrimmedPieces(pieces)
  {
    if |pieces| > 0 {
      var t := TrimAll(pieces);
      var head := Trim(pieces[0]);
      TrimThenDropEmpty(pieces[1..]);
      assert t[1..] == TrimAll(pieces[1..]);
      assert t[0] == head;
      assert NonEmpty(head) <==> !IsBlank(pieces[0]);
      if IsBlank(pieces[0]) {
        assert Filter(t, NonEmpty) == Filter(t[1..], NonEmpty);
      } else {
        assert Filter(t, NonEmpty) == [head] + Filter(t[1..], NonEmpty);
      }
    }
  }

  lemma TrimmedCommaFree(pieces: seq<String>, trimmed: seq<String>)
    requires forall i | 0 <= i < |pieces| :: ',' !in pieces[i]
    requires trimmed == TrimAll(pieces)
    ensures forall j | 0 <= j < |trimmed| :: ',' !in trimmed[j]
  {
    forall j | 0 <= j < |trimmed| ensures ',' !in trimmed[j] {
      TrimInfix(pieces[j]);
      CommaFreeInfix(pieces[j], trimmed[j]);
    }
  }

  lemma ParseListShape(trimmed: seq<String>)
    requires forall j | 0 <= j < |trimmed| :: |trimmed[j]| > 0 ==> !IsSpace(trimmed[j][0]) && !IsSpace(trimmed[j][|trimmed[j]| - 1])
    requires forall j | 0 <= j < |trimmed| :: ',' !in trimmed[j]
    ensures forall i | 0 <= i < |Filter(trimmed, NonEmpty)| :: var x := Filter(trimmed, NonEmpty)[i];
              ',' !in x && |x| > 0 && !IsSpace(x[0]) && !IsSpace(x[|x| - 1])
  {
    var r := Filter(trimmed, NonEmpty);
    forall i | 0 <= i < |r| ensures ',' !in r[i] && |r[i]| > 0 && !IsSpace(r[i][0]) && !IsSpace(r[i][|r[i]| - 1]) {
      assert r[i] in trimmed;
      var j :| 0 <= j < |trimmed| && trimmed[j] == r[i];
    }
  }

  lemma CommaFreeInfix(s: String, t: String)
    requires ',' !in s && Contains(s, t)
    ensures ',' !in t
  {
    var k :| 0 <= k <= |s| && OccursAt(s, t, k);
    forall m | 0 <= m < |t| ensures t[m] != ',' {
      assert t[m] == s[k + m];
    }
  }

  /** Items that are non-empty, trimmed and comma-free survive a round trip
      through the comma-separated text field. */
  lemma ParseListJoin(items: seq<String>)
    requires |items| >= 1
    requires forall i | 0 <= i < |items| :: |items[i]| > 0 && ',' !in items[i]
    requires forall i | 0 <= i < |items| :: !IsSpace(items[i][0]) && !IsSpace(items[i][|items[i]| - 1])
    ensures ParseList(Join(items, ',')) == items
  {
    SplitJoin(items, ',');
    forall i | 0 <= i < |items| ensures Trim(items[i]) == items[i] {
      TrimTrimmed(items[i]);
    }
    assert TrimAll(items) == items;
    FilterKeepsAll(items, NonEmpty);
  }

  /** `parts.join(sep)` with a separator string; no parts join to "". */
  function JoinWith(parts: seq<String>, sep: String): String {
    if |parts| == 0 then [] else if |parts| == 1 then parts[0] else parts[0] + sep + JoinWith(parts[1..], sep)
  }

  /** Joining with a one-character string is joining with that character. */
  lemma {:induction false} JoinWithChar(parts: seq<String>, c: char)
    requires |parts| >= 1
    ensures JoinWith(parts, [c]) == Join(parts, c)
  {
    if |parts| > 1 {
      JoinWithChar(parts[1..], c);
    }
  }

  /** The pieces with every piece after the first prefixed by `pad`. */
  function Padded(parts: seq<String>, pad: String): (r: seq<String>)
    ensures |r| == |parts|
    ensures forall i | 0 <= i < |parts| :: r[i] == if i == 0 then parts[i] else pad + parts[i]
  {
    seq(|parts|, i requires 0 <= i < |parts| => if i == 0 then parts[i] else pad + parts[i])
  }

  /** Joining with `c` and then `pad` is joining the padded pieces with `c`. */
  lemma {:induction false} JoinWithPadded(parts: seq<String>, c: char, pad: String)
    requires |parts| >= 1
    ensures JoinWith(parts, [c] + pad) == Join(Padded(parts, pad), c)
  {
    if |parts| > 1 {
      var tail := Padded(parts[1..], pad);
      JoinWithPadded(parts[1..], c, pad);
      var q := [pad + parts[1]] + tail[1..];
      assert Padded(parts, pad)[1..] == q;
      PadFirst(parts[1], tail[1..], c, pad);
      assert [parts[1]] + tail[1..] == tail;
    }
  }

  /** Padding the first piece pads the join. */
  lemma PadFirst(p: String, rest: seq<String>, c: char, pad: String)
    ensures Join([pad + p] + rest, c) == pad + Join([p] + rest, c)
  {
    if |rest| > 0 {
      assert ([pad + p] + rest)[1..] == rest;
      assert ([p] + rest)[1..] == rest;
    }
  }

  /** A list of non-empty, comma-free, trimmed items shown as
      `items.join(', ')` parses back to the same list; no items show as
      the empty string, which parses to no items. */
  lemma ParseListJoinWith(items: seq<String>)
    requires forall i | 0 <= i < |items| :: |items[i]| > 0 && ',' !in items[i]
    requires forall i | 0 <= i < |items| :: !IsSpace(items[i][0]) && !IsSpace(items[i][|items[i]| - 1])
    ensures ParseList(JoinWith(items, ", ")) == items
  {
    if |items| == 0 {
      assert Split([], ',') == [[]];
      assert TrimAll([[]]) == [[]];
    } else {
      SplitJoinWith(items);
      PaddedTrims(items);
      FilterKeepsAll(items, NonEmpty);
    }
  }

  /** Splitting the `', '` join at commas gives the padded items. */
  lemma SplitJoinWith(items: seq<String>)
    requires |items| >= 1
    requires forall i | 0 <= i < |items| :: ',' !in items[i]
    ensures Split(JoinWith(items, ", "), ',') == Padded(items, " ")
  {
    var padded := Padded(items, " ");
    JoinWithPadded(items, ',', " ");
    assert [','] + " " == ", ";
    assert forall i | 0 <= i < |items| :: ',' !in padded[i];
    SplitJoin(padded, ',');
  }

  /** Trimming the padded items gives the items back. */
  lemma PaddedTrims(items: seq<String>)
    requires forall i | 0 <= i < |items| :: |items[i]| > 0
    requires forall i | 0 <= i < |items| :: !IsSpace(items[i][0]) && !IsSpace(items[i][|items[i]| - 1])
    ensures TrimAll(Padded(items, " ")) == items
  {
    var padded := Padded(items, " ");
    forall i | 0 <= i < |items| ensures Trim(padded[i]) == items[i] {
      TrimTrimmed(items[i]);
      if i > 0 { TrimPad(items[i]); }
    }
  }

  /** One leading space is trimmed away. */
  lemma TrimPad(s: String)
    ensures Trim(" " + s) == Trim(s)
  {
    assert (" " + s)[1..] == s;
  }

  /** The longest prefix of decimal digits. */
  function LeadingDigits(s: String): (r: String)
    ensures r <= s
    ensures forall i | 0 <= i < |r| :: IsDigit(r[i])
    ensures |r| < |s| ==> !IsDigit(s[|r|])
  {
    if |s| > 0 && IsDigit(s[0]) then [s[0]] + LeadingDigits(s[1..]) else []
  }

  function DigitValue(c: char): nat
    requires IsDigit(c)
  {
    c as int - '0' as int
  }

  /** The number a string of decimal digits denotes. */
  function DigitsValue(ds: String): nat
    requires forall i | 0 <= i < |ds| :: IsDigit(ds[i])
  {
    if |ds| == 0 then 0 else DigitsValue(ds[..|ds| - 1]) * 10 + DigitValue(ds[|ds| - 1])
  }

  /** `parseInt(s, 10)`: skips leading whitespace, reads an optional sign and
      the longest run of digits after it; `None` stands for `NaN`. */
  function ParseInt(s: String): (r: Option<int>)
    ensures r.None? <==> |LeadingDigits(SignlessPart(TrimStart(s)))| == 0
  {
    var t := TrimStart(s);
    var ds := LeadingDigits(SignlessPart(t));
    var v: int := if |ds| == 0 then 0 else DigitsValue(ds);
    if |ds| == 0 then None
    else if |t| > 0 && t[0] == '-' then Some(-v)
    else Some(v)
  }

  function SignlessPart(t: String): String {
    if |t| > 0 && (t[0] == '-' || t[0] == '+') then t[1..] else t
  }

  function DigitChar(d: nat): (c: char)
    requires d < 10
    ensures IsDigit(c) && DigitValue(c) == d
  {
    ('0' as int + d) as char
  }

  /** The decimal rendering of a natural number, as `String(n)` gives it. */
  function Decimal(n: nat): (r: String)
    ensures |r| >= 1
    ensures forall i | 0 <= i < |r| :: IsDigit(r[i])
  {
    if n < 10 then [DigitChar(n)] else Decimal(n / 10) + [DigitChar(n % 10)]
  }

  lemma {:induction false} DigitsValueDecimal(n: nat)
    ensures DigitsValue(Decimal(n)) == n
  {
    if n >= 10 {
      DigitsValueDecimal(n / 10);
      var r := Decimal(n);
      assert r[..|r| - 1] == Decimal(n / 10);
    }
  }

  lemma {:induction false} LeadingDigitsAll(s: String)
    requires forall i | 0 <= i < |s| :: IsDigit(s[i])
    ensures LeadingDigits(s) == s
  {
    if |s| > 0 {
      LeadingDigitsAll(s[1..]);
      assert [s[0]] + s[1..] == s;
    }
  }

  /** `parseInt` reads back the decimal rendering of every natural number. */
  lemma ParseIntDecimal(n: nat)
    ensures ParseInt(Decimal(n)) == Some(n)
  {
    var s := Decimal(n);
    assert !IsSpace(s[0]);
    TrimStartKeeps(s);
    assert SignlessPart(s) == s;
    LeadingDigitsAll(s);
    DigitsValueDecimal(n);
    assert LeadingDigits(SignlessPart(TrimStart(s))) == s;
  }

  /** `parseInt` of an empty string, or of one that starts with anything but
      whitespace, a sign or a digit, is `NaN`. */
  lemma ParseIntNaN(s: String)
    requires |s| == 0 || (!IsSpace(s[0]) && s[0] != '-' && s[0] != '+' && !IsDigit(s[0]))
    ensures ParseInt(s).None?
  {
    if |s| > 0 {
      TrimStartKeeps(s);
      assert SignlessPart(s) == s;
      assert LeadingDigits(s) == [];
    }
  }

  /** `parseInt` of a minus sign before a decimal rendering is its negation. */
  lemma ParseIntNegative(n: nat)
    ensures ParseInt("-" + Decimal(n)) == Some(-(n as int))
  {
    var s := "-" + Decimal(n);
    assert s[0] == '-';
    TrimStartKeeps(s);
    assert SignlessPart(s) == Decimal(n);
    LeadingDigitsAll(Decimal(n));
    DigitsValueDecimal(n);
  }
}

=== FILE: vercel_api.dfy ===
/** The Vercel serverless functions: `api/jobs.js` dispatches on the method
    and on the `id` query parameter; `api/jobs/search.js` answers only GET.
    Both answer a CORS preflight with an empty 200 and an unknown method
    with 405. */
module VercelApi {
  import opened Options
  import opened Text
  import opened Jobs
  import opened Http
  import JsCrud

  /** ``res.status(405).end(`Method ${req.method} Not Allowed`)``. */
  function NotAllowed(verb: String): (r: Response)
    ensures r.status == StatusMethodNotAllowed
  {
    Response(StatusMethodNotAllowed, PlainText("Method " + verb + " Not Allowed"))
  }

  /** The filtered, paginated listing both files compute from the query. */
  function QuerySearch(store: Store, order: seq<String>, q: Query): Response {
    JsCrud.Search(store, order, q.keyword.GetOr(""), q.location.GetOr(""), q.jobType.GetOr(""), q.page, q.size)
  }

  /** A stand-in for the error message of the document client library,
      whose wording is not part of this model. */
  const PathErrorMessage: String := "invalid document path"

  /** `jobsCollection.doc(id)` throws for a missing or empty id, and the
      handler answers 500 with the library's message. */
  function BadPath(store: Store): Exchange {
    Exchange(Response(StatusServerError, Failure(PathErrorMessage)), store)
  }

  /** `api/jobs.js`. */
  function HandleJobs(store: Store, order: seq<String>, req: Request, docId: String): (r: Exchange)
    ensures req.verb == "OPTIONS" ==> r == Exchange(Response(StatusOk, NoBody), store)
    ensures req.verb !in {"OPTIONS", "GET", "POST", "PUT", "DELETE"} ==>
              r == Exchange(NotAllowed(req.verb), store)
    ensures req.verb == "GET" && Truthy(req.query.id) ==>
              r == Exchange(JsCrud.Get(store, req.query.id.value), store)
    ensures req.verb == "GET" && !Truthy(req.query.id) ==>
              r == Exchange(QuerySearch(store, order, req.query), store)
    ensures req.verb == "POST" ==> r == JsCrud.Create(store, req.body, docId)
    ensures req.verb in {"PUT", "DELETE"} && !Truthy(req.query.id) ==>
              r.response.status == StatusServerError && r.store == store
    ensures req.verb == "PUT" && Truthy(req.query.id) ==> r == JsCrud.Put(store, req.query.id.value, req.body)
    ensures req.verb == "DELETE" && Truthy(req.query.id) ==> r == JsCrud.Delete(store, req.query.id.value)
    ensures req.verb != "POST" && req.verb != "PUT" && req.verb != "DELETE" ==> r.store == store
  {
    var q := req.query;
    if req.verb == "OPTIONS" then Exchange(Response(StatusOk, NoBody), store)
    else if req.verb == "GET" then
      if Truthy(q.id) then Exchange(JsCrud.Get(store, q.id.value), store)
      else Exchange(QuerySearch(store, order, q), store)
    else if req.verb == "POST" then JsCrud.Create(store, req.body, docId)
    else if req.verb == "PUT" then
      if Truthy(q.id) then JsCrud.Put(store, q.id.value, req.body) else BadPath(store)
    else if req.verb == "DELETE" then
      if Truthy(q.id) then JsCrud.Delete(store, q.id.value) else BadPath(store)
    else Exchange(NotAllowed(req.verb), store)
  }

  /** `api/jobs/search.js`: never changes the store. */
  function HandleSearch(store: Store, order: seq<String>, req: Request): (r: Exchange)
    ensures r.store == store
    ensures req.verb == "OPTIONS" ==> r.response == Response(StatusOk, NoBody)
    ensures req.verb != "OPTIONS" && req.verb != "GET" ==> r.response == NotAllowed(req.verb)
    ensures req.verb == "GET" ==> r.response == QuerySearch(store, order, req.query)
  {
    if req.verb == "OPTIONS" then Exchange(Response(StatusOk, NoBody), store)
    else if req.verb != "GET" then Exchange(NotAllowed(req.verb), store)
    else Exchange(QuerySearch(store, order, req.query), store)
  }

  /** A listing without an id in `api/jobs.js` is exactly the search
      function's answer to the same query. */
  lemma ListingIsSearch(store: Store, order: seq<String>, req: Request, docId: String)
    requires req.verb == "GET" && !Truthy(req.query.id)
    ensures HandleJobs(store, order, req, docId) == HandleSearch(store, order, req)
    ensures var r := HandleJobs(store, order, req, docId).response;
            r.status == StatusOk &&
            forall i | 0 <= i < |r.body.jobs| ::
              JsCrud.Matches(r.body.jobs[i], req.query.keyword.GetOr(""), req.query.location.GetOr(""),
                             req.query.jobType.GetOr(""))
  {
  }
}
